=== FILE: README.md ===
# Healmate prescriptions and appointment views in Dafny

This project models the prescription path of Healmate, a doctor-appointment
web application, together with the status logic of its two appointment lists.

- **Staff form.** A doctor fills in the staff prescription form. It writes a
  labelled multi-line text ("Patient:", "Age:", "Treatment:", "Medications:",
  "Date:") and posts it with a type and an optional PDF.
- **Patient-side form.** This form writes the same text, indented by eight
  spaces, and posts it without a type.
- **Upload middleware.** It filters and names the uploaded file.
- **`addPrescription` handler.** It:
  - checks the appointment's owner;
  - resolves the stored type;
  - re-reads Age and Treatment from the text;
  - has a PDF generated;
  - saves the document through the schema;
  - marks the appointment completed.
- **PDF generator.** It splits the text into a medication list and the other
  text, and turns the list into bullets.
- **Appointment lists.** The patient's list and the doctor's table choose a
  status badge and actions from the `cancelled`, `payment` and `isCompleted`
  flags. Clicking through the doctor's table opens three dialogs.

Everything is pure. Strings are `seq<char>`, and the JavaScript string
operations used (`split`, `join`, `trim`, `includes`, `||` truthiness,
`Number`) are written out with their JavaScript meaning in `JsString` and
`JsArray`. Things the code reads from outside are parameters:
- the clock (`Date.now()`, `new Date()`);
- the PDF generator module's `__dirname` and the PDF stream's outcome;
- the database lookups, as maps in `Env`;
- the stored appointments and prescriptions, as a `Store`.

| module | file | models |
|---|---|---|
| `Records` | records.dfy | `prescriptionModel` schema, appointment flags, `FormData` |
| `Upload` | upload.dfy | `multer.js` filter, size limit, stored name, `single("prescriptionFile")` |
| `PrescriptionController` | controller.dfy | `addPrescription`, the three readers |
| `PdfGenerator` | pdf_generator.dfy | medication split, bullets, page items, output path |
| `PrescriptionText` | prescription_text.dfy | the text both forms compose, and how it reads back |
| `AdminForm` | admin_form.dfy | staff `PrescriptionForm.jsx` |
| `FrontendForm` | frontend_form.dfy | patient-side `PrescriptionForm.jsx` |
| `PatientAppointments` | patient_appointments.dfy | `MyAppointments.jsx` |
| `DoctorAppointments` | doctor_appointments.dfy | `DoctorAppointments.jsx` |
| `Pipeline` | pipeline.dfy | forms, upload and handler composed |

Three behaviours of the code worth knowing, each modelled as the code
runs:
- **No PDF is ever generated, so a text-only staff submission is stored as
  "text" with no file.** The handler asks for a PDF whenever the text is
  non-empty and the submitted type is "text" or "both". It would then store
  the PDF path with type "both" (`Pipeline.AdminTextOnlyStored`). But the
  generator reads `__dirname`, which an ES module does not define. So every
  call rejects, the handler catches the error, and the upload (or nothing)
  is stored (`Pipeline.AdminTextOnlyStoredAsRun`). See "Findings".
- **The staff form never prefills.** The doctor context's `getAppointments`
  returns nothing, so the form's `find` throws and the error is caught. The
  name and age inputs stay empty (`AdminForm.Prefill`). See "Findings".
- **Blank lines do not end the medication section.** The generator skips
  blank lines but never leaves the section once a "Medications:" line is
  seen. So on the forms' text the "Date:" line is treated as a medication
  (`PrescriptionText.TemplateMedications`).

## Model

| member | source | states |
|---|---|---|
| Records.ParseType | backend/models/prescriptionModel.js:9 | the type enum accepts exactly "text", "file" and "both", and an accepted name maps back to itself |
| Records.ValidationErrors | backend/models/prescriptionModel.js:3-13 | no path fails exactly when the three ids are non-empty, the type is one of the enum names, and both profiles are present |
| Records.Validate | backend/models/prescriptionModel.js:3-13 | a saved document keeps each supplied value, and text and file default to "" |
| Records.TypeNotTiedToContents | backend/models/prescriptionModel.js:7-9 | a "file" document with no file, or a "text" document with no text, still validates |
| Records.Field | backend/controllers/prescriptionController.js:12 | a body field comes from an entry of that name; it is absent exactly when no entry has the name |
| Records.FieldIsFirst | backend/controllers/prescriptionController.js:12 | the field read is the first entry of that name: no earlier entry has the name |
| Upload.FileFilter | backend/middlewares/multer.js:22-34 | a file is accepted iff its MIME type is image/jpeg, image/png, image/jpg or application/pdf; any other type gets the "Unsupported file format" error |
| Upload.ExtName | backend/middlewares/multer.js:16 | the extension is empty or starts with the last '.' of the base name and runs to its end |
| Upload.ExtNameOfStem | backend/middlewares/multer.js:16 | a name "stem.ext" with a non-empty stem, no '/' anywhere, a dot-free extension and other than ".." gets "." + ext |
| Upload.ExtNameOfDotFile | backend/middlewares/multer.js:16 | a dot-file such as ".env" gets no extension |
| Upload.StoredName | backend/middlewares/multer.js:16 | the stored name holds no '/', starts with the timestamp's numeral, and whatever follows the numeral begins with '.' |
| Upload.StoredNameTimestamp | backend/middlewares/multer.js:15-17 | the stored name starts with exactly the timestamp's decimal digits, which read back as the timestamp |
| Upload.StoredNamesDistinct | backend/middlewares/multer.js:15-17 | files stored at different timestamps never share a name |
| Upload.Store | backend/middlewares/multer.js:11-18 | a file is stored iff its type is accepted and its size is at most 10·1024·1024 bytes; it goes to "uploads" under the timestamp name; a rejected type reports the type error, and an accepted type over the limit reports TooLarge |
| Upload.ReceiveSingle | backend/routes/doctorRoute.js:33 | the text entries become the body; a first file under another field is rejected as an unexpected field of that name; a first "prescriptionFile" the filter or size limit rejects fails the request with that error, even when a second file follows; a second file after an accepted first is an unexpected field of its name; a lone "prescriptionFile" is stored exactly when the store accepts it |
| Upload.SecondFileReportsFirstError | backend/middlewares/multer.js:22-34 | with two "prescriptionFile" entries, an unsupported first file fails with the filter's message, an oversized one with the size error, and only an accepted first file lets the second be reported as unexpected |
| Upload.ReceiveOneAcceptedFile | backend/routes/doctorRoute.js:33 | text entries followed by one accepted "prescriptionFile" within the size limit give exactly those texts as the body and the file stored in "uploads" under its timestamp name |
| PrescriptionController.ResolveType | backend/controllers/prescriptionController.js:36-44 | text plus a file gives "both"; otherwise the submitted type, or "file"/"text" by whether a file came |
| PrescriptionController.PdfPath | backend/controllers/prescriptionController.js:47-77 | there is a PDF path iff the text is non-empty, the submitted type is "text" or "both", both profiles exist and generation works (a defined directory and a finished stream); the path is the generator's |
| PrescriptionController.ScanKeepsLast | backend/controllers/prescriptionController.js:53-60 | the scan ends holding the value of the last Age line and the last Treatment line, or the starting values when there is none |
| PrescriptionController.ExtractFields | backend/controllers/prescriptionController.js:50-60 | age and treatment are the trimmed text between the first and second ':' of the last matching line; a line holding both labels counts as Age |
| PrescriptionController.AddPrescription | backend/controllers/prescriptionController.js:10-96 | a missing appointment and another doctor's appointment are rejected with nothing changed; a saved document is the one new record, and its appointment becomes completed |
| PrescriptionController.ReplyMessage | backend/controllers/prescriptionController.js:18-91 | every outcome except a validation failure has a fixed reply, and only a save replies "Prescription added successfully" |
| PrescriptionController.AddedIff | backend/controllers/prescriptionController.js:25-82 | an owned request is saved iff the ids are non-empty, both profiles are found and the type is acceptable |
| PrescriptionController.SavedFileAndType | backend/controllers/prescriptionController.js:34-77 | the stored text, file and type in every case: a generated PDF, an uploaded file, or neither |
| PrescriptionController.AsRunNoPdf | backend/controllers/prescriptionController.js:47-77 | with the generator as it runs, a saved prescription keeps the uploaded file's name (or "") and the type the request resolved to |
| PrescriptionController.AddCompletes | backend/controllers/prescriptionController.js:84-89 | after a save the appointment is completed; an already completed appointment is not rewritten |
| PrescriptionController.AddPreservesConsistent | backend/controllers/prescriptionController.js:80-89 | adding with a fresh id keeps ids unique and keeps every prescribed appointment completed |
| PrescriptionController.DoctorPrescriptions | backend/controllers/prescriptionController.js:99-125 | an unknown doctor gets "Doctor not found"; otherwise the list holds exactly the records with the doctor's id or name, in stored order |
| PrescriptionController.NamesakeListed | backend/controllers/prescriptionController.js:111-116 | another doctor's record whose stored doctor name matches is listed too |
| PrescriptionController.PatientKey | backend/controllers/prescriptionController.js:132 | the route's patient id when non-empty, else the signed-in user |
| PrescriptionController.PatientPrescriptions | backend/controllers/prescriptionController.js:128-141 | exactly the records of that patient, in order |
| PrescriptionController.GetPrescription | backend/controllers/prescriptionController.js:144-158 | a found document carries the id; otherwise "Prescription not found" |
| PrescriptionController.AddThenGet | backend/controllers/prescriptionController.js:81-82 | a newly saved prescription can be fetched by its id |
| PdfGenerator.OutputPath | backend/utils/pdfGenerator.js:21-22 | the path is "/uploads/prescription_", then a '/'-free middle, then ".pdf" |
| PdfGenerator.OutputPathTimestamp | backend/utils/pdfGenerator.js:21-22 | the path is "/uploads/prescription_" + numeral + ".pdf", and the numeral reads back as the timestamp |
| PdfGenerator.OutputPathInjective | backend/utils/pdfGenerator.js:21-22 | distinct timestamps give distinct paths |
| PdfGenerator.Generate | backend/utils/pdfGenerator.js:17-147 | an undefined `__dirname` rejects before any stream; otherwise a stream error rejects; the promise resolves iff both are fine, with the timestamp's path and the page drawn from the data |
| PdfGenerator.GenerateInModuleRejects | backend/utils/pdfGenerator.js:23 | as the module runs, every call rejects with the `__dirname` error, whatever the data, time and stream |
| PdfGenerator.GenerateWithDirname | backend/utils/pdfGenerator.js:17-147 | with a defined directory the promise resolves iff the stream finishes, different timestamps name different files, and the page opens with the doctor header and ends with the doctor's name |
| PdfGenerator.ScanMedications | backend/utils/pdfGenerator.js:84-91 | the loop collects the labelled lines and, after the first, every non-blank line |
| PdfGenerator.PartitionMedications | backend/utils/pdfGenerator.js:77-95 | without the label there are no medications and the other text is the whole input; with it, the lines are split into the two sides |
| PdfGenerator.PartitionStartsWithLabelLine | backend/utils/pdfGenerator.js:80-91 | with the label present, the list starts with the first labelled line |
| PdfGenerator.PartitionExclusive | backend/utils/pdfGenerator.js:94 | every line lands in exactly one of medications and other text, by value |
| PdfGenerator.MedicationLinesFromInput | backend/utils/pdfGenerator.js:84-91 | every medication entry is a line of the input |
| PdfGenerator.LabelValueOfLine | backend/utils/pdfGenerator.js:105 | on "<prefix><label> <value>" with a trimmed value and no other ':', the first-to-second-colon text trimmed is the value |
| PdfGenerator.FirstBullet | backend/utils/pdfGenerator.js:103-108 | a labelled first entry gives its value between the first and second ':' trimmed, or no bullet when that is empty; an unlabelled one gives its trim |
| PdfGenerator.Bullets | backend/utils/pdfGenerator.js:102-112 | position by position: the first entry's bullet if any, then entry k trimmed at position k-1 or k, with one bullet per entry except an empty labelled first |
| PdfGenerator.BulletsOfLabelledFirst | backend/utils/pdfGenerator.js:102-112 | when the list starts with a labelled line, as a text's list does, its value is the first bullet and there is one bullet per entry, or one fewer when the value is empty |
| PdfGenerator.HeaderLines | backend/utils/pdfGenerator.js:61-72 | the patient line always; Age and Treatment only when non-empty |
| PdfGenerator.MedicationBlock | backend/utils/pdfGenerator.js:97-115 | the heading and bullets appear iff there is a medication; under the heading, item i+1 is the bullet mark followed by bullet i |
| PdfGenerator.MedicationBlockOfLabelledFirst | backend/utils/pdfGenerator.js:97-115 | for a list starting with a labelled line with a value, the block shows the heading, that value bulleted, then each later entry trimmed and bulleted |
| PdfGenerator.OtherBlock | backend/utils/pdfGenerator.js:117-121 | the other text is drawn iff its trim is non-empty, and then as exactly its trim, once |
| PdfGenerator.Render | backend/utils/pdfGenerator.js:47-130 | the page opens with the doctor header and closes with the date and signature |
| PdfGenerator.MedicationBlockIffLabel | backend/utils/pdfGenerator.js:80-98 | the medications block is drawn exactly when the text holds "Medications:" |
| PrescriptionText.Compose | admin/src/components/PrescriptionForm.jsx:116-122 | no contract of its own: the template text; `PrescriptionText.ComposeLines` states its line structure |
| PrescriptionText.ComposeLines | admin/src/components/PrescriptionForm.jsx:116-122 | splitting the composed text on '\n' gives the blank line, the five labelled lines in order, and the closing line |
| PrescriptionText.ExtractCompose | backend/controllers/prescriptionController.js:53-60 | for plain, trimmed values, parsing a composed text returns exactly its age and treatment |
| PrescriptionText.ColonTruncatesTreatment | backend/controllers/prescriptionController.js:57-58 | a treatment "a:b" whose "a" does not end in "Age" reads back as the trimmed "a", because the value stops at the line's second ':'; the age still reads back |
| PrescriptionText.TemplateMedications | backend/utils/pdfGenerator.js:84-91 | on a composed text with single-line values and no "Medications:" on an earlier line, the medication list is the Medications line and the Date line |
| PrescriptionText.TemplateBullets | backend/utils/pdfGenerator.js:102-112 | for a ':'-free, trimmed medications value, the bullets of a composed text are that value and "Date: <date>"; an empty value gives only "Date: <date>" |
| PrescriptionText.ColonTruncatesFirstBullet | backend/utils/pdfGenerator.js:102-112 | a medications value "a:b" (such as a time "3:00 PM") whose "a" is not blank is drawn as the trimmed "a" alone, followed by the "Date: <date>" bullet |
| PrescriptionText.ColonDropsFirstBullet | backend/utils/pdfGenerator.js:102-112 | a medications value "a:b" whose "a" is blank (such as ":30 PM") draws no medication bullet, only "Date: <date>" |
| AdminForm.Initial | admin/src/components/PrescriptionForm.jsx:13-22 | the form opens empty, dated with exactly the part of the ISO timestamp before its first 'T' |
| AdminForm.CalculateAge | admin/src/components/PrescriptionForm.jsx:50-61 | the age is the number of whole birthdays reached: today is on or after the age-th anniversary and before the next |
| AdminForm.AgeUnique | admin/src/components/PrescriptionForm.jsx:50-61 | only one age satisfies the anniversary bracket |
| AdminForm.AgeText | admin/src/components/PrescriptionForm.jsx:37 | no birth date gives ""; otherwise a decimal numeral that reads back as the computed age, with a '-' for a negative one |
| AdminForm.SplitPatientName | admin/src/components/PrescriptionForm.jsx:31-36 | the first name has no space; with a space, first + " " + last is the name; without one, the last name is "" |
| AdminForm.FindAppointment | admin/src/components/PrescriptionForm.jsx:29 | the appointment at the first index holding the id, or none when no appointment has it |
| AdminForm.PrefillWith | admin/src/components/PrescriptionForm.jsx:25-48 | given a fetched list, a found appointment fills the first name (the name up to its first space), the rest of the name and the age; an undefined fetch, no id or no match leaves the form unchanged |
| AdminForm.PrefillIdempotent | admin/src/components/PrescriptionForm.jsx:25-48 | prefilling twice is prefilling once |
| AdminForm.Prefill | admin/src/context/DontorContext.jsx:17-34 | as the form runs the fetch resolves to `undefined`, so the form is left exactly as it was |
| AdminForm.PrefillNeverFills | admin/src/components/PrescriptionForm.jsx:28-38 | for a found patient whose name starts with a letter, the running form keeps the first name empty while a returned list would fill it |
| AdminForm.Edit | admin/src/components/PrescriptionForm.jsx:63-69 | one input takes the typed value and nothing else changes |
| AdminForm.AddMedication | admin/src/components/PrescriptionForm.jsx:71-79 | a non-blank input is appended as its trim and cleared; a blank one changes nothing |
| AdminForm.AddMedicationKeepsClean | admin/src/components/PrescriptionForm.jsx:71-79 | a list of trimmed non-empty entries stays so |
| AdminForm.SelectFile | admin/src/components/PrescriptionForm.jsx:81-92 | a PDF is kept; any other file, or none, leaves the form unchanged |
| AdminForm.StepsKeepAttachmentPdf | admin/src/components/PrescriptionForm.jsx:81-92 | whatever the user does, the attachment is a PDF or nothing |
| AdminForm.ListAfterSubmit | admin/src/components/PrescriptionForm.jsx:103-105 | a non-blank pending entry is added to the kept list only if it is not already there |
| AdminForm.AllMedications | admin/src/components/PrescriptionForm.jsx:112-114 | the sent list is the list plus the trimmed pending entry when it is non-blank |
| AdminForm.WrittenAgainstKept | admin/src/components/PrescriptionForm.jsx:103-114 | a pending entry already in the list is written twice in the text but kept once |
| AdminForm.MedicationsText | admin/src/components/PrescriptionForm.jsx:120 | an empty list reads "None prescribed"; otherwise every entry appears |
| AdminForm.MedicationsTextSplitsBack | admin/src/components/PrescriptionForm.jsx:120 | cutting the value at every ',' and trimming gives the trimmed, comma-free entries back in order |
| AdminForm.Submit | admin/src/components/PrescriptionForm.jsx:94-131 | blocked iff a required input is empty; otherwise it sends the id, "both"/"text" by the attachment, the text and the attachment, in that order |
| FrontendForm.InitialNames | frontend/src/components/PrescriptionForm.jsx:8-9 | the first name is the name up to its first space and the last name is what follows up to the next space; a name with no space gives itself and ""; no name gives "" and "" |
| FrontendForm.InitialNamesDropRest | frontend/src/components/PrescriptionForm.jsx:8-9 | a name of three or more pieces keeps only the first two |
| FrontendForm.Initial | frontend/src/components/PrescriptionForm.jsx:7-15 | the form opens with those names, empty fields and exactly the part of the ISO timestamp before its first 'T' |
| FrontendForm.AddMedication | frontend/src/components/PrescriptionForm.jsx:31-36 | a non-blank input is appended as typed and cleared; a blank one changes nothing |
| FrontendForm.AddMedicationKeepsSpaces | frontend/src/components/PrescriptionForm.jsx:33 | any non-blank input with whitespace at an end is listed as typed, which differs from its trim |
| FrontendForm.SelectFile | frontend/src/components/PrescriptionForm.jsx:27-29 | any chosen file replaces the previous one |
| FrontendForm.Submit | frontend/src/components/PrescriptionForm.jsx:38-59 | nothing is sent while a required input is empty; otherwise the id, the text and the file if any, never a type |
| Pipeline.AdminTextReadBack | admin/src/components/PrescriptionForm.jsx:116-122 | the handler reads back the staff form's age and treatment |
| Pipeline.FrontendTextReadBack | frontend/src/components/PrescriptionForm.jsx:47-53 | the handler reads back the patient form's age and treatment |
| Pipeline.AdminTextOnlyStored | backend/controllers/prescriptionController.js:42-77 | a staff text-only submission is saved as a generated PDF typed "both" when generation works, else as text with no file |
| Pipeline.AdminTextOnlyStoredAsRun | backend/utils/pdfGenerator.js:23 | with the generator as it runs, a staff text-only submission is saved as "text" with no file |
| Pipeline.FrontendTextOnlyStored | backend/controllers/prescriptionController.js:34-47 | a patient submission without a file is saved as "text" with no file, with no PDF attempted |
| Pipeline.FrontendWithoutDoctorRejected | backend/controllers/prescriptionController.js:13-23 | a patient submission whose request carries a doctor id other than the appointment's, as a user token gives, is answered "Unauthorized action" and the store is unchanged |
| PatientAppointments.MonthNames | frontend/src/pages/MyAppointments.jsx:17 | entry 0 is blank; entries 1 to 12 are distinct three-letter names |
| PatientAppointments.MonthLabel | frontend/src/pages/MyAppointments.jsx:17-21 | the table entry at Number(piece), or "undefined" when that is not an index |
| PatientAppointments.SlotDateFormat | frontend/src/pages/MyAppointments.jsx:19-22 | no contract of its own: the formatter; `PatientAppointments.SlotDateFormatOf` and `PatientAppointments.SlotDateFormatNoSeparator` state what it shows |
| PatientAppointments.SlotDateFormatOf | frontend/src/pages/MyAppointments.jsx:19-22 | "d_m_y" is shown as d, the month's name, then y |
| PatientAppointments.SlotDateFormatDistinguishesMonths | frontend/src/pages/MyAppointments.jsx:19-22 | different months show differently |
| PatientAppointments.SlotDateFormatNoSeparator | frontend/src/pages/MyAppointments.jsx:19-22 | a date without '_' shows "undefined" for month and year |
| PatientAppointments.Displayed | frontend/src/pages/MyAppointments.jsx:29 | the list is shown newest-first |
| PatientAppointments.DisplayedSameAppointments | frontend/src/pages/MyAppointments.jsx:29 | reversing shows every appointment once and nothing else |
| PatientAppointments.Status | frontend/src/pages/MyAppointments.jsx:149-155 | each badge's exact condition |
| PatientAppointments.ExactlyOneBadge | frontend/src/pages/MyAppointments.jsx:149-155 | exactly one of Paid, Pay Online, Appointment Cancelled and Completed shows |
| PatientAppointments.Controls | frontend/src/pages/MyAppointments.jsx:149-167 | one or two controls, the first being the status badge; a second shows unless the appointment is cancelled and not completed, and it is Add Prescription when completed, else Cancel appointment |
| PatientAppointments.ControlsDistinct | frontend/src/pages/MyAppointments.jsx:149-167 | no control shows twice |
| PatientAppointments.CancelOffered | frontend/src/pages/MyAppointments.jsx:149-151 | cancel shows iff neither cancelled nor completed, i.e. exactly with Paid or Pay Online |
| PatientAppointments.CompletedWins | frontend/src/pages/MyAppointments.jsx:152-167 | completed beats cancelled; only completed appointments offer a prescription |
| PatientAppointments.OpenDialog | frontend/src/pages/MyAppointments.jsx:157-161 | a completed appointment opens the form for itself; others change nothing |
| PatientAppointments.CloseDialog | frontend/src/pages/MyAppointments.jsx:178-181 | from any state, the form is hidden and no appointment stays selected |
| PatientAppointments.OpenThenClose | frontend/src/pages/MyAppointments.jsx:174-183 | the form opened is for the chosen appointment, and closing clears both flags |
| DoctorAppointments.PaymentLabel | admin/src/pages/Doctor/DoctorAppointments.jsx:99 | "Online" iff paid, else "CASH" |
| DoctorAppointments.StatusOf | admin/src/pages/Doctor/DoctorAppointments.jsx:110-136 | "Cancelled" shows iff the appointment is cancelled; the cancel and complete icons show iff it is neither cancelled nor completed |
| DoctorAppointments.StatusCases | admin/src/pages/Doctor/DoctorAppointments.jsx:110-136 | cancelled beats completed; the icons show iff neither flag is set |
| DoctorAppointments.ViewsDisagreeOnlyWhenBothFlags | admin/src/pages/Doctor/DoctorAppointments.jsx:110-112 | the two lists differ only for an appointment that is both cancelled and completed |
| DoctorAppointments.Step | admin/src/pages/Doctor/DoctorAppointments.jsx:32-68 | each handler's effect; closing the list forgets only the patient |
| DoctorAppointments.StepCoherent | admin/src/pages/Doctor/DoctorAppointments.jsx:32-68 | each reachable handler keeps at most one dialog, with the selections it needs |
| DoctorAppointments.RunCoherent | admin/src/pages/Doctor/DoctorAppointments.jsx:141-192 | any sequence of user actions keeps that invariant |
| DoctorAppointments.ChoiceOpensOneDialog | admin/src/pages/Doctor/DoctorAppointments.jsx:43-51 | Add or View replaces the options with exactly the chosen dialog |
| DoctorAppointments.ListCloseKeepsAppointment | admin/src/pages/Doctor/DoctorAppointments.jsx:53-68 | after the list closes, the appointment id is still selected; after the form closes it is not |
| DoctorAppointments.PendingRowOpensNothing | admin/src/pages/Doctor/DoctorAppointments.jsx:32-41 | clicking a row that is not completed changes nothing |

## Left out

- I/O and frameworks are not modelled:
  - HTTP, authentication middleware, toasts, React rendering and styling;
  - `console.log`;
  - the staff form's `setTimeout` sequencing and the `isSubmitting`/`isLoading` flags.
- The database, the clock and the PDF stream become parameters:
  - The database is `Store` and `Env`.
  - The clock is `Env.now` and `pdfTimestamp`, and the form's ISO date string.
  - Whether the PDF stream finishes is `pdfStreamOk`.
  - The generator module's `__dirname` is `pdfDirname`. As the backend runs it is undefined (`PdfGenerator.ModuleDirname`).
- pdfkit drawing (fonts, sizes, alignment, the rule, spacing) is left out. `Render` lists only the text items, in order.
- `toLocaleDateString` is locale dependent, so the PDF's date label is a parameter.
- The patient-side `handleChange` is not modelled. It is the same one-field update as the staff form's `AdminForm.Edit`.
- Document ids are opaque strings. A malformed id, which makes the database lookup throw a cast error and take the catch branch, is not modelled.
- `Records.Field`: a text field named twice becomes an array in `req.body`. The model reads the first entry of that name and does not model the array. Neither form sends a name twice.
- The message of a schema validation failure is left out. `ReplyMessage` gives none for it.
- The concurrency between the save and the completion update is left out. So is a failure of the completion update alone.
- `Pipeline.FrontendTextOnlyStored`: the patient-side form posts to "/api/user/add-prescription". The user routes are not part of this model. The lemma assumes that route leads to the same upload middleware and handler as the doctor route. It also assumes the request reaches the handler with the appointment's doctor as `req.docId`. The patient form authenticates with a user token, which sets no doctor id; without that assumption the handler answers "Unauthorized action" (`Pipeline.FrontendWithoutDoctorRejected`).
- `PatientAppointments.MonthLabel`: `Number` is modelled for blank text and trimmed decimal digits only. Signs, fractions, exponents and hexadecimal spellings are read as not-a-number here. JavaScript would accept them.
- `PrescriptionText.ColonTruncatesTreatment`: requires that the text before the ':' not end in "Age". A treatment such as "Old Age: rest" puts "Age:" on the treatment line, and the handler's loop then takes the age from that line (the text between its first and second ':', "Old Age") and leaves the treatment empty; that case is not covered.
- `Upload.ExtNameOfStem`: covers only '/'-free names. For a name with a directory part, such as "a/.txt", the extension is taken from the last path segment and can be empty; `Upload.ExtName` states that general case.
- `PrescriptionText.ExtractCompose`: requires every value to hold no ':' and no line break. A ':' in the treatment cuts it short (`PrescriptionText.ColonTruncatesTreatment`); other ':' placements are not covered.
- `Pipeline.AdminTextReadBack`: carries the same ':'-free precondition as `PrescriptionText.ExtractCompose`.
- `Pipeline.FrontendTextReadBack`: carries the same ':'-free precondition as `PrescriptionText.ExtractCompose`.
- Razorpay payment, appointment cancellation and completion requests, and refetching lists are left out. They are network calls.
- `AdminForm.CalculateAge`, `AdminForm.AgeText`, `AdminForm.SplitPatientName` and `AdminForm.FindAppointment` are reached only through `AdminForm.PrefillWith` with a returned list. The running form never has one.
- The display-only prescription lists are left out (`DoctorPrescriptions.jsx`, `PatientPrescriptions.jsx`, `PrescriptionCard.jsx`, `MyPrescriptions.jsx`). So is the marketing UI.

## Findings

| source | as written | input that shows it | evidently intended | confidence | as-written member | corrected member |
|---|---|---|---|---|---|---|
| backend/utils/pdfGenerator.js:23 | the uploads directory is `path.join(__dirname, '../uploads')` in an ES module, where `__dirname` is not defined; the error is caught (lines 144-146) and the promise rejects, and the handler (backend/controllers/prescriptionController.js:74-76) goes on without a PDF | a staff submission with non-empty text, type "text" and no file | the PDF is written to the uploads directory and stored, typed "both" | high; not executed | PdfGenerator.GenerateInModuleRejects, Pipeline.AdminTextOnlyStoredAsRun | PdfGenerator.GenerateWithDirname, Pipeline.AdminTextOnlyStored |
| admin/src/context/DontorContext.jsx:17-34 | `getAppointments` stores the list in state and returns nothing; the form (admin/src/components/PrescriptionForm.jsx:28-29) calls `find` on the `undefined` result, the error is caught at lines 40-42, and nothing is prefilled | opening the staff form for an appointment whose patient is named "Ann Lee" | the first name "Ann", the last name "Lee" and the age are filled in | high; not executed | AdminForm.Prefill, AdminForm.PrefillNeverFills | AdminForm.PrefillWith, AdminForm.PrefillIdempotent |

=== FILE: admin_form.dfy ===
/** The staff-side prescription form: prefilled from the appointment's patient
    snapshot (name split into first and last, age from the date of birth), a
    list of trimmed medications, an optional PDF attachment, and on submit the
    multipart request with the composed prescription text. */
module AdminForm {
  import opened Wrappers
  import opened JsString
  import opened Records
  import PrescriptionText

  /** The form's state: the six text inputs, the medication list, the chosen
      attachment, and the `prescriptionType` state (set but never sent). */
  datatype FormState = FormState(
    firstName: string,
    lastName: string,
    age: string,
    treatment: string,
    medication: string,
    dateSigned: string,
    medications: seq<string>,
    file: Option<ClientFile>,
    prescriptionType: string)

  /** The form as it opens: empty inputs and today's date, the part of the ISO
      timestamp before its 'T'. */
  function Initial(isoNow: string): (s: FormState)
    ensures s.firstName == "" && s.lastName == "" && s.age == "" && s.treatment == "" && s.medication == ""
    ensures PieceBefore(isoNow, 'T', s.dateSigned)
    ensures s.medications == [] && s.file.None? && s.prescriptionType == "text"
  {
    var date := Split(isoNow, 'T')[0];
    SplitFirstPiece(isoNow, 'T');
    FormState("", "", "", "", "", date, [], None, "text")
  }

  // ---------------------------------------------------------------------------
  // age from the date of birth
  // ---------------------------------------------------------------------------

  /** Calendar order on (year, month, day). */
  predicate DateBefore(a: CalendarDate, b: CalendarDate) {
    a.year < b.year
    || (a.year == b.year && (a.month < b.month || (a.month == b.month && a.day < b.day)))
  }

  /** The `n`-th birthday. */
  function Anniversary(birth: CalendarDate, n: int): CalendarDate {
    CalendarDate(birth.year + n, birth.month, birth.day)
  }

  /** `calculateAge`: the year difference, less one when this year's birthday
      (by month, then day) is still ahead. The result is the number of the
      last birthday reached. */
  function CalculateAge(birth: CalendarDate, today: CalendarDate): (age: int)
    ensures !DateBefore(today, Anniversary(birth, age))
    ensures DateBefore(today, Anniversary(birth, age + 1))
  {
    var age := today.year - birth.year;
    var monthDiff := today.month - birth.month;
    if monthDiff < 0 || (monthDiff == 0 && today.day < birth.day) then age - 1 else age
  }

  /** Only one count of birthdays fits between two consecutive birthdays. */
  lemma AgeUnique(birth: CalendarDate, today: CalendarDate, n: int)
    requires !DateBefore(today, Anniversary(birth, n)) && DateBefore(today, Anniversary(birth, n + 1))
    ensures n == CalculateAge(birth, today)
  {
  }

  /** The prefilled age: the decimal numeral of the computed age when the
      profile has a date of birth (with a '-' for a birth date in the
      future), else "". */
  function AgeText(dob: Option<CalendarDate>, today: CalendarDate): (t: string)
    ensures dob.None? <==> t == ""
    ensures dob.Some? ==> |t| >= 1 && var age := CalculateAge(dob.value, today);
      && (age >= 0 ==> AllDigits(t) && ParseDigits(t) == age)
      && (age < 0 ==> t[0] == '-' && AllDigits(t[1..]) && ParseDigits(t[1..]) == -age)
  {
    if dob.Some? then IntToString(CalculateAge(dob.value, today)) else ""
  }

  // ---------------------------------------------------------------------------
  // name split
  // ---------------------------------------------------------------------------

  /** `name.split(' ')`: the first piece, and the other pieces joined back
      with single spaces. */
  function SplitPatientName(name: string): (r: (string, string))
    ensures ' ' !in r.0
    ensures ' ' in name ==> r.0 + " " + r.1 == name
    ensures ' ' !in name ==> r == (name, "")
  {
    var parts := Split(name, ' ');
    JoinSplit(name, ' ');
    assert [' '] == " ";
    (parts[0], Join(parts[1..], " "))
  }

  /** `appointments.find(app => app._id === appointmentId)`: the first
      appointment with the id. */
  function FindAppointment(apps: seq<Appointment>, id: string): (r: Option<Appointment>)
    ensures r.None? <==> forall i :: 0 <= i < |apps| ==> apps[i].id != id
    ensures r.Some? ==> exists i :: 0 <= i < |apps| && apps[i] == r.value && r.value.id == id
                                    && forall j :: 0 <= j < i ==> apps[j].id != id
    decreases |apps|
  {
    if |apps| == 0 then None
    else if apps[0].id == id then Some(apps[0])
    else
      var r := FindAppointment(apps[1..], id);
      if r.Some? then
        var i :| 0 <= i < |apps| - 1 && apps[1..][i] == r.value && r.value.id == id
                 && forall j :: 0 <= j < i ==> apps[1..][j].id != id;
        assert apps[i + 1] == r.value;
        r
      else r
  }

  /** The prefill effect given what the appointment fetch resolved to:
      `None` when it resolved to `undefined`, whose `find` throws and is
      caught, leaving the form as it was. With a list, and an appointment id,
      and the appointment found, the name and age inputs are filled from its
      patient snapshot; nothing else changes. */
  function PrefillWith(s: FormState, appointmentId: string, fetched: Option<seq<Appointment>>,
                       today: CalendarDate): (r: FormState)
    ensures appointmentId == "" || fetched.None? ==> r == s
    ensures fetched.Some? && FindAppointment(fetched.value, appointmentId).None? ==> r == s
    ensures appointmentId != "" && fetched.Some? && FindAppointment(fetched.value, appointmentId).Some? ==>
      var p := FindAppointment(fetched.value, appointmentId).value.userData;
      && PieceBefore(p.name, ' ', r.firstName)
      && (' ' in p.name ==> r.firstName + " " + r.lastName == p.name)
      && (' ' !in p.name ==> r.firstName == p.name && r.lastName == "")
      && r.age == AgeText(p.dob, today)
      && r == s.(firstName := r.firstName, lastName := r.lastName, age := r.age)
  {
    if appointmentId == "" || fetched.None? then s
    else match FindAppointment(fetched.value, appointmentId)
      case None => s
      case Some(a) =>
        var names := SplitPatientName(a.userData.name);
        SplitFirstPiece(a.userData.name, ' ');
        s.(firstName := names.0, lastName := names.1, age := AgeText(a.userData.dob, today))
  }

  /** Prefilling twice from the same list is prefilling once. */
  lemma PrefillIdempotent(s: FormState, appointmentId: string, fetched: Option<seq<Appointment>>,
                          today: CalendarDate)
    ensures var once := PrefillWith(s, appointmentId, fetched, today);
      PrefillWith(once, appointmentId, fetched, today) == once
  {
  }

  /** What the doctor context's `getAppointments` resolves to: it stores the
      fetched list in its own state but returns nothing, so `undefined`. */
  const FetchedAppointments: Option<seq<Appointment>> := None

  /** The prefill effect as the form runs: the fetch resolves to `undefined`,
      so the form is left exactly as it was. */
  function Prefill(s: FormState, appointmentId: string, today: CalendarDate): (r: FormState)
    ensures r == s
  {
    PrefillWith(s, appointmentId, FetchedAppointments, today)
  }

  /** The gap between the two: for a found appointment whose patient name
      starts with a letter, the form as it runs keeps the first name empty,
      while a fetch that returned the list would fill it in. */
  lemma PrefillNeverFills(s: FormState, appointmentId: string, apps: seq<Appointment>, today: CalendarDate)
    requires s.firstName == ""
    requires appointmentId != "" && FindAppointment(apps, appointmentId).Some?
    requires var name := FindAppointment(apps, appointmentId).value.userData.name;
      |name| > 0 && name[0] != ' '
    ensures Prefill(s, appointmentId, today).firstName == ""
    ensures PrefillWith(s, appointmentId, Some(apps), today).firstName != ""
  {
  }

  // ---------------------------------------------------------------------------
  // inputs
  // ---------------------------------------------------------------------------

  /** The six text inputs `handleChange` writes by name. */
  datatype TextInput = FirstName | LastName | AgeInput | TreatmentInput | MedicationInput | DateSigned

  function Get(s: FormState, input: TextInput): string {
    match input
    case FirstName => s.firstName
    case LastName => s.lastName
    case AgeInput => s.age
    case TreatmentInput => s.treatment
    case MedicationInput => s.medication
    case DateSigned => s.dateSigned
  }

  /** `handleChange`: the named input takes the value; nothing else changes. */
  function Edit(s: FormState, input: TextInput, value: string): (r: FormState)
    ensures Get(r, input) == value
    ensures forall other :: other != input ==> Get(r, other) == Get(s, other)
    ensures r.medications == s.medications && r.file == s.file && r.prescriptionType == s.prescriptionType
  {
    match input
    case FirstName => s.(firstName := value)
    case LastName => s.(lastName := value)
    case AgeInput => s.(age := value)
    case TreatmentInput => s.(treatment := value)
    case MedicationInput => s.(medication := value)
    case DateSigned => s.(dateSigned := value)
  }

  /** The list holds only trimmed, non-empty entries. */
  predicate CleanList(meds: seq<string>) {
    forall i :: 0 <= i < |meds| ==> IsTrimmed(meds[i]) && meds[i] != ""
  }

  /** `handleAddMedication`: a non-blank input is appended trimmed and the
      input cleared; a blank input changes nothing. */
  function AddMedication(s: FormState): (r: FormState)
    ensures AllWhitespace(s.medication) ==> r == s
    ensures !AllWhitespace(s.medication) ==>
      && |r.medications| == |s.medications| + 1
      && r.medications[..|s.medications|] == s.medications
      && r.medications[|s.medications|] == Trim(s.medication) != ""
      && Contains(s.medication, r.medications[|s.medications|])
      && r.medication == ""
      && r == s.(medications := r.medications, medication := "")
  {
    TrimEmptyIff(s.medication);
    var m := Trim(s.medication);
    if m != "" then
      TrimContained(s.medication);
      s.(medications := s.medications + [m], medication := "")
    else s
  }

  /** Adding keeps the list clean. */
  lemma AddMedicationKeepsClean(s: FormState)
    requires CleanList(s.medications)
    ensures CleanList(AddMedication(s).medications)
  {
    var r := AddMedication(s);
    if !AllWhitespace(s.medication) {
      forall i | 0 <= i < |r.medications|
        ensures IsTrimmed(r.medications[i]) && r.medications[i] != ""
      {
        if i < |s.medications| {
          assert r.medications[i] == r.medications[..|s.medications|][i];
        }
      }
    }
  }

  const PdfMime: string := "application/pdf"

  /** `handleFileChange`: a PDF is kept (and the type state becomes "both");
      any other file, or none, leaves the form as it was. */
  function SelectFile(s: FormState, chosen: Option<ClientFile>): (r: FormState)
    ensures chosen.Some? && chosen.value.mimeType == PdfMime ==>
              r == s.(file := chosen, prescriptionType := "both")
    ensures !(chosen.Some? && chosen.value.mimeType == PdfMime) ==> r == s
  {
    match chosen
    case None => s
    case Some(f) => if f.mimeType == PdfMime then s.(file := chosen, prescriptionType := "both") else s
  }

  /** The attachment, if any, is a PDF. */
  predicate AttachmentIsPdf(s: FormState) {
    s.file.Some? ==> s.file.value.mimeType == PdfMime
  }

  /** Every step of the form keeps the attachment a PDF. */
  lemma StepsKeepAttachmentPdf(s: FormState, chosen: Option<ClientFile>, input: TextInput, value: string)
    requires AttachmentIsPdf(s)
    ensures AttachmentIsPdf(SelectFile(s, chosen))
    ensures AttachmentIsPdf(AddMedication(s))
    ensures AttachmentIsPdf(Edit(s, input, value))
  {
  }

  // ---------------------------------------------------------------------------
  // submission
  // ---------------------------------------------------------------------------

  /** The list the form keeps after submitting: the trimmed pending input is
      added when non-blank and not already listed. */
  function ListAfterSubmit(s: FormState): (meds: seq<string>)
    ensures var m := Trim(s.medication);
      && (m == "" || m in s.medications ==> meds == s.medications)
      && (m != "" && m !in s.medications ==> meds == s.medications + [m])
  {
    var m := Trim(s.medication);
    if m != "" && m !in s.medications then s.medications + [m] else s.medications
  }

  /** The medications written into the text: the list, then the trimmed
      pending input when non-blank, with no check for repeats. */
  function AllMedications(s: FormState): (meds: seq<string>)
    ensures var m := Trim(s.medication);
      && (m == "" ==> meds == s.medications)
      && (m != "" ==> meds == s.medications + [m])
  {
    var m := Trim(s.medication);
    if m != "" then s.medications + [m] else s.medications
  }

  /** The text lists exactly the kept list, except that a pending entry
      already in the list is written a second time. */
  lemma WrittenAgainstKept(s: FormState)
    ensures var m := Trim(s.medication);
      && (m == "" || m !in s.medications ==> AllMedications(s) == ListAfterSubmit(s))
      && (m != "" && m in s.medications ==>
            AllMedications(s) == ListAfterSubmit(s) + [m] && multiset(AllMedications(s))[m] >= 2)
  {
    var m := Trim(s.medication);
    if m != "" && m in s.medications {
      assert multiset(s.medications)[m] >= 1;
    }
  }

  /** The "Medications:" value: the entries joined by ", ", or "None prescribed". */
  function MedicationsText(meds: seq<string>): (t: string)
    ensures |meds| == 0 ==> t == "None prescribed"
    ensures forall i :: 0 <= i < |meds| ==> Contains(t, meds[i])
  {
    if |meds| > 0 then
      JoinContainsParts(meds, ", ");
      Join(meds, ", ")
    else "None prescribed"
  }

  /** The "Medications:" value splits back into the list: cutting it at
      every ',' and trimming each piece gives the entries in order, as long
      as no entry holds a ',' of its own. */
  lemma MedicationsTextSplitsBack(meds: seq<string>)
    requires |meds| > 0
    requires forall i :: 0 <= i < |meds| ==> IsTrimmed(meds[i]) && ',' !in meds[i]
    ensures TrimEach(Split(MedicationsText(meds), ',')) == meds
  {
    var spaced := Spaced(meds);
    assert MedicationsText(meds) == Join(meds, ", ");
    JoinCommaSpace(meds);
    assert [','] == ",";
    SpacedPieces(meds);
    SplitJoin(spaced, ',');
    assert Split(MedicationsText(meds), ',') == spaced;
    var back := TrimEach(spaced);
    assert |back| == |meds|;
    assert forall i :: 0 <= i < |meds| ==> back[i] == meds[i];
  }

  /** The comma-separated pieces of a ", " join: each entry, the later ones
      behind a space, none holding a ',' and each trimming to its entry. */
  lemma SpacedPieces(meds: seq<string>)
    requires |meds| > 0
    requires forall i :: 0 <= i < |meds| ==> IsTrimmed(meds[i]) && ',' !in meds[i]
    ensures var spaced := Spaced(meds);
      forall i :: 0 <= i < |spaced| ==> ',' !in spaced[i] && Trim(spaced[i]) == meds[i]
  {
    var spaced := Spaced(meds);
    forall i | 0 <= i < |spaced|
      ensures ',' !in spaced[i] && Trim(spaced[i]) == meds[i]
    {
      SpacedPiece(spaced[i], meds[i]);
    }
  }

  /** One piece: a trimmed, comma-free entry, with or without a space in front. */
  lemma SpacedPiece(piece: string, m: string)
    requires piece == m || piece == " " + m
    requires IsTrimmed(m) && ',' !in m
    ensures ',' !in piece && Trim(piece) == m
  {
    if piece == m {
      TrimOfTrimmed(m);
    } else {
      SpaceThenTrimmed(m);
      assert piece == [' '] + m;
    }
  }

  lemma ContainsSelf(s: string)
    ensures Contains(s, s)
  {
    ContainsPrefix(s, "");
    assert s + "" == s;
  }

  lemma JoinContainsParts(parts: seq<string>, sep: string)
    ensures forall i :: 0 <= i < |parts| ==> Contains(Join(parts, sep), parts[i])
  {
    forall i | 0 <= i < |parts| ensures Contains(Join(parts, sep), parts[i]) {
      ContainsSelf(parts[i]);
      ContainsJoinPart(parts, sep, parts[i], i);
    }
  }

  /** What submitting does: blocked when a required input is empty;
      otherwise the request sent and the list the form keeps. */
  datatype Submission = Blocked | Sent(form: FormData, medications: seq<string>)

  /** The required inputs are non-empty: the name, age and treatment by the
      handler's own check, the date by its `required` attribute. */
  predicate Complete(s: FormState) {
    s.firstName != "" && s.lastName != "" && s.age != "" && s.treatment != "" && s.dateSigned != ""
  }

  /** The text the submit sends. */
  function SubmittedText(s: FormState): string {
    PrescriptionText.Compose("", s.firstName, s.lastName, s.age, s.treatment,
                             MedicationsText(AllMedications(s)), s.dateSigned)
  }

  /** `handleSubmit`: the request carries the appointment id, the type
      ("both" with an attachment, else "text"), the text and the attachment. */
  function Submit(s: FormState, appointmentId: string): (r: Submission)
    ensures r.Blocked? <==> !Complete(s)
    ensures r.Sent? ==>
      && EntryNames(r.form) == ["appointmentId", "prescriptionType", "prescriptionText"]
                               + (if s.file.Some? then ["prescriptionFile"] else [])
      && r.form[0].1 == TextValue(appointmentId)
      && r.form[1].1 == TextValue(if s.file.Some? then "both" else "text")
      && r.form[2].1 == TextValue(SubmittedText(s))
      && (s.file.Some? ==> r.form[3].1 == FileValue(s.file.value))
      && r.medications == ListAfterSubmit(s)
  {
    if !Complete(s) then Blocked
    else
      var form := [("appointmentId", TextValue(appointmentId)),
                   ("prescriptionType", TextValue(if s.file.Some? then "both" else "text")),
                   ("prescriptionText", TextValue(SubmittedText(s)))]
                  + (match s.file
                     case Some(f) => [("prescriptionFile", FileValue(f))]
                     case None => []);
      Sent(form, ListAfterSubmit(s))
  }
}

=== FILE: controller.dfy ===
/** The prescription handlers: adding a prescription to an appointment (the
    ownership guards, the stored type, the optional PDF, schema validation and
    the completion flag), and the three readers. The database becomes a value
    (`Store`); the authenticated doctor, the profile collections, the clocks,
    the fresh document id, the generator's module directory and the outcome
    of the PDF stream become `Env`. */
module PrescriptionController {
  import opened Wrappers
  import opened JsString
  import opened JsArray
  import opened Records
  import PdfGenerator

  // ---------------------------------------------------------------------------
  // state and collaborators
  // ---------------------------------------------------------------------------

  /** The appointment and prescription collections. */
  datatype Store = Store(appointments: map<string, Appointment>, prescriptions: seq<Prescription>)

  /** Everything the add handler reads besides the store and the request:
      `req.docId`, the doctor and user collections, the `_id` and `createdAt`
      the new document gets, the timestamp naming the PDF and the date printed
      on it, the generator's `__dirname` (`PdfGenerator.ModuleDirname`, not
      defined, as the backend runs), and whether the PDF stream finishes
      without error. */
  datatype Env = Env(
    docId: string,
    doctors: map<string, Profile>,
    users: map<string, Profile>,
    newId: string,
    now: nat,
    pdfTimestamp: nat,
    pdfDateLabel: string,
    pdfDirname: Option<string>,
    pdfStreamOk: bool)

  /** The handler's environment as the backend runs: the generator sees no
      `__dirname`. */
  predicate AsRun(env: Env) {
    env.pdfDirname == PdfGenerator.ModuleDirname
  }

  /** Generation, once attempted, produces a file: the directory is known and
      the stream finishes. */
  predicate PdfWorks(env: Env) {
    env.pdfDirname.Some? && env.pdfStreamOk
  }

  /** How the add handler answers. */
  datatype Outcome =
    | Added
    | AppointmentNotFound
    | Unauthorized
    | Invalid(paths: seq<string>)   // the schema paths that failed on save

  /** The fixed reply messages; a validation failure replies with the
      database library's own message, which is not modelled. */
  function ReplyMessage(o: Outcome): (m: Option<string>)
    ensures m.None? <==> o.Invalid?
    ensures o.Added? <==> m == Some("Prescription added successfully")
  {
    match o
    case Added => Some("Prescription added successfully")
    case AppointmentNotFound => Some("Appointment not found")
    case Unauthorized => Some("Unauthorized action")
    case Invalid(_) => None
  }

  function Lookup(m: map<string, Profile>, key: string): (r: Option<Profile>)
    ensures r.Some? <==> key in m
    ensures r.Some? ==> r.value == m[key]
  {
    if key in m then Some(m[key]) else None
  }

  // ---------------------------------------------------------------------------
  // request fields and the stored type
  // ---------------------------------------------------------------------------

  /** JavaScript truthiness of a body field: present and not the empty string. */
  predicate Truthy(v: Option<string>) {
    v.Some? && v.value != ""
  }

  /** `prescriptionType || (req.file ? "file" : "text")`, then "both" when text
      and a file arrive together. */
  function ResolveType(submitted: Option<string>, text: Option<string>, hasFile: bool): (t: string)
    ensures Truthy(text) && hasFile ==> t == "both"
    ensures !(Truthy(text) && hasFile) && Truthy(submitted) ==> t == submitted.value
    ensures !(Truthy(text) && hasFile) && !Truthy(submitted) ==> t == (if hasFile then "file" else "text")
    ensures t != ""
  {
    var initial := if Truthy(submitted) then submitted.value else if hasFile then "file" else "text";
    if Truthy(text) && hasFile then "both" else initial
  }

  /** A PDF is attempted only for non-empty text whose submitted type is
      literally "text" or "both" (the type before the "both" override). */
  predicate AttemptsPdf(text: Option<string>, submitted: Option<string>) {
    Truthy(text) && (submitted == Some("text") || submitted == Some("both"))
  }

  // ---------------------------------------------------------------------------
  // Age and Treatment extraction
  // ---------------------------------------------------------------------------

  const AgeLabel: string := "Age:"
  const TreatmentLabel: string := "Treatment:"

  /** A line the scan reads the age from. */
  predicate IsAgeLine(line: string) {
    Contains(line, AgeLabel)
  }

  /** A line the scan reads the treatment from: the age test comes first, so a
      line holding both labels counts only as an age line. */
  predicate IsTreatmentLine(line: string) {
    !Contains(line, AgeLabel) && Contains(line, TreatmentLabel)
  }

  /** The two values the scan keeps. */
  datatype Extracted = Extracted(age: string, treatment: string)

  /** One iteration of the scan over the lines. */
  function ScanStep(acc: Extracted, line: string): Extracted {
    if IsAgeLine(line) then acc.(age := PdfGenerator.LabelValue(line, AgeLabel))
    else if IsTreatmentLine(line) then acc.(treatment := PdfGenerator.LabelValue(line, TreatmentLabel))
    else acc
  }

  /** The scan from left to right, each matching line overwriting its value. */
  function ScanLines(acc: Extracted, lines: seq<string>): Extracted
    decreases |lines|
  {
    if |lines| == 0 then acc else ScanLines(ScanStep(acc, lines[0]), lines[1..])
  }

  /** The value the last line matching `p` gives, or `otherwise` when none does. */
  function LastValue(lines: seq<string>, p: string -> bool, key: string, otherwise: string): (v: string)
    requires |key| > 0 && key[|key| - 1] == ':'
    requires forall l :: p(l) ==> Contains(l, key)
  {
    match LastWhere(lines, p)
    case None => otherwise
    case Some(i) => PdfGenerator.LabelValue(lines[i], key)
  }

  /** The scan keeps, for each label, the value of the last line it accepts. */
  lemma {:induction false} ScanKeepsLast(acc: Extracted, lines: seq<string>)
    ensures ScanLines(acc, lines).age == LastValue(lines, IsAgeLine, AgeLabel, acc.age)
    ensures ScanLines(acc, lines).treatment == LastValue(lines, IsTreatmentLine, TreatmentLabel, acc.treatment)
    decreases |lines|
  {
    if |lines| > 0 {
      var next := ScanStep(acc, lines[0]);
      ScanKeepsLast(next, lines[1..]);
      assert lines == [lines[0]] + lines[1..];
      LastValueCons(lines[0], lines[1..], IsAgeLine, AgeLabel, acc.age);
      LastValueCons(lines[0], lines[1..], IsTreatmentLine, TreatmentLabel, acc.treatment);
    }
  }

  /** A later match overrides an earlier one: the first line only matters
      when no later line matches. */
  lemma LastValueCons(line: string, rest: seq<string>, p: string -> bool, key: string, otherwise: string)
    requires |key| > 0 && key[|key| - 1] == ':'
    requires forall l :: p(l) ==> Contains(l, key)
    ensures LastValue([line] + rest, p, key, otherwise)
            == LastValue(rest, p, key, if p(line) then PdfGenerator.LabelValue(line, key) else otherwise)
  {
    assert ([line] + rest)[1..] == rest;
    match LastWhere(rest, p)
    case Some(j) => assert ([line] + rest)[j + 1] == rest[j];
    case None =>
  }

  /** The age and treatment read from a prescription text: the text between
      the first and second ':' (trimmed) of the last line holding "Age:", and
      of the last line holding "Treatment:" but not "Age:"; empty when there is
      no such line. */
  function ExtractFields(text: string): (r: Extracted)
    ensures r.age == LastValue(Split(text, '\n'), IsAgeLine, AgeLabel, "")
    ensures r.treatment == LastValue(Split(text, '\n'), IsTreatmentLine, TreatmentLabel, "")
    ensures IsTrimmed(r.age) && IsTrimmed(r.treatment)
  {
    ScanKeepsLast(Extracted("", ""), Split(text, '\n'));
    ScanLines(Extracted("", ""), Split(text, '\n'))
  }

  // ---------------------------------------------------------------------------
  // addPrescription
  // ---------------------------------------------------------------------------

  const AppointmentIdField: string := "appointmentId"
  const TextField: string := "prescriptionText"
  const TypeField: string := "prescriptionType"

  /** The PDF path when generation succeeds; none when it is not attempted or
      fails (reading the name of a missing doctor or patient throws inside the
      guarded block just as an undefined `__dirname` or a stream error does). */
  function PdfPath(text: Option<string>, submitted: Option<string>, doctor: Option<Profile>,
                   patient: Option<Profile>, env: Env): (r: Option<string>)
    ensures r.Some? <==> AttemptsPdf(text, submitted) && doctor.Some? && patient.Some? && PdfWorks(env)
    ensures r.Some? ==> r.value == PdfGenerator.OutputPath(env.pdfTimestamp)
  {
    if !AttemptsPdf(text, submitted) || doctor.None? || patient.None? then None
    else
      var fields := ExtractFields(text.value);
      var data := PdfGenerator.PdfData(doctor.value.name, doctor.value.speciality, patient.value.name,
                                       fields.age, fields.treatment, text.value);
      match PdfGenerator.Generate(data, env.pdfDateLabel, env.pdfDirname, env.pdfTimestamp, env.pdfStreamOk)
      case Success(g) => Some(g.path)
      case Failure(_) => None
  }

  /** The object handed to the model constructor, after the type override and
      the PDF step. */
  function BuildDraft(req: IncomingRequest, a: Appointment, env: Env): (d: Draft)
    ensures d.appointmentId == Field(req.fields, AppointmentIdField)
    ensures d.doctorId == Some(env.docId) && d.patientId == Some(a.userId)
    ensures d.doctorData == Lookup(env.doctors, env.docId) && d.patientData == Lookup(env.users, a.userId)
  {
    var text := Field(req.fields, TextField);
    var submitted := Field(req.fields, TypeField);
    var doctor := Lookup(env.doctors, env.docId);
    var patient := Lookup(env.users, a.userId);
    var uploaded := if req.file.Some? then req.file.value.filename else "";
    var resolved := ResolveType(submitted, text, req.file.Some?);
    var pdf := PdfPath(text, submitted, doctor, patient, env);
    Draft(
      Field(req.fields, AppointmentIdField),
      Some(env.docId),
      Some(a.userId),
      Some(if Truthy(text) then text.value else ""),
      Some(if pdf.Some? then pdf.value else uploaded),
      Some(if pdf.Some? then "both" else resolved),
      doctor,
      patient)
  }

  /** `addPrescription`: reject a missing appointment or one of another doctor;
      otherwise save the document (or fail validation) and, on success, mark
      the appointment completed. A rejected request changes nothing. */
  function AddPrescription(st: Store, req: IncomingRequest, env: Env): (r: (Outcome, Store))
    ensures var id := Field(req.fields, AppointmentIdField);
      && (r.0 == AppointmentNotFound <==> id.None? || id.value !in st.appointments)
      && (r.0 == Unauthorized <==>
            id.Some? && id.value in st.appointments && st.appointments[id.value].docId != env.docId)
      && (!r.0.Added? ==> r.1 == st)
    ensures r.0.Added? ==>
      var id := Field(req.fields, AppointmentIdField).value;
      && id in st.appointments
      && var a := st.appointments[id];
      && a.docId == env.docId
      && |r.1.prescriptions| == |st.prescriptions| + 1
      && r.1.prescriptions[..|st.prescriptions|] == st.prescriptions
      && r.1.appointments == st.appointments[id := a.(isCompleted := true)]
      && var p := r.1.prescriptions[|st.prescriptions|];
      && p.id == env.newId && p.createdAt == env.now
      && p.appointmentId == id && p.doctorId == env.docId && p.patientId == a.userId
  {
    var id := Field(req.fields, AppointmentIdField);
    if id.None? || id.value !in st.appointments then (AppointmentNotFound, st)
    else
      var a := st.appointments[id.value];
      if a.docId != env.docId then (Unauthorized, st)
      else
        match Validate(BuildDraft(req, a, env), env.newId, env.now)
        case Failure(paths) => (Invalid(paths), st)
        case Success(p) =>
          var appointments := if a.isCompleted then st.appointments
                              else st.appointments[id.value := a.(isCompleted := true)];
          assert a.isCompleted ==> appointments == st.appointments[id.value := a.(isCompleted := true)] by {
            if a.isCompleted { assert a.(isCompleted := true) == a; }
          }
          (Added, Store(appointments, st.prescriptions + [p]))
  }

  /** The request passes both guards for this doctor. */
  predicate Owned(st: Store, req: IncomingRequest, env: Env) {
    var id := Field(req.fields, AppointmentIdField);
    id.Some? && id.value in st.appointments && st.appointments[id.value].docId == env.docId
  }

  /** The submitted type survives validation: either it is overridden by
      "both" (text with a file), or it is absent or empty, or it names a type. */
  predicate TypeAcceptable(req: IncomingRequest) {
    var submitted := Field(req.fields, TypeField);
    (Truthy(Field(req.fields, TextField)) && req.file.Some?)
    || !Truthy(submitted) || ParseType(submitted.value).Some?
  }

  /** Exactly when an owned request is saved: non-empty appointment id, doctor
      id and patient id, both profiles found, and an acceptable type. */
  lemma AddedIff(st: Store, req: IncomingRequest, env: Env)
    requires Owned(st, req, env)
    ensures AddPrescription(st, req, env).0.Added? <==>
      var a := st.appointments[Field(req.fields, AppointmentIdField).value];
      && Field(req.fields, AppointmentIdField).value != "" && env.docId != "" && a.userId != ""
      && env.docId in env.doctors && a.userId in env.users
      && TypeAcceptable(req)
  {
    var a := st.appointments[Field(req.fields, AppointmentIdField).value];
    AddedIffValid(st, req, env);
    DraftTypeValid(req, a, env);
  }

  /** An owned request is saved exactly when its draft validates. */
  lemma AddedIffValid(st: Store, req: IncomingRequest, env: Env)
    requires Owned(st, req, env)
    ensures var a := st.appointments[Field(req.fields, AppointmentIdField).value];
      AddPrescription(st, req, env).0.Added? <==> ValidationErrors(BuildDraft(req, a, env)) == []
  {
  }

  /** The draft's type passes the enum check exactly when the request's type
      is acceptable. */
  lemma DraftTypeValid(req: IncomingRequest, a: Appointment, env: Env)
    ensures ValidType(BuildDraft(req, a, env).prescriptionType) <==> TypeAcceptable(req)
  {
    DraftType(req, a, env);
  }

  /** The draft's type: "both" when a PDF was made, else the resolved type. */
  lemma DraftType(req: IncomingRequest, a: Appointment, env: Env)
    ensures var text := Field(req.fields, TextField);
      var submitted := Field(req.fields, TypeField);
      var pdf := PdfPath(text, submitted, Lookup(env.doctors, env.docId), Lookup(env.users, a.userId), env);
      BuildDraft(req, a, env).prescriptionType
        == Some(if pdf.Some? then "both" else ResolveType(submitted, text, req.file.Some?))
  {
  }

  /** The stored file and type of a saved prescription: the PDF, typed "both",
      when it was attempted and generation worked; otherwise the uploaded
      file's name (or "") with "both" for text plus file, else the submitted
      type, else "file" or "text" by whether a file came. */
  lemma SavedFileAndType(st: Store, req: IncomingRequest, env: Env)
    requires AddPrescription(st, req, env).0.Added?
    ensures var r := AddPrescription(st, req, env);
      var p := r.1.prescriptions[|st.prescriptions|];
      var text := Field(req.fields, TextField);
      var submitted := Field(req.fields, TypeField);
      var generated := AttemptsPdf(text, submitted) && PdfWorks(env);
      && p.prescriptionText == (if Truthy(text) then text.value else "")
      && (generated ==> p.prescriptionFile == PdfGenerator.OutputPath(env.pdfTimestamp) && p.prescriptionType == Both)
      && (!generated ==> p.prescriptionFile == (if req.file.Some? then req.file.value.filename else ""))
      && (!generated && Truthy(text) && req.file.Some? ==> p.prescriptionType == Both)
      && (!generated && !(Truthy(text) && req.file.Some?) && Truthy(submitted) ==>
            TypeName(p.prescriptionType) == submitted.value)
      && (!generated && !(Truthy(text) && req.file.Some?) && !Truthy(submitted) ==>
            p.prescriptionType == (if req.file.Some? then File else Text))
  {
    var id := Field(req.fields, AppointmentIdField).value;
    var a := st.appointments[id];
    AddedIffValid(st, req, env);
    DraftType(req, a, env);
    var d := BuildDraft(req, a, env);
    var p := Validate(d, env.newId, env.now).value;
    assert AddPrescription(st, req, env).1.prescriptions[|st.prescriptions|] == p;
  }

  /** As the backend runs no PDF is ever stored: a saved prescription keeps
      the uploaded file's name (or "") and the type the request resolved to,
      even a text-only request typed "text". */
  lemma AsRunNoPdf(st: Store, req: IncomingRequest, env: Env)
    requires AsRun(env) && AddPrescription(st, req, env).0.Added?
    ensures var p := AddPrescription(st, req, env).1.prescriptions[|st.prescriptions|];
      && p.prescriptionFile == (if req.file.Some? then req.file.value.filename else "")
      && TypeName(p.prescriptionType)
         == ResolveType(Field(req.fields, TypeField), Field(req.fields, TextField), req.file.Some?)
  {
    SavedFileAndType(st, req, env);
  }

  /** A saved prescription's appointment is completed, whatever its flag was. */
  lemma AddCompletes(st: Store, req: IncomingRequest, env: Env)
    requires AddPrescription(st, req, env).0.Added?
    ensures var id := Field(req.fields, AppointmentIdField).value;
      && id in AddPrescription(st, req, env).1.appointments
      && AddPrescription(st, req, env).1.appointments[id].isCompleted
      && (st.appointments[id].isCompleted ==> AddPrescription(st, req, env).1.appointments == st.appointments)
  {
    var id := Field(req.fields, AppointmentIdField).value;
    var a := st.appointments[id];
    if a.isCompleted {
      assert a.(isCompleted := true) == a;
      assert st.appointments[id := a] == st.appointments;
    }
  }

  // ---------------------------------------------------------------------------
  // store invariant
  // ---------------------------------------------------------------------------

  /** Document ids are unique, and every prescription's appointment that
      exists is completed. */
  predicate Consistent(st: Store) {
    && (forall i, j :: 0 <= i < j < |st.prescriptions| ==> st.prescriptions[i].id != st.prescriptions[j].id)
    && (forall i :: 0 <= i < |st.prescriptions| && st.prescriptions[i].appointmentId in st.appointments ==>
          st.appointments[st.prescriptions[i].appointmentId].isCompleted)
  }

  /** The id the next document gets is not in use. */
  predicate FreshId(st: Store, env: Env) {
    forall i :: 0 <= i < |st.prescriptions| ==> st.prescriptions[i].id != env.newId
  }

  /** Adding with a fresh id keeps the store consistent. */
  lemma AddPreservesConsistent(st: Store, req: IncomingRequest, env: Env)
    requires Consistent(st) && FreshId(st, env)
    ensures Consistent(AddPrescription(st, req, env).1)
  {
    var r := AddPrescription(st, req, env);
    if r.0.Added? {
      var id := Field(req.fields, AppointmentIdField).value;
      var ps := r.1.prescriptions;
      forall i | 0 <= i < |ps| && ps[i].appointmentId in r.1.appointments
        ensures r.1.appointments[ps[i].appointmentId].isCompleted
      {
        if ps[i].appointmentId != id {
          assert i < |st.prescriptions| && ps[i] == st.prescriptions[i];
        }
      }
      forall i, j | 0 <= i < j < |ps| ensures ps[i].id != ps[j].id {
        assert ps[i] == st.prescriptions[i];
        if j < |st.prescriptions| { assert ps[j] == st.prescriptions[j]; }
      }
    }
  }

  // ---------------------------------------------------------------------------
  // readers
  // ---------------------------------------------------------------------------

  /** `getDoctorPrescriptions`: the prescriptions whose doctor id is this
      doctor's, or whose doctor snapshot carries this doctor's name. */
  function DoctorPrescriptions(st: Store, doctors: map<string, Profile>, docId: string): (r: Result<seq<Prescription>, string>)
    ensures r.Failure? <==> docId !in doctors
    ensures r.Failure? ==> r.error == "Doctor not found"
    ensures r.Success? ==> |r.value| <= |st.prescriptions|
    ensures r.Success? ==> forall p :: p in r.value <==>
      p in st.prescriptions && (p.doctorId == docId || p.doctorData.name == doctors[docId].name)
    ensures r.Success? ==> Subsequence(r.value, st.prescriptions)
  {
    if docId !in doctors then Failure("Doctor not found")
    else
      var name := doctors[docId].name;
      FilterSubsequence(st.prescriptions, (p: Prescription) => p.doctorId == docId || p.doctorData.name == name);
      Success(Filter(st.prescriptions, (p: Prescription) => p.doctorId == docId || p.doctorData.name == name))
  }

  /** Two doctors sharing a name see each other's prescriptions. */
  lemma NamesakeListed(st: Store, doctors: map<string, Profile>, mine: string, other: string, i: nat)
    requires mine in doctors && other in doctors && mine != other
    requires doctors[mine].name == doctors[other].name
    requires i < |st.prescriptions| && st.prescriptions[i].doctorId == other
    requires st.prescriptions[i].doctorData == doctors[other]
    ensures st.prescriptions[i] in DoctorPrescriptions(st, doctors, mine).value
  {
  }

  /** `req.params.patientId || req.userId`. */
  function PatientKey(param: Option<string>, userId: string): (k: string)
    ensures Truthy(param) ==> k == param.value
    ensures !Truthy(param) ==> k == userId
  {
    if Truthy(param) then param.value else userId
  }

  /** `getPatientPrescriptions`: the prescriptions of the patient, in stored order. */
  function PatientPrescriptions(st: Store, param: Option<string>, userId: string): (r: seq<Prescription>)
    ensures |r| <= |st.prescriptions|
    ensures forall p :: p in r <==> p in st.prescriptions && p.patientId == PatientKey(param, userId)
    ensures Subsequence(r, st.prescriptions)
  {
    var key := PatientKey(param, userId);
    FilterSubsequence(st.prescriptions, (p: Prescription) => p.patientId == key);
    Filter(st.prescriptions, (p: Prescription) => p.patientId == key)
  }

  /** `getPrescription`: the document with that id. */
  function GetPrescription(st: Store, id: string): (r: Result<Prescription, string>)
    ensures r.Success? <==> exists i :: 0 <= i < |st.prescriptions| && st.prescriptions[i].id == id
    ensures r.Success? ==> r.value in st.prescriptions && r.value.id == id
    ensures r.Failure? ==> r.error == "Prescription not found"
  {
    match LastWhere(st.prescriptions, (p: Prescription) => p.id == id)
    case None => Failure("Prescription not found")
    case Some(i) => Success(st.prescriptions[i])
  }

  /** After a successful add with a fresh id, that id finds the new document. */
  lemma AddThenGet(st: Store, req: IncomingRequest, env: Env)
    requires FreshId(st, env)
    requires AddPrescription(st, req, env).0.Added?
    ensures var after := AddPrescription(st, req, env).1;
      GetPrescription(after, env.newId) == Success(after.prescriptions[|st.prescriptions|])
  {
    var after := AddPrescription(st, req, env).1;
    var k := LastWhere(after.prescriptions, (p: Prescription) => p.id == env.newId);
    assert after.prescriptions[|st.prescriptions|].id == env.newId;
    assert k.Some?;
    assert k.value == |st.prescriptions|;
  }
}

=== FILE: doctor_appointments.dfy ===
/** The doctor's appointment table: the payment label and status cell of
    each row, and the three dialogs (prescription options, the new
    prescription form, the patient's earlier prescriptions) that clicking a
    completed row leads to. */
module DoctorAppointments {
  import opened Wrappers
  import opened Records
  import PatientAppointments

  // ---------------------------------------------------------------------------
  // one row
  // ---------------------------------------------------------------------------

  /** The payment column: "Online" for a paid appointment, "CASH" otherwise. */
  function PaymentLabel(a: Appointment): (shown: string)
    ensures shown == "Online" <==> a.payment
    ensures shown == "CASH" <==> !a.payment
  {
    if a.payment then "Online" else "CASH"
  }

  /** The action column: a "Cancelled" note, a "Completed" note, or the cancel
      and complete icons. */
  datatype StatusCell = CancelledNote | CompletedNote | CancelAndCompleteIcons

  /** The action column, decided cancelled-first. */
  function StatusOf(a: Appointment): (c: StatusCell)
    ensures c == CancelledNote <==> a.cancelled
    ensures c == CancelAndCompleteIcons <==> !a.cancelled && !a.isCompleted
  {
    if a.cancelled then CancelledNote
    else if a.isCompleted then CompletedNote
    else CancelAndCompleteIcons
  }

  /** Each note appears exactly under its flag, with cancelled taking
      precedence; the icons appear exactly when neither flag is set. */
  lemma StatusCases(a: Appointment)
    ensures StatusOf(a) == CancelledNote <==> a.cancelled
    ensures StatusOf(a) == CompletedNote <==> a.isCompleted && !a.cancelled
    ensures StatusOf(a) == CancelAndCompleteIcons <==> !a.cancelled && !a.isCompleted
  {
  }

  /** The two views agree on every appointment except one that is both
      cancelled and completed: the doctor sees "Cancelled", the patient
      "Completed". */
  lemma ViewsDisagreeOnlyWhenBothFlags(a: Appointment)
    ensures (StatusOf(a) == CancelledNote) != (PatientAppointments.Status(a) == PatientAppointments.AppointmentCancelled)
            <==> a.cancelled && a.isCompleted
    ensures (StatusOf(a) == CancelAndCompleteIcons)
            == (PatientAppointments.CancelAppointment in PatientAppointments.Controls(a))
  {
  }

  // ---------------------------------------------------------------------------
  // dialogs
  // ---------------------------------------------------------------------------

  /** The patient remembered for the dialogs. */
  datatype Patient = Patient(id: string, name: string)

  /** The table's dialog state: three visibility flags and two selections. */
  datatype Dashboard = Dashboard(
    showForm: bool,
    showOptions: bool,
    showPrescriptions: bool,
    selectedAppointmentId: Option<string>,
    selectedPatient: Option<Patient>)

  const Start := Dashboard(false, false, false, None, None)

  /** What the page renders: the form whenever its flag is set, the options
      and the earlier prescriptions only with a patient selected. */
  predicate FormShown(d: Dashboard) { d.showForm }
  predicate OptionsShown(d: Dashboard) { d.showOptions && d.selectedPatient.Some? }
  predicate ListShown(d: Dashboard) { d.showPrescriptions && d.selectedPatient.Some? }

  /** Each dialog covers the whole page. */
  predicate AnyDialog(d: Dashboard) {
    FormShown(d) || OptionsShown(d) || ListShown(d)
  }

  /** The user's actions on the table and its dialogs. */
  datatype Event =
    | RowClicked(a: Appointment)
    | AddChosen
    | ViewChosen
    | FormClosed
    | OptionsClosed
    | ListClosed

  /** One handler. A row click on an appointment that is not completed does
      nothing; closing the list forgets only the patient. */
  function Step(d: Dashboard, e: Event): (r: Dashboard)
    ensures e.RowClicked? && !e.a.isCompleted ==> r == d
    ensures e.RowClicked? && e.a.isCompleted ==>
      && r.selectedAppointmentId == Some(e.a.id)
      && r.selectedPatient == Some(Patient(e.a.userData.id, e.a.userData.name))
      && OptionsShown(r)
    ensures e.AddChosen? ==> !r.showOptions && r.showForm && r.showPrescriptions == d.showPrescriptions
    ensures e.ViewChosen? ==> !r.showOptions && r.showPrescriptions && r.showForm == d.showForm
    ensures e.AddChosen? || e.ViewChosen? ==>
      r.selectedAppointmentId == d.selectedAppointmentId && r.selectedPatient == d.selectedPatient
    ensures e.FormClosed? || e.OptionsClosed? ==>
      r.selectedAppointmentId.None? && r.selectedPatient.None?
    ensures e.FormClosed? ==> !r.showForm && r.showOptions == d.showOptions && r.showPrescriptions == d.showPrescriptions
    ensures e.OptionsClosed? ==> !r.showOptions && r.showForm == d.showForm && r.showPrescriptions == d.showPrescriptions
    ensures e.ListClosed? ==>
      r == d.(showPrescriptions := false, selectedPatient := None)
  {
    match e
    case RowClicked(a) =>
      if a.isCompleted then
        d.(selectedAppointmentId := Some(a.id),
           selectedPatient := Some(Patient(a.userData.id, a.userData.name)),
           showOptions := true)
      else d
    case AddChosen => d.(showOptions := false, showForm := true)
    case ViewChosen => d.(showOptions := false, showPrescriptions := true)
    case FormClosed => d.(showForm := false, selectedAppointmentId := None, selectedPatient := None)
    case OptionsClosed => d.(showOptions := false, selectedAppointmentId := None, selectedPatient := None)
    case ListClosed => d.(showPrescriptions := false, selectedPatient := None)
  }

  /** Whether the control an event comes from is reachable: rows only when
      no dialog covers the table, a dialog's buttons only while it shows. */
  predicate Enabled(d: Dashboard, e: Event) {
    match e
    case RowClicked(_) => !AnyDialog(d)
    case AddChosen => OptionsShown(d)
    case ViewChosen => OptionsShown(d)
    case FormClosed => FormShown(d)
    case OptionsClosed => OptionsShown(d)
    case ListClosed => ListShown(d)
  }

  /** At most one dialog flag is set, and a set flag has the selections its
      dialog needs. */
  predicate Coherent(d: Dashboard) {
    && (d.showForm ==> !d.showOptions && !d.showPrescriptions && d.selectedAppointmentId.Some?)
    && (d.showOptions ==> !d.showPrescriptions && d.selectedAppointmentId.Some? && d.selectedPatient.Some?)
    && (d.showPrescriptions ==> d.selectedPatient.Some?)
  }

  /** The events a user can produce, one after another. */
  function Run(d: Dashboard, es: seq<Event>): Option<Dashboard>
    decreases |es|
  {
    if |es| == 0 then Some(d)
    else if !Enabled(d, es[0]) then None
    else Run(Step(d, es[0]), es[1..])
  }

  /** Every enabled handler keeps the dashboard coherent. */
  lemma StepCoherent(d: Dashboard, e: Event)
    requires Coherent(d) && Enabled(d, e)
    ensures Coherent(Step(d, e))
  {
  }

  /** Whatever the user does from the opening state, at most one dialog is
      up, the form always knows its appointment, and the options and list
      always know their patient. */
  lemma {:induction false} RunCoherent(d: Dashboard, es: seq<Event>)
    requires Coherent(d)
    ensures Run(d, es).Some? ==> Coherent(Run(d, es).value)
    decreases |es|
  {
    if |es| > 0 && Enabled(d, es[0]) {
      StepCoherent(d, es[0]);
      RunCoherent(Step(d, es[0]), es[1..]);
    }
  }

  /** Choosing Add or View swaps the options for exactly the chosen dialog. */
  lemma ChoiceOpensOneDialog(d: Dashboard)
    requires Coherent(d) && OptionsShown(d)
    ensures var r := Step(d, AddChosen); FormShown(r) && !OptionsShown(r) && !ListShown(r)
    ensures var r := Step(d, ViewChosen); ListShown(r) && !OptionsShown(r) && !FormShown(r)
  {
  }

  /** Viewing a patient's prescriptions and closing the list leaves no
      dialog up but still remembers the appointment, unlike closing the
      form or the options. */
  lemma ListCloseKeepsAppointment(a: Appointment)
    requires a.isCompleted
    ensures var r := Run(Start, [RowClicked(a), ViewChosen, ListClosed]);
      r.Some? && !AnyDialog(r.value) && r.value.selectedAppointmentId == Some(a.id) && r.value.selectedPatient.None?
    ensures var r := Run(Start, [RowClicked(a), AddChosen, FormClosed]);
      r.Some? && !AnyDialog(r.value) && r.value.selectedAppointmentId.None?
  {
    var d1 := Step(Start, RowClicked(a));
    assert Run(Start, [RowClicked(a), ViewChosen, ListClosed]) == Run(d1, [ViewChosen, ListClosed]) by {
      assert [RowClicked(a), ViewChosen, ListClosed][1..] == [ViewChosen, ListClosed];
    }
    assert Run(d1, [ViewChosen, ListClosed]) == Run(Step(d1, ViewChosen), [ListClosed]) by {
      assert [ViewChosen, ListClosed][1..] == [ListClosed];
    }
    assert Run(Start, [RowClicked(a), AddChosen, FormClosed]) == Run(d1, [AddChosen, FormClosed]) by {
      assert [RowClicked(a), AddChosen, FormClosed][1..] == [AddChosen, FormClosed];
    }
    assert Run(d1, [AddChosen, FormClosed]) == Run(Step(d1, AddChosen), [FormClosed]) by {
      assert [AddChosen, FormClosed][1..] == [FormClosed];
    }
  }

  /** Clicking a row that is not completed opens nothing. */
  lemma PendingRowOpensNothing(a: Appointment)
    requires !a.isCompleted
    ensures Run(Start, [RowClicked(a)]) == Some(Start)
  {
    assert [RowClicked(a)][1..] == [];
  }
}

=== FILE: frontend_form.dfy ===
/** The patient-side prescription form: prefilled names from the patient's
    display name (its first two space-separated pieces), medications kept as
    typed, any chosen file, and a request that carries the appointment id,
    the indented prescription text and the file, but no type. */
module FrontendForm {
  import opened Wrappers
  import opened JsString
  import opened Records
  import PrescriptionText

  datatype FormState = FormState(
    firstName: string,
    lastName: string,
    age: string,
    treatment: string,
    medication: string,
    dateSigned: string,
    medications: seq<string>,
    file: Option<ClientFile>)

  /** The leading pieces of a joined list. */
  lemma JoinStartsWithFirst(parts: seq<string>, sep: string)
    requires |parts| >= 2
    ensures var j := Join(parts, sep);
      |parts[0] + sep + parts[1]| <= |j| && j[..|parts[0] + sep + parts[1]|] == parts[0] + sep + parts[1]
  {
    var rest := Join(parts[1..], sep);
    if |parts| > 2 {
      assert parts[1..][0] == parts[1];
      assert rest == parts[1] + sep + Join(parts[2..], sep) by {
        assert parts[1..][1..] == parts[2..];
      }
    }
    assert rest[..|parts[1]|] == parts[1];
  }

  /** `name?.split(' ')[0] || ''` and `name?.split(' ')[1] || ''`: the first
      two space-separated pieces of the name; "" for a missing name or piece. */
  function InitialNames(name: Option<string>): (r: (string, string))
    ensures ' ' !in r.0 && ' ' !in r.1
    ensures name.None? ==> r == ("", "")
    ensures name.Some? && ' ' !in name.value ==> r == (name.value, "")
    ensures name.Some? && ' ' in name.value ==>
      var n := r.0 + " " + r.1;
      |n| <= |name.value| && name.value[..|n|] == n
    ensures name.Some? && ' ' in name.value ==>
      && PieceBefore(name.value, ' ', r.0)
      && |r.0| < |name.value|
      && PieceBefore(name.value[|r.0| + 1..], ' ', r.1)
  {
    match name
    case None => ("", "")
    case Some(full) =>
      var parts := Split(full, ' ');
      if |parts| >= 2 then
        var k := IndexOf(full, ' ').value;
        SplitFirstPiece(full, ' ');
        SplitFirstPiece(full[k + 1..], ' ');
        JoinSplit(full, ' ');
        JoinStartsWithFirst(parts, " ");
        assert [' '] == " ";
        (parts[0], parts[1])
      else
        (parts[0], "")
  }

  /** A name of three or more pieces loses everything after the second. */
  lemma InitialNamesDropRest(a: string, b: string, rest: string)
    requires ' ' !in a && ' ' !in b
    ensures InitialNames(Some(a + " " + b + " " + rest)) == (a, b)
  {
    var ps := Split(rest, ' ');
    var all := [a, b] + ps;
    JoinSplit(rest, ' ');
    assert [' '] == " ";
    assert Join(all, " ") == a + " " + b + " " + rest by {
      JoinCons(b, ps, " ");
      assert all[1..] == [b] + ps;
      JoinCons(a, [b] + ps, " ");
      assert all == [a] + ([b] + ps);
    }
    SplitJoin(all, ' ');
  }

  /** The form as it opens: the names from the patient's display name and
      today's date, the part of the ISO timestamp before its 'T'. */
  function Initial(patientName: Option<string>, isoNow: string): (s: FormState)
    ensures (s.firstName, s.lastName) == InitialNames(patientName)
    ensures s.age == "" && s.treatment == "" && s.medication == "" && s.medications == [] && s.file.None?
    ensures PieceBefore(isoNow, 'T', s.dateSigned)
  {
    var names := InitialNames(patientName);
    SplitFirstPiece(isoNow, 'T');
    FormState(names.0, names.1, "", "", "", Split(isoNow, 'T')[0], [], None)
  }

  /** `handleAddMedication`: a non-blank input is appended exactly as typed
      (untrimmed) and the input cleared; a blank input changes nothing. */
  function AddMedication(s: FormState): (r: FormState)
    ensures AllWhitespace(s.medication) ==> r == s
    ensures !AllWhitespace(s.medication) ==>
      r == s.(medications := s.medications + [s.medication], medication := "")
  {
    TrimEmptyIff(s.medication);
    if Trim(s.medication) != "" then s.(medications := s.medications + [s.medication], medication := "")
    else s
  }

  /** Unlike the staff form, which appends the trimmed input, an input with
      whitespace at either end is listed as typed, so the entry differs from
      its trim. */
  lemma AddMedicationKeepsSpaces(s: FormState)
    requires !AllWhitespace(s.medication) && !IsTrimmed(s.medication)
    ensures var r := AddMedication(s);
      && |r.medications| == |s.medications| + 1
      && r.medications[|s.medications|] == s.medication
      && r.medications[|s.medications|] != Trim(s.medication)
  {
  }

  /** `handleFileChange`: whatever file is chosen (the picker's ".pdf" filter
      is only a hint) replaces the previous one. */
  function SelectFile(s: FormState, chosen: Option<ClientFile>): (r: FormState)
    ensures r.file == chosen
    ensures r.(file := s.file) == s
  {
    s.(file := chosen)
  }

  /** The inputs marked `required` are non-empty. */
  predicate Complete(s: FormState) {
    s.firstName != "" && s.lastName != "" && s.age != "" && s.treatment != "" && s.dateSigned != ""
  }

  /** The text the submit sends: the eight-space-indented template with the
      listed medications joined by ", " (the pending input is not included). */
  function SubmittedText(s: FormState): string {
    PrescriptionText.Compose(PrescriptionText.FrontendIndent, s.firstName, s.lastName, s.age,
                             s.treatment, Join(s.medications, ", "), s.dateSigned)
  }

  /** `handleSubmit`: nothing is sent while a required input is empty;
      otherwise the appointment id, the text and the chosen file. No
      `prescriptionType` entry is ever appended. */
  function Submit(s: FormState, appointmentId: string): (r: Option<FormData>)
    ensures r.None? <==> !Complete(s)
    ensures r.Some? ==>
      && EntryNames(r.value) == ["appointmentId", "prescriptionText"]
                                + (if s.file.Some? then ["prescriptionFile"] else [])
      && "prescriptionType" !in EntryNames(r.value)
      && r.value[0].1 == TextValue(appointmentId)
      && r.value[1].1 == TextValue(SubmittedText(s))
      && (s.file.Some? ==> r.value[2].1 == FileValue(s.file.value))
  {
    if !Complete(s) then None
    else
      Some([("appointmentId", TextValue(appointmentId)),
            ("prescriptionText", TextValue(SubmittedText(s)))]
           + (match s.file
              case Some(f) => [("prescriptionFile", FileValue(f))]
              case None => []))
  }
}

=== FILE: js_array.dfy ===
/** The JavaScript array methods the views and the PDF generator use:
    `filter` and `reverse`. */
module JsArray {
  import opened Wrappers

  /** `s.filter(p)`: the elements satisfying `p`, in their original order. */
  function Filter<T>(s: seq<T>, p: T -> bool): (r: seq<T>)
    ensures |r| <= |s|
    ensures forall i :: 0 <= i < |r| ==> r[i] in s && p(r[i])
    ensures forall i :: 0 <= i < |s| && p(s[i]) ==> s[i] in r
    decreases |s|
  {
    if |s| == 0 then []
    else if p(s[0]) then [s[0]] + Filter(s[1..], p)
    else Filter(s[1..], p)
  }

  /** Filtering distributes over concatenation, so the kept elements keep their order. */
  lemma {:induction false} FilterAppend<T>(a: seq<T>, b: seq<T>, p: T -> bool)
    ensures Filter(a + b, p) == Filter(a, p) + Filter(b, p)
    decreases |a|
  {
    if |a| > 0 {
      assert (a + b)[1..] == a[1..] + b;
      FilterAppend(a[1..], b, p);
    } else {
      assert a + b == b;
    }
  }

  /** `a` is `b` with some elements left out: the elements of `a` occur in
      `b` in the same order. */
  predicate Subsequence<T(==)>(a: seq<T>, b: seq<T>)
    decreases |b|
  {
    if |a| == 0 then true
    else if |b| == 0 then false
    else if a[0] == b[0] then Subsequence(a[1..], b[1..])
    else Subsequence(a, b[1..])
  }

  /** What `filter` keeps stays in its original order. */
  lemma {:induction false} FilterSubsequence<T>(s: seq<T>, p: T -> bool)
    ensures Subsequence(Filter(s, p), s)
    decreases |s|
  {
    if |s| > 0 {
      FilterSubsequence(s[1..], p);
      if p(s[0]) {
        assert Filter(s, p)[1..] == Filter(s[1..], p);
      } else if Filter(s, p) != [] {
        assert p(Filter(s, p)[0]);
      }
    }
  }

  /** `s.reverse()`: the elements in opposite order. */
  function Reverse<T>(s: seq<T>): (r: seq<T>)
    ensures |r| == |s|
    ensures forall i :: 0 <= i < |s| ==> r[i] == s[|s| - 1 - i]
    decreases |s|
  {
    if |s| == 0 then [] else Reverse(s[1..]) + [s[0]]
  }

  /** The index of the last element satisfying `p`, if any (a reference
      definition for left-to-right scans that keep the latest match). */
  function LastWhere<T>(s: seq<T>, p: T -> bool): (r: Option<nat>)
    ensures r.Some? ==> r.value < |s| && p(s[r.value])
    ensures r.Some? ==> forall j :: r.value < j < |s| ==> !p(s[j])
    ensures r.None? <==> forall j :: 0 <= j < |s| ==> !p(s[j])
    decreases |s|
  {
    if |s| == 0 then None
    else match LastWhere(s[1..], p)
      case Some(j) => Some(j + 1)
      case None => if p(s[0]) then Some(0) else None
  }

  /** The last match is at `k` when `s[k]` matches and nothing after it does. */
  lemma LastWhereIs<T>(s: seq<T>, p: T -> bool, k: nat)
    requires k < |s| && p(s[k])
    requires forall j :: k < j < |s| ==> !p(s[j])
    ensures LastWhere(s, p) == Some(k)
  {
  }
}

=== FILE: js_string.dfy ===
/** The JavaScript string primitives the prescription pipeline is built from:
    `includes`, `indexOf`, `split` on one character, `Array.prototype.join`,
    `trim`, and the decimal rendering of integers (`Number.prototype.toString`,
    and string concatenation of a number). Strings are sequences of code points. */
module JsString {
  import opened Wrappers

  // ---------------------------------------------------------------------------
  // trim
  // ---------------------------------------------------------------------------

  /** The characters `String.prototype.trim` removes: the ECMAScript WhiteSpace
      (tab, VT, FF, ZWNBSP and every Zs space) and LineTerminator characters. */
  predicate IsWhitespace(c: char) {
    || c == '\t' || c == '\n' || c == '\U{B}' || c == '\U{C}' || c == '\r' || c == ' '
    || c == '\U{A0}' || c == '\U{1680}' || ('\U{2000}' <= c <= '\U{200A}')
    || c == '\U{2028}' || c == '\U{2029}' || c == '\U{202F}' || c == '\U{205F}'
    || c == '\U{3000}' || c == '\U{FEFF}'
  }

  predicate AllWhitespace(s: string) {
    forall i :: 0 <= i < |s| ==> IsWhitespace(s[i])
  }

  /** Neither end of `s` is whitespace: what `trim` leaves behind. */
  predicate IsTrimmed(s: string) {
    s == [] || (!IsWhitespace(s[0]) && !IsWhitespace(s[|s| - 1]))
  }

  /** `s` without its leading whitespace: a suffix of `s` that starts with a
      non-whitespace character (or is empty), everything cut off being whitespace. */
  function TrimStart(s: string): (r: string)
    ensures |r| <= |s| && r == s[|s| - |r|..]
    ensures AllWhitespace(s[..|s| - |r|])
    ensures r == [] || !IsWhitespace(r[0])
    decreases |s|
  {
    if |s| > 0 && IsWhitespace(s[0]) then
      var r := TrimStart(s[1..]);
      assert s[..|s| - |r|] == [s[0]] + s[1..][..|s| - 1 - |r|];
      r
    else s
  }

  /** `s` without its trailing whitespace: a prefix of `s` that ends with a
      non-whitespace character (or is empty), everything cut off being whitespace. */
  function TrimEnd(s: string): (r: string)
    ensures |r| <= |s| && r == s[..|r|]
    ensures AllWhitespace(s[|r|..])
    ensures r == [] || !IsWhitespace(r[|r| - 1])
    decreases |s|
  {
    if |s| > 0 && IsWhitespace(s[|s| - 1]) then
      var t := s[..|s| - 1];
      var r := TrimEnd(t);
      assert r == s[..|r|];
      assert s[|r|..] == t[|r|..] + [s[|s| - 1]];
      r
    else s
  }

  /** `String.prototype.trim`. */
  function Trim(s: string): (r: string)
    ensures IsTrimmed(r)
    ensures |r| <= |s|
  {
    var t := TrimStart(s);
    var r := TrimEnd(t);
    assert r != [] ==> r[0] == t[0];
    r
  }

  /** Every entry trimmed, in order. */
  function TrimEach(s: seq<string>): (r: seq<string>)
    ensures |r| == |s| && forall i :: 0 <= i < |s| ==> r[i] == Trim(s[i])
  {
    seq(|s|, i requires 0 <= i < |s| => Trim(s[i]))
  }

  /** A string already trimmed is its own trim. */
  lemma TrimOfTrimmed(s: string)
    requires IsTrimmed(s)
    ensures Trim(s) == s
  {
  }

  /** Leading whitespace does not change the trim. */
  lemma {:induction false} TrimSkipsLeading(w: string, s: string)
    requires AllWhitespace(w)
    ensures Trim(w + s) == Trim(s)
    decreases |w|
  {
    if |w| > 0 {
      assert (w + s)[1..] == w[1..] + s;
      assert TrimStart(w + s) == TrimStart(w[1..] + s);
      TrimSkipsLeading(w[1..], s);
    } else {
      assert w + s == s;
    }
  }

  /** The trim is empty exactly when the string is all whitespace (JavaScript's
      `line.trim()` is falsy exactly for blank lines). */
  lemma TrimEmptyIff(s: string)
    ensures Trim(s) == [] <==> AllWhitespace(s)
  {
    var t := TrimStart(s);
    if Trim(s) == [] {
      assert t[0..] == t;
      assert s == s[..|s| - |t|] + t;
    }
  }

  /** A string holding a non-whitespace character has a non-empty trim. */
  lemma TrimNonEmpty(s: string, i: int)
    requires 0 <= i < |s| && !IsWhitespace(s[i])
    ensures Trim(s) != []
  {
    TrimEmptyIff(s);
  }

  // ---------------------------------------------------------------------------
  // includes
  // ---------------------------------------------------------------------------

  /** `s.includes(sub)`: `sub` occurs in `s` at some position. */
  predicate Contains(s: string, sub: string) {
    exists i | 0 <= i <= |s| - |sub| :: OccursAt(s, sub, i)
  }

  /** `sub` occurs in `s` starting at position `i`. */
  predicate OccursAt(s: string, sub: string, i: int) {
    0 <= i <= |s| - |sub| && s[i..i + |sub|] == sub
  }

  lemma ContainsPrefix(sub: string, rest: string)
    ensures Contains(sub + rest, sub)
  {
    assert OccursAt(sub + rest, sub, 0);
  }

  /** Every character of an occurring `sub` is a character of `s`. */
  lemma ContainsHasChar(s: string, sub: string, k: int)
    requires Contains(s, sub) && 0 <= k < |sub|
    ensures sub[k] in s
  {
    var i :| 0 <= i <= |s| - |sub| && OccursAt(s, sub, i);
    assert s[i..i + |sub|][k] == s[i + k];
  }

  /** A trimmed string occurs in the original. */
  lemma TrimContained(s: string)
    ensures Contains(s, Trim(s))
  {
    var t := TrimStart(s);
    var r := TrimEnd(t);
    var k := |s| - |t|;
    assert Trim(s) == r;
    assert s[k..k + |r|] == t[..|r|];
    assert OccursAt(s, r, k);
  }

  /** A string lacking one of the characters of `sub` does not contain `sub`. */
  lemma NotContainsMissingChar(s: string, sub: string, k: int)
    requires 0 <= k < |sub| && sub[k] !in s
    ensures !Contains(s, sub)
  {
    if Contains(s, sub) {
      ContainsHasChar(s, sub, k);
    }
  }

  /** An occurrence in the suffix is an occurrence in the whole string. */
  lemma ContainsAfter(a: string, b: string, sub: string)
    requires Contains(b, sub)
    ensures Contains(a + b, sub)
  {
    var i :| 0 <= i <= |b| - |sub| && OccursAt(b, sub, i);
    assert (a + b)[|a| + i..|a| + i + |sub|] == b[i..i + |sub|];
    assert OccursAt(a + b, sub, |a| + i);
  }

  /** In a string whose only `c` sits at `p`, a pattern ending in `c` occurs
      exactly when it ends at `p`. */
  lemma SingleMarkContains(s: string, c: char, p: nat, sub: string)
    requires p < |s| && s[p] == c
    requires forall q :: 0 <= q < |s| && q != p ==> s[q] != c
    requires |sub| > 0 && sub[|sub| - 1] == c
    ensures Contains(s, sub) <==> |sub| <= p + 1 && s[p + 1 - |sub|..p + 1] == sub
  {
    if Contains(s, sub) {
      var i :| 0 <= i <= |s| - |sub| && OccursAt(s, sub, i);
      assert s[i + |sub| - 1] == sub[|sub| - 1];
    }
    if |sub| <= p + 1 && s[p + 1 - |sub|..p + 1] == sub {
      assert OccursAt(s, sub, p + 1 - |sub|);
    }
  }

  /** An occurrence in a longer string that starts inside the prefix. */
  lemma ContainsInPrefix(a: string, b: string, sub: string)
    requires Contains(a, sub)
    ensures Contains(a + b, sub)
  {
    var i :| 0 <= i <= |a| - |sub| && OccursAt(a, sub, i);
    assert (a + b)[i..i + |sub|] == a[i..i + |sub|];
    assert OccursAt(a + b, sub, i);
  }

  /** No occurrence can straddle a non-empty separator none of whose characters
      occurs in `sub`: it would be inside one side or the other. */
  lemma NotContainsAcross(a: string, sep: string, b: string, sub: string)
    requires |sep| > 0 && |sub| > 0
    requires forall i :: 0 <= i < |sep| ==> sep[i] !in sub
    requires !Contains(a, sub) && !Contains(b, sub)
    ensures !Contains(a + sep + b, sub)
  {
    var s := a + sep + b;
    forall i | 0 <= i <= |s| - |sub|
      ensures !OccursAt(s, sub, i)
    {
      NoOccurrenceAt(a, sep, b, sub, i);
    }
  }

  /** A string that does not contain `sub` has no occurrence at any position. */
  lemma NotOccursAt(a: string, sub: string, i: int)
    requires !Contains(a, sub) && 0 <= i <= |a| - |sub|
    ensures a[i..i + |sub|] != sub
  {
    assert !OccursAt(a, sub, i);
  }

  /** One position of the joined string: an occurrence there would lie inside
      `a`, inside `b`, or cover a separator character. */
  lemma NoOccurrenceAt(a: string, sep: string, b: string, sub: string, i: int)
    requires |sep| > 0 && |sub| > 0
    requires forall i :: 0 <= i < |sep| ==> sep[i] !in sub
    requires !Contains(a, sub) && !Contains(b, sub)
    requires 0 <= i <= |a + sep + b| - |sub|
    ensures !OccursAt(a + sep + b, sub, i)
  {
    var ab := a + sep;
    var s := ab + b;
    var n := |sub|;
    if i + n <= |a| {
      NotOccursAt(a, sub, i);
      assert s[i..i + n] == a[i..i + n];
    } else if i >= |ab| {
      var j := i - |ab|;
      NotOccursAt(b, sub, j);
      assert s[i..i + n] == b[j..j + n];
    } else {
      var q := if i >= |a| then i else |a|;
      assert s[q] == sep[q - |a|];
      assert sep[q - |a|] !in sub;
      assert s[i..i + n][q - i] == s[q];
    }
  }

  /** A join of pieces none of which contains `sub` does not contain it either,
      when the separator shares no character with `sub`. */
  lemma {:induction false} NotContainsJoin(parts: seq<string>, sep: string, sub: string)
    requires |sep| > 0 && |sub| > 0
    requires forall i :: 0 <= i < |sep| ==> sep[i] !in sub
    requires forall k :: 0 <= k < |parts| ==> !Contains(parts[k], sub)
    ensures !Contains(Join(parts, sep), sub)
    decreases |parts|
  {
    if |parts| > 1 {
      NotContainsJoin(parts[1..], sep, sub);
      NotContainsAcross(parts[0], sep, Join(parts[1..], sep), sub);
    }
  }

  /** A string containing `sub` joined to others still contains it. */
  lemma {:induction false} ContainsJoinPart(parts: seq<string>, sep: string, sub: string, k: int)
    requires 0 <= k < |parts| && Contains(parts[k], sub)
    ensures Contains(Join(parts, sep), sub)
    decreases |parts|
  {
    if |parts| > 1 {
      if k == 0 {
        assert parts[0] + sep + Join(parts[1..], sep) == parts[0] + (sep + Join(parts[1..], sep));
        ContainsInPrefix(parts[0], sep + Join(parts[1..], sep), sub);
      } else {
        ContainsJoinPart(parts[1..], sep, sub, k - 1);
        ContainsAfter(parts[0] + sep, Join(parts[1..], sep), sub);
      }
    }
  }

  /** An occurrence of a pattern that ends in its only ':' in a string
      "<x>:<b>" with no ':' in `b`: it lies inside `x`, or `x` ends with the
      pattern's text before its ':'. */
  lemma ColonJoinContains(x: string, b: string, key: string)
    requires |key| > 0 && key[|key| - 1] == ':' && ':' !in b
    requires Contains(x + ":" + b, key)
    ensures Contains(x, key) || (|key| - 1 <= |x| && x[|x| - (|key| - 1)..] == key[..|key| - 1])
  {
    var s := x + ":" + b;
    var i :| 0 <= i <= |s| - |key| && OccursAt(s, key, i);
    var e := i + |key| - 1;
    assert s[e] == s[i..i + |key|][|key| - 1] == ':';
    if e < |x| {
      assert s[i..i + |key|] == x[i..i + |key|];
      assert OccursAt(x, key, i);
    } else if e == |x| {
      assert s[i..e] == x[i..];
      assert key[..|key| - 1] == s[i..i + |key|][..|key| - 1];
    } else {
      assert false;
    }
  }

  // ---------------------------------------------------------------------------
  // indexOf, split, join
  // ---------------------------------------------------------------------------

  /** `s.indexOf(c)`: the first position of `c`, absent when `c` does not occur. */
  function IndexOf(s: string, c: char): (r: Option<nat>)
    ensures r.None? <==> c !in s
    ensures r.Some? ==> r.value < |s| && s[r.value] == c && c !in s[..r.value]
  {
    if |s| == 0 then None
    else if s[0] == c then Some(0)
    else
      match IndexOf(s[1..], c)
      case None => None
      case Some(k) =>
        assert s[..k + 1] == [s[0]] + s[1..][..k];
        Some(k + 1)
  }

  /** `s.lastIndexOf(c)`: the last position of `c`, absent when `c` does not occur. */
  function LastIndexOf(s: string, c: char): (r: Option<nat>)
    ensures r.None? <==> c !in s
    ensures r.Some? ==> r.value < |s| && s[r.value] == c && c !in s[r.value + 1..]
  {
    if |s| == 0 then None
    else if s[|s| - 1] == c then Some(|s| - 1)
    else
      var r := LastIndexOf(s[..|s| - 1], c);
      assert r.Some? ==> s[r.value + 1..] == s[..|s| - 1][r.value + 1..] + [s[|s| - 1]];
      assert s == s[..|s| - 1] + [s[|s| - 1]];
      r
  }

  /** `s.split(c)` for a one-character separator: the maximal pieces of `s`
      free of `c`, in order; the empty string splits into one empty piece. */
  function Split(s: string, c: char): (parts: seq<string>)
    ensures |parts| >= 1
    ensures forall i :: 0 <= i < |parts| ==> c !in parts[i]
    decreases |s|
  {
    match IndexOf(s, c)
    case None => [s]
    case Some(k) => [s[..k]] + Split(s[k + 1..], c)
  }

  /** `parts.join(sep)`. */
  function Join(parts: seq<string>, sep: string): string
    decreases |parts|
  {
    if |parts| == 0 then ""
    else if |parts| == 1 then parts[0]
    else parts[0] + sep + Join(parts[1..], sep)
  }

  /** A join of several pieces: the first, the separator, the join of the rest. */
  lemma JoinCons(x: string, rest: seq<string>, sep: string)
    requires |rest| > 0
    ensures Join([x] + rest, sep) == x + sep + Join(rest, sep)
  {
    assert ([x] + rest)[1..] == rest;
  }

  /** A character in none of the pieces and not in the separator is not in
      their join. */
  lemma {:induction false} JoinWithout(parts: seq<string>, sep: string, c: char)
    requires c !in sep
    requires forall i :: 0 <= i < |parts| ==> c !in parts[i]
    ensures c !in Join(parts, sep)
    decreases |parts|
  {
    if |parts| > 1 {
      JoinWithout(parts[1..], sep, c);
    }
  }

  /** Joining the pieces of a split with the separator gives back the string. */
  lemma {:induction false} JoinSplit(s: string, c: char)
    ensures Join(Split(s, c), [c]) == s
    decreases |s|
  {
    match IndexOf(s, c)
    case None =>
    case Some(k) =>
      var rest := Split(s[k + 1..], c);
      JoinSplit(s[k + 1..], c);
      assert ([s[..k]] + rest)[1..] == rest;
      assert s == s[..k] + [c] + s[k + 1..];
  }

  /** Splitting a join of separator-free pieces gives back the pieces. */
  lemma {:induction false} SplitJoin(parts: seq<string>, c: char)
    requires |parts| >= 1
    requires forall i :: 0 <= i < |parts| ==> c !in parts[i]
    ensures Split(Join(parts, [c]), c) == parts
    decreases |parts|
  {
    if |parts| > 1 {
      SplitFirst(parts[0], Join(parts[1..], [c]), c);
      SplitJoin(parts[1..], c);
    }
  }

  /** A string that starts with a separator-free piece and a separator splits
      into that piece followed by the pieces of the rest. */
  lemma SplitFirst(p: string, rest: string, c: char)
    requires c !in p
    ensures Split(p + [c] + rest, c) == [p] + Split(rest, c)
  {
    var s := p + [c] + rest;
    IndexOfFirst(p, rest, c);
    assert s[..|p|] == p;
    assert s[|p| + 1..] == rest;
  }

  /** The first separator after a separator-free prefix is found right there. */
  lemma {:induction false} IndexOfFirst(p: string, rest: string, c: char)
    requires c !in p
    ensures IndexOf(p + [c] + rest, c) == Some(|p|)
    decreases |p|
  {
    var s := p + [c] + rest;
    if |p| > 0 {
      assert s[0] == p[0];
      assert s[1..] == p[1..] + [c] + rest;
      IndexOfFirst(p[1..], rest, c);
    }
  }


  /** Trimming a space put before a trimmed value gives the value back. */
  lemma SpaceThenTrimmed(value: string)
    requires IsTrimmed(value)
    ensures Trim(" " + value) == value
  {
    assert AllWhitespace(" ");
    TrimSkipsLeading(" ", value);
    TrimOfTrimmed(value);
  }

  /** Every piece after the first with a space put in front: the pieces
      of a ", "-join seen as a ","-join. */
  function Spaced(parts: seq<string>): (r: seq<string>)
    requires |parts| >= 1
    ensures |r| == |parts| && r[0] == parts[0]
    ensures forall i :: 1 <= i < |parts| ==> r[i] == " " + parts[i]
  {
    [parts[0]] + seq(|parts| - 1, i requires 0 <= i < |parts| - 1 => " " + parts[i + 1])
  }

  /** Putting a string in front of a join puts it in front of the first piece. */
  lemma JoinPrependFirst(x: string, parts: seq<string>, sep: string)
    requires |parts| >= 1
    ensures x + Join(parts, sep) == Join([x + parts[0]] + parts[1..], sep)
  {
    if |parts| > 1 {
      JoinCons(x + parts[0], parts[1..], sep);
    }
  }

  /** Joining with ", " is joining the spaced pieces with ",". */
  lemma {:induction false} JoinCommaSpace(parts: seq<string>)
    requires |parts| >= 1
    ensures Join(parts, ", ") == Join(Spaced(parts), ",")
    decreases |parts|
  {
    if |parts| > 1 {
      var tail := Spaced(parts[1..]);
      JoinCommaSpace(parts[1..]);
      JoinPrependFirst(" ", tail, ",");
      var moved := [" " + tail[0]] + tail[1..];
      assert Spaced(parts) == [parts[0]] + moved;
      JoinCons(parts[0], moved, ",");
    }
  }

  /** `p` is the part of `s` before its first `c`, or all of `s` when `c`
      does not occur. */
  predicate PieceBefore(s: string, c: char, p: string) {
    |p| <= |s| && s[..|p|] == p && c !in p && (|p| == |s| || s[|p|] == c)
  }

  /** `s.split(c)[0]` is the part of `s` before its first `c`. */
  lemma SplitFirstPiece(s: string, c: char)
    ensures PieceBefore(s, c, Split(s, c)[0])
  {
  }

  /** Only one string is the part before the first `c`. */
  lemma PieceBeforeUnique(s: string, c: char, p: string, q: string)
    requires PieceBefore(s, c, p) && PieceBefore(s, c, q)
    ensures p == q
  {
  }

  /** A string holding the separator splits into at least two pieces, so
      `s.split(c)[1]` is defined. */
  lemma SplitHasTwoPieces(s: string, c: char)
    requires c in s
    ensures |Split(s, c)| >= 2
  {
  }

  /** The pieces around a single separator. */
  lemma SplitOnce(a: string, b: string, c: char)
    requires c !in a && c !in b
    ensures Split(a + [c] + b, c) == [a, b]
  {
    assert Join([a, b], [c]) == a + [c] + b;
    SplitJoin([a, b], c);
  }

  /** A piece of a split that contains `sub` shows that the whole string
      contains `sub`. */
  lemma ContainsSplitPart(s: string, c: char, sub: string, k: int)
    requires 0 <= k < |Split(s, c)| && Contains(Split(s, c)[k], sub)
    ensures Contains(s, sub)
  {
    ContainsJoinPart(Split(s, c), [c], sub, k);
    JoinSplit(s, c);
  }

  /** A string containing `sub`, split on a character `sub` does not hold,
      has a piece containing `sub`. */
  lemma SplitPartContains(s: string, c: char, sub: string)
    requires Contains(s, sub) && c !in sub && |sub| > 0
    ensures exists k :: 0 <= k < |Split(s, c)| && Contains(Split(s, c)[k], sub)
  {
    var parts := Split(s, c);
    JoinSplit(s, c);
    if forall k :: 0 <= k < |parts| ==> !Contains(parts[k], sub) {
      NotContainsJoin(parts, [c], sub);
    }
  }

  // ---------------------------------------------------------------------------
  // decimal numerals
  // ---------------------------------------------------------------------------

  predicate IsDigit(c: char) {
    '0' <= c <= '9'
  }

  predicate AllDigits(s: string) {
    forall i :: 0 <= i < |s| ==> IsDigit(s[i])
  }

  function DigitChar(d: nat): (c: char)
    requires d < 10
    ensures IsDigit(c)
  {
    (48 + d) as char
  }

  function DigitValue(c: char): nat
    requires IsDigit(c)
  {
    (c as int) - 48
  }

  /** The decimal numeral of `n` as JavaScript prints a non-negative integer:
      digits only, no leading zero. */
  function NatToString(n: nat): (s: string)
    ensures |s| >= 1 && AllDigits(s)
    ensures s[0] == '0' ==> n == 0 && |s| == 1
    decreases n
  {
    if n < 10 then [DigitChar(n)] else NatToString(n / 10) + [DigitChar(n % 10)]
  }

  /** The value of a string of decimal digits (the empty string reads as 0). */
  function ParseDigits(s: string): nat
    requires AllDigits(s)
    decreases |s|
  {
    if |s| == 0 then 0 else 10 * ParseDigits(s[..|s| - 1]) + DigitValue(s[|s| - 1])
  }

  /** Reading back a printed numeral gives the number. */
  lemma {:induction false} ParseNatToString(n: nat)
    ensures ParseDigits(NatToString(n)) == n
    decreases n
  {
    if n >= 10 {
      var s := NatToString(n);
      assert s[..|s| - 1] == NatToString(n / 10);
      ParseNatToString(n / 10);
    }
  }

  /** Distinct numbers print differently. */
  lemma NatToStringInjective(m: nat, n: nat)
    requires NatToString(m) == NatToString(n)
    ensures m == n
  {
    ParseNatToString(m);
    ParseNatToString(n);
  }

  /** `Number.prototype.toString` on an integer. */
  function IntToString(i: int): (s: string)
    ensures |s| >= 1
    ensures i < 0 <==> s[0] == '-'
    ensures i >= 0 ==> AllDigits(s) && ParseDigits(s) == i
    ensures i < 0 ==> AllDigits(s[1..]) && ParseDigits(s[1..]) == -i
  {
    if i < 0 then
      ParseNatToString(-i);
      assert ("-" + NatToString(-i))[1..] == NatToString(-i);
      "-" + NatToString(-i)
    else
      ParseNatToString(i);
      NatToString(i)
  }
}

=== FILE: patient_appointments.dfy ===
/** The patient's appointment list: the `d_m_y` slot date shown as
    "d Mon y", the newest-first order, the one status badge and the buttons
    each appointment offers, and the prescription dialog a completed
    appointment opens. */
module PatientAppointments {
  import opened Wrappers
  import opened JsString
  import opened JsArray
  import opened Records

  // ---------------------------------------------------------------------------
  // slot dates
  // ---------------------------------------------------------------------------

  /** Month abbreviations indexed by month number; index 0 is blank. */
  const Months: seq<string> :=
    ["", "Jan", "Feb", "Mar", "Apr", "May", "Jun", "Jul", "Aug", "Sep", "Oct", "Nov", "Dec"]

  /** What string concatenation prints for a missing value. */
  const Undefined := "undefined"

  /** The twelve names are distinct three-letter abbreviations and differ from
      the blank entry. */
  lemma MonthNames(i: int, j: int)
    requires 1 <= i <= 12 && 1 <= j <= 12
    ensures |Months| == 13 && Months[0] == ""
    ensures |Months[i]| == 3
    ensures i != j ==> Months[i] != Months[j]
  {
  }

  /** `Number(piece)` for the pieces this model reads: a blank (or
      whitespace-only) piece is 0, a trimmed run of decimal digits is its
      value; anything else, and a missing piece, is not a number. */
  function NumberOf(piece: Option<string>): (r: Option<nat>)
    ensures piece.Some? && AllWhitespace(piece.value) ==> r == Some(0)
    ensures piece.None? ==> r.None?
    ensures r.Some? ==> piece.Some? && AllDigits(Trim(piece.value))
  {
    match piece
    case None => None
    case Some(s) =>
      TrimEmptyIff(s);
      var t := Trim(s);
      if AllDigits(t) then Some(ParseDigits(t)) else None
  }

  /** `months[Number(piece)]` as concatenation prints it: the table entry,
      or "undefined" when the index is not a number or past the table. */
  function MonthLabel(piece: Option<string>): (m: string)
    ensures NumberOf(piece).Some? && NumberOf(piece).value < |Months| ==> m == Months[NumberOf(piece).value]
    ensures NumberOf(piece).None? || NumberOf(piece).value >= |Months| ==> m == Undefined
  {
    var n := NumberOf(piece);
    if n.Some? && n.value < |Months| then Months[n.value] else Undefined
  }

  /** A piece that may be missing, as concatenation prints it. */
  function Shown(piece: Option<string>): string {
    match piece
    case Some(s) => s
    case None => Undefined
  }

  /** The `k`-th piece of a split, if there is one. */
  function Piece(parts: seq<string>, k: nat): (r: Option<string>)
    ensures r.Some? <==> k < |parts|
    ensures r.Some? ==> r.value == parts[k]
  {
    if k < |parts| then Some(parts[k]) else None
  }

  /** `slotDateFormat`: split the stored date on '_' and print the first
      piece, the month abbreviation of the second and the third, separated
      by spaces. Missing pieces print as "undefined"; pieces past the third
      are ignored. */
  function SlotDateFormat(slotDate: string): (r: string) {
    var parts := Split(slotDate, '_');
    parts[0] + " " + MonthLabel(Piece(parts, 1)) + " " + Shown(Piece(parts, 2))
  }

  /** The slot date a booking stores: day, month number and year joined by '_'. */
  function SlotDate(day: string, month: nat, year: string): string {
    day + "_" + NatToString(month) + "_" + year
  }

  /** A trimmed digit string is its own trim, so `Number` reads its value. */
  lemma NumberOfNumeral(n: nat)
    ensures NumberOf(Some(NatToString(n))) == Some(n)
  {
    var s := NatToString(n);
    assert !IsWhitespace(s[0]) && !IsWhitespace(s[|s| - 1]);
    TrimOfTrimmed(s);
    ParseNatToString(n);
  }

  /** Formatting a stored slot date whose day and year contain no '_' shows
      the day, the month's abbreviation and the year. */
  lemma SlotDateFormatOf(day: string, month: nat, year: string)
    requires '_' !in day && '_' !in year
    requires 1 <= month <= 12
    ensures SlotDateFormat(SlotDate(day, month, year)) == day + " " + Months[month] + " " + year
  {
    var m := NatToString(month);
    assert '_' !in m by {
      forall i | 0 <= i < |m| ensures m[i] != '_' {
        assert IsDigit(m[i]);
      }
    }
    var parts := [day, m, year];
    assert Join(parts, "_") == SlotDate(day, month, year) by {
      JoinCons(m, [year], "_");
      assert parts == [day] + [m, year];
      JoinCons(day, [m, year], "_");
    }
    assert forall k :: 0 <= k < |parts| ==> '_' !in parts[k];
    SplitJoin(parts, '_');
    assert ['_'] == "_";
    NumberOfNumeral(month);
  }

  /** Different months of the same day and year show differently. */
  lemma SlotDateFormatDistinguishesMonths(day: string, m1: nat, m2: nat, year: string)
    requires '_' !in day && '_' !in year
    requires 1 <= m1 <= 12 && 1 <= m2 <= 12 && m1 != m2
    ensures SlotDateFormat(SlotDate(day, m1, year)) != SlotDateFormat(SlotDate(day, m2, year))
  {
    SlotDateFormatOf(day, m1, year);
    SlotDateFormatOf(day, m2, year);
    MonthNames(m1, m2);
    MiddleOf(day, Months[m1], year);
    MiddleOf(day, Months[m2], year);
  }

  /** The middle piece of a space-separated triple sits at a fixed place. */
  lemma MiddleOf(day: string, month: string, year: string)
    ensures var s := day + " " + month + " " + year;
      |day| + 1 + |month| <= |s| && s[|day| + 1..|day| + 1 + |month|] == month
  {
    var s := day + " " + month + " " + year;
    assert s == (day + " ") + month + (" " + year);
  }

  /** A stored date without separators shows itself followed by two missing
      pieces. */
  lemma SlotDateFormatNoSeparator(slotDate: string)
    requires '_' !in slotDate
    ensures SlotDateFormat(slotDate) == slotDate + " " + Undefined + " " + Undefined
  {
    var parts := Split(slotDate, '_');
    assert parts == [slotDate] by { assert IndexOf(slotDate, '_').None?; }
    assert Piece(parts, 1).None? && Piece(parts, 2).None?;
  }

  // ---------------------------------------------------------------------------
  // the list
  // ---------------------------------------------------------------------------

  /** The fetched appointments are shown newest-first: reversed. */
  function Displayed(fetched: seq<Appointment>): (shown: seq<Appointment>)
    ensures |shown| == |fetched|
    ensures forall i :: 0 <= i < |fetched| ==> shown[i] == fetched[|fetched| - 1 - i]
  {
    Reverse(fetched)
  }

  /** Every fetched appointment is shown once, and nothing else. */
  lemma {:induction false} DisplayedSameAppointments(fetched: seq<Appointment>)
    ensures multiset(Displayed(fetched)) == multiset(fetched)
    decreases |fetched|
  {
    var shown := Displayed(fetched);
    if |fetched| > 0 {
      var last := |fetched| - 1;
      assert Displayed(fetched[..last]) == shown[1..];
      DisplayedSameAppointments(fetched[..last]);
      assert fetched == fetched[..last] + [fetched[last]];
      assert shown == [fetched[last]] + shown[1..];
    }
  }

  // ---------------------------------------------------------------------------
  // status badge and buttons
  // ---------------------------------------------------------------------------

  /** What an appointment row can show, in render order. */
  datatype Control = Paid | PayOnline | CancelAppointment | AppointmentCancelled | Completed | AddPrescription

  /** The four status badges; the other two are actions. */
  predicate IsBadge(c: Control) {
    c == Paid || c == PayOnline || c == AppointmentCancelled || c == Completed
  }

  /** The controls rendered for one appointment: each condition as written,
      in render order. */
  function Controls(a: Appointment): (cs: seq<Control>)
    ensures 1 <= |cs| <= 2 && cs[0] == Status(a)
    ensures |cs| == 2 <==> !(a.cancelled && !a.isCompleted)
    ensures |cs| == 2 ==> cs[1] == (if a.isCompleted then AddPrescription else CancelAppointment)
  {
    (if !a.cancelled && a.payment && !a.isCompleted then [Paid] else [])
    + (if !a.cancelled && !a.payment && !a.isCompleted then [PayOnline] else [])
    + (if !a.cancelled && !a.isCompleted then [CancelAppointment] else [])
    + (if a.cancelled && !a.isCompleted then [AppointmentCancelled] else [])
    + (if a.isCompleted then [Completed, AddPrescription] else [])
  }

  /** The status an appointment is in, decided completed-first. */
  function Status(a: Appointment): (c: Control)
    ensures IsBadge(c)
    ensures c == Completed <==> a.isCompleted
    ensures c == AppointmentCancelled <==> a.cancelled && !a.isCompleted
    ensures c == Paid <==> !a.cancelled && !a.isCompleted && a.payment
    ensures c == PayOnline <==> !a.cancelled && !a.isCompleted && !a.payment
  {
    if a.isCompleted then Completed
    else if a.cancelled then AppointmentCancelled
    else if a.payment then Paid
    else PayOnline
  }

  /** Exactly one badge is shown, and it is the appointment's status. */
  lemma ExactlyOneBadge(a: Appointment, c: Control)
    requires IsBadge(c)
    ensures c in Controls(a) <==> c == Status(a)
  {
  }

  /** The controls never repeat. */
  lemma ControlsDistinct(a: Appointment)
    ensures forall i, j :: 0 <= i < j < |Controls(a)| ==> Controls(a)[i] != Controls(a)[j]
  {
  }

  /** Cancelling is offered exactly while payment is the open question:
      neither cancelled nor completed, i.e. when Paid or Pay Online shows. */
  lemma CancelOffered(a: Appointment)
    ensures CancelAppointment in Controls(a) <==> !a.cancelled && !a.isCompleted
    ensures CancelAppointment in Controls(a) <==> Paid in Controls(a) || PayOnline in Controls(a)
  {
  }

  /** A completed appointment shows Completed even when it is also cancelled,
      and only completed appointments offer a prescription. */
  lemma CompletedWins(a: Appointment)
    ensures a.cancelled && a.isCompleted ==> Completed in Controls(a) && AppointmentCancelled !in Controls(a)
    ensures AddPrescription in Controls(a) <==> a.isCompleted
  {
  }

  // ---------------------------------------------------------------------------
  // prescription dialog
  // ---------------------------------------------------------------------------

  /** `showPrescriptionForm` and `selectedAppointment`. */
  datatype Dialog = Dialog(show: bool, selected: Option<Appointment>)

  const Closed := Dialog(false, None)

  /** The dialog is on screen only when both flags say so. */
  predicate Visible(d: Dialog) {
    d.show && d.selected.Some?
  }

  /** Pressing Add Prescription on an appointment: select it and show the
      form. The button exists only on completed appointments, so the press
      changes nothing on any other. */
  function OpenDialog(d: Dialog, a: Appointment): (r: Dialog)
    ensures a.isCompleted ==> Visible(r) && r.selected == Some(a)
    ensures !a.isCompleted ==> r == d
  {
    if AddPrescription in Controls(a) then Dialog(true, Some(a)) else d
  }

  /** The close button: hide the form and forget the appointment. */
  function CloseDialog(d: Dialog): (r: Dialog)
    ensures !Visible(r) && r.selected.None?
  {
    Closed
  }

  /** The form shown is for the patient and appointment that were picked. */
  lemma OpenThenClose(d: Dialog, a: Appointment)
    requires a.isCompleted
    ensures Visible(OpenDialog(d, a)) && OpenDialog(d, a).selected.value.id == a.id
    ensures CloseDialog(OpenDialog(d, a)) == Closed
  {
  }
}

=== FILE: pdf_generator.dfy ===
/** The prescription PDF generator: the output path, the split of the text
    into a medication list and other text, the bullet list, the conditional
    header lines, and the sequence of text items drawn on the page. The
    drawing calls, fonts and layout are not modelled; the document is the list
    of strings drawn, in order. */
module PdfGenerator {
  import opened Wrappers
  import opened JsString
  import opened JsArray

  const MedicationsLabel: string := "Medications:"

  /** The generator's input (`data`); the date is passed separately as the
      already formatted `toLocaleDateString()` text. */
  datatype PdfData = PdfData(
    doctorName: string,
    doctorSpeciality: string,
    patientName: string,
    patientAge: string,
    treatment: string,
    prescriptionText: string)

  /** Why generation fails: `__dirname` is not defined where the uploads
      directory is computed, or the output stream reported an error. */
  datatype PdfError = DirnameUndefined | StreamError

  /** A generated file: the path the promise resolves with and the text items
      drawn on its page. */
  datatype Generated = Generated(path: string, page: seq<string>)

  /** `__dirname` as the generator's module sees it. The backend is written
      as ES modules (it uses `import`/`export`, and its server builds its own
      `__dirname` from `import.meta.url`), where `__dirname` is not defined. */
  const ModuleDirname: Option<string> := None

  // ---------------------------------------------------------------------------
  // output path
  // ---------------------------------------------------------------------------

  const PathPrefix: string := "/uploads/prescription_"
  const PathSuffix: string := ".pdf"

  /** The path the promise resolves with: "/uploads/prescription_<ms>.pdf". */
  function OutputPath(timestamp: nat): (r: string)
    ensures |r| > |PathPrefix| + |PathSuffix|
    ensures r[..|PathPrefix|] == PathPrefix && r[|r| - |PathSuffix|..] == PathSuffix
    ensures '/' !in r[|PathPrefix|..]
  {
    PathPrefix + NatToString(timestamp) + PathSuffix
  }

  /** The path determines the timestamp: the digits between the fixed prefix
      and suffix are its numeral. */
  lemma OutputPathTimestamp(timestamp: nat)
    ensures var p := OutputPath(timestamp);
      |p| > |PathPrefix| + |PathSuffix|
      && AllDigits(p[|PathPrefix|..|p| - |PathSuffix|])
      && ParseDigits(p[|PathPrefix|..|p| - |PathSuffix|]) == timestamp
  {
    var p := OutputPath(timestamp);
    assert p[|PathPrefix|..|p| - |PathSuffix|] == NatToString(timestamp);
    ParseNatToString(timestamp);
  }

  /** Distinct timestamps give distinct files. */
  lemma OutputPathInjective(t1: nat, t2: nat)
    requires OutputPath(t1) == OutputPath(t2)
    ensures t1 == t2
  {
    OutputPathTimestamp(t1);
    OutputPathTimestamp(t2);
  }

  /** The promise. Computing the uploads directory reads `__dirname`; when
      that is not defined the call throws inside the guarded block and the
      promise rejects before any stream exists. Otherwise the page is drawn
      and the promise resolves with the path once the stream finishes, or
      rejects when the stream reports an error. */
  function Generate(data: PdfData, dateLabel: string, dirname: Option<string>, timestamp: nat,
                    streamOk: bool): (r: Result<Generated, PdfError>)
    ensures dirname.None? ==> r == Failure(DirnameUndefined)
    ensures dirname.Some? && !streamOk ==> r == Failure(StreamError)
    ensures r.Success? <==> dirname.Some? && streamOk
    ensures r.Success? ==> r.value.path == OutputPath(timestamp)
    ensures r.Success? ==> r.value.page == Render(data, dateLabel)
  {
    if dirname.None? then Failure(DirnameUndefined)
    else if !streamOk then Failure(StreamError)
    else Success(Generated(OutputPath(timestamp), Render(data, dateLabel)))
  }

  /** As the backend runs, every call rejects: whatever the data, the time
      and the stream would do, no file is produced. */
  lemma GenerateInModuleRejects(data: PdfData, dateLabel: string, timestamp: nat, streamOk: bool)
    ensures Generate(data, dateLabel, ModuleDirname, timestamp, streamOk).Failure?
    ensures Generate(data, dateLabel, ModuleDirname, timestamp, streamOk).error == DirnameUndefined
  {
  }

  /** With a defined directory (as `import.meta.url` would give), the promise
      resolves exactly when the stream finishes; the file it names is fixed by
      the timestamp alone, different timestamps name different files, and the
      page opens with the doctor's name and closes with the signature block. */
  lemma GenerateWithDirname(data: PdfData, dateLabel: string, dir: string, t1: nat, t2: nat)
    ensures Generate(data, dateLabel, Some(dir), t1, true).Success?
    ensures Generate(data, dateLabel, Some(dir), t1, false) == Failure(StreamError)
    ensures t1 != t2 ==>
      Generate(data, dateLabel, Some(dir), t1, true).value.path
        != Generate(data, dateLabel, Some(dir), t2, true).value.path
    ensures var page := Generate(data, dateLabel, Some(dir), t1, true).value.page;
      page[0] == "Prescription from Dr. " + data.doctorName
      && page[|page| - 1] == data.doctorName
  {
    if t1 != t2 && OutputPath(t1) == OutputPath(t2) {
      OutputPathInjective(t1, t2);
    }
    var page := Render(data, dateLabel);
    assert page[|page| - 3..][2] == page[|page| - 1];
  }

  // ---------------------------------------------------------------------------
  // medication partition
  // ---------------------------------------------------------------------------

  /** A line whose trim is non-empty (`line.trim()` is truthy). */
  predicate IsNonBlank(line: string) {
    Trim(line) != ""
  }

  /** A line holding the label is never blank. */
  lemma LabelLineNonBlank(line: string)
    requires Contains(line, MedicationsLabel)
    ensures IsNonBlank(line)
  {
    ContainsHasChar(line, MedicationsLabel, 0);
    var i :| 0 <= i < |line| && line[i] == 'M';
    TrimNonEmpty(line, i);
  }

  /** The index of the first line holding `sub`, if any. */
  function FirstContaining(lines: seq<string>, sub: string): (r: Option<nat>)
    ensures r.None? <==> forall i :: 0 <= i < |lines| ==> !Contains(lines[i], sub)
    ensures r.Some? ==>
              (r.value < |lines| && Contains(lines[r.value], sub)
               && forall i :: 0 <= i < r.value ==> !Contains(lines[i], sub))
    decreases |lines|
  {
    if |lines| == 0 then None
    else if Contains(lines[0], sub) then Some(0)
    else match FirstContaining(lines[1..], sub)
      case None => None
      case Some(k) => Some(k + 1)
  }

  /** A line holding `sub` with none before it is the first such line. */
  lemma FirstContainingIs(lines: seq<string>, sub: string, k: nat)
    requires k < |lines| && Contains(lines[k], sub)
    requires forall i :: 0 <= i < k ==> !Contains(lines[i], sub)
    ensures FirstContaining(lines, sub) == Some(k)
  {
  }

  /** The medication list, stated directly: nothing when no line holds the
      label; otherwise every non-blank line from the first labelled line on
      (labelled lines are non-blank, and blank lines do not end the section). */
  function MedicationLines(lines: seq<string>): seq<string> {
    match FirstContaining(lines, MedicationsLabel)
    case None => []
    case Some(f) => Filter(lines[f..], IsNonBlank)
  }

  /** The generator's loop over the lines: a labelled line opens the section
      and is kept; inside the section every non-blank line is kept. */
  function ScanMedications(lines: seq<string>, inSection: bool): (meds: seq<string>)
    ensures inSection ==> meds == Filter(lines, IsNonBlank)
    ensures !inSection ==> meds == MedicationLines(lines)
    decreases |lines|
  {
    if |lines| == 0 then []
    else if Contains(lines[0], MedicationsLabel) then
      LabelLineNonBlank(lines[0]);
      assert lines[0..] == lines;
      [lines[0]] + ScanMedications(lines[1..], true)
    else if inSection && Trim(lines[0]) != "" then [lines[0]] + ScanMedications(lines[1..], true)
    else
      var rest := ScanMedications(lines[1..], inSection);
      assert !inSection ==> match FirstContaining(lines, MedicationsLabel)
        case None => true
        case Some(f) => f > 0 && lines[f..] == lines[1..][f - 1..];
      rest
  }

  /** The lines left for the "other text": those equal to no medication entry. */
  function OtherLines(lines: seq<string>, meds: seq<string>): seq<string> {
    Filter(lines, (l: string) => l !in meds)
  }

  /** The outcome of the split: the medication entries and the other text. */
  datatype Partition = Partition(medications: seq<string>, otherText: string)

  /** The split of the prescription text. Without the label anywhere, there
      are no medications and the other text is the whole input, untouched. */
  function PartitionMedications(text: string): (r: Partition)
    ensures !Contains(text, MedicationsLabel) ==> r == Partition([], text)
    ensures Contains(text, MedicationsLabel) ==>
      r.medications == MedicationLines(Split(text, '\n'))
      && r.otherText == Join(OtherLines(Split(text, '\n'), r.medications), "\n")
  {
    if !Contains(text, MedicationsLabel) then Partition([], text)
    else
      var lines := Split(text, '\n');
      var meds := ScanMedications(lines, false);
      Partition(meds, Join(OtherLines(lines, meds), "\n"))
  }

  /** When the text holds the label, the list is non-empty and starts with the
      first labelled line. */
  lemma PartitionStartsWithLabelLine(text: string)
    requires Contains(text, MedicationsLabel)
    ensures var lines := Split(text, '\n');
      var r := PartitionMedications(text);
      FirstContaining(lines, MedicationsLabel).Some?
      && |r.medications| > 0
      && r.medications[0] == lines[FirstContaining(lines, MedicationsLabel).value]
  {
    var lines := Split(text, '\n');
    SplitPartContains(text, '\n', MedicationsLabel);
    var f := FirstContaining(lines, MedicationsLabel).value;
    LabelLineNonBlank(lines[f]);
  }

  /** Every line lands on exactly one side, by value: it equals a medication
      entry or it is kept in the other text, never both. */
  lemma OtherLinesExclusive(lines: seq<string>, meds: seq<string>)
    ensures forall l :: l in lines ==> (l in meds <==> l !in OtherLines(lines, meds))
  {
    var others := OtherLines(lines, meds);
    forall l | l in lines
      ensures l in meds <==> l !in others
    {
      var i :| 0 <= i < |lines| && lines[i] == l;
      if l !in meds {
        assert lines[i] in others;
      }
    }
  }

  /** Every medication entry is a line of the input, taken from the first
      labelled line on. */
  lemma MedicationLinesFromInput(lines: seq<string>)
    ensures forall m :: m in MedicationLines(lines) ==> m in lines
  {
    match FirstContaining(lines, MedicationsLabel)
    case None =>
    case Some(f) =>
      forall m | m in MedicationLines(lines)
        ensures m in lines
      {
        var meds := MedicationLines(lines);
        var j :| 0 <= j < |meds| && meds[j] == m;
        assert m in lines[f..];
      }
  }

  /** The split of a text holding the label is a partition of its lines. */
  lemma PartitionExclusive(text: string)
    requires Contains(text, MedicationsLabel)
    ensures var lines := Split(text, '\n');
      var r := PartitionMedications(text);
      && (forall l :: l in lines ==> (l in r.medications <==> l !in OtherLines(lines, r.medications)))
      && (forall m :: m in r.medications ==> m in lines)
  {
    var lines := Split(text, '\n');
    OtherLinesExclusive(lines, PartitionMedications(text).medications);
    MedicationLinesFromInput(lines);
  }

  // ---------------------------------------------------------------------------
  // bullets, header, page
  // ---------------------------------------------------------------------------

  /** `line.split(':')[1].trim()` on a line holding a label `key` ending in ':'
      (so the line has at least two ':'-pieces): the text between the first and
      second ':' of the line, trimmed. */
  function LabelValue(line: string, key: string): (v: string)
    requires |key| > 0 && key[|key| - 1] == ':' && Contains(line, key)
    ensures IsTrimmed(v)
  {
    ContainsHasChar(line, key, |key| - 1);
    SplitHasTwoPieces(line, ':');
    Trim(Split(line, ':')[1])
  }

  /** The value after a label, when the line is exactly "<prefix><key> <value>"
      with no other ':' and an already trimmed value. */
  lemma LabelValueOfLine(prefix: string, key: string, value: string)
    requires |key| > 0 && key[|key| - 1] == ':' && ':' !in key[..|key| - 1]
    requires ':' !in prefix && ':' !in value && IsTrimmed(value)
    ensures Contains(prefix + key + " " + value, key)
    ensures LabelValue(prefix + key + " " + value, key) == value
  {
    LabelLineContains(prefix, key, value);
    LabelLinePiece(prefix, key, value);
    SpaceThenTrimmed(value);
  }

  /** A line made of a prefix, a key, a space and a value holds the key. */
  lemma LabelLineContains(prefix: string, key: string, value: string)
    ensures Contains(prefix + key + " " + value, key)
  {
    var rest := " " + value;
    ContainsPrefix(key, rest);
    ContainsAfter(prefix, key + rest, key);
    assert prefix + (key + rest) == prefix + key + " " + value;
  }

  /** With the key's final ':' the only one in the line, the second
      ':'-piece is everything after the key. */
  lemma LabelLinePiece(prefix: string, key: string, value: string)
    requires |key| > 0 && key[|key| - 1] == ':' && ':' !in key[..|key| - 1]
    requires ':' !in prefix && ':' !in value
    ensures |Split(prefix + key + " " + value, ':')| >= 2
    ensures Split(prefix + key + " " + value, ':')[1] == " " + value
  {
    var head := prefix + key[..|key| - 1];
    var rest := " " + value;
    assert ':' !in rest by {
      assert forall i :: 1 <= i < |rest| ==> rest[i] == value[i - 1];
    }
    assert prefix + key + " " + value == head + [':'] + rest;
    SplitOnce(head, rest, ':');
  }

  /** The bullet of the first entry: for a labelled line, the text between its
      first and second ':' trimmed, left out when empty; otherwise the trimmed line. */
  function FirstBullet(med: string): (bs: seq<string>)
    ensures Contains(med, MedicationsLabel) ==>
      var v := LabelValue(med, MedicationsLabel);
      (v == "" ==> bs == []) && (v != "" ==> bs == [v])
    ensures !Contains(med, MedicationsLabel) ==> bs == [Trim(med)]
    ensures |bs| <= 1 && forall i :: 0 <= i < |bs| ==> IsTrimmed(bs[i])
  {
    if Contains(med, MedicationsLabel) then
      var v := LabelValue(med, MedicationsLabel);
      if v != "" then [v] else []
    else [Trim(med)]
  }

  /** `bs` lays out the bullets of `meds` position by position: the first
      entry's bullet when it has one, then every later entry trimmed, in
      order; when the first entry has no bullet everything moves up one. */
  predicate LaidOut(meds: seq<string>, bs: seq<string>) {
    if |meds| == 0 then bs == []
    else
      var first := FirstBullet(meds[0]);
      && |bs| == |meds| - 1 + |first|
      && bs[..|first|] == first
      && forall k :: 1 <= k < |meds| ==> bs[k - 1 + |first|] == Trim(meds[k])
  }

  /** The bullet list. */
  function Bullets(meds: seq<string>): (bs: seq<string>)
    ensures LaidOut(meds, bs)
  {
    if |meds| == 0 then []
    else
      PrefixPositions(FirstBullet(meds[0]), meds);
      FirstBullet(meds[0]) + TrimEach(meds[1..])
  }

  /** Where each entry after the first lands once at most one item is put
      in front of the trimmed rest. */
  lemma PrefixPositions(first: seq<string>, meds: seq<string>)
    requires |meds| > 0 && |first| <= 1
    ensures var bs := first + TrimEach(meds[1..]);
      && |bs| == |meds| - 1 + |first|
      && bs[..|first|] == first
      && forall k :: 1 <= k < |meds| ==> bs[k - 1 + |first|] == Trim(meds[k])
  {
    var bs := first + TrimEach(meds[1..]);
    assert bs[..|first|] == first;
    forall k | 1 <= k < |meds|
      ensures bs[k - 1 + |first|] == Trim(meds[k])
    {
      assert meds[1..][k - 1] == meds[k];
    }
  }

  /** The patient block: the name always, then "Age: …" and "Treatment: …"
      only for non-empty values. */
  function HeaderLines(patientName: string, age: string, treatment: string): (r: seq<string>)
    ensures |r| == 1 + (if age != "" then 1 else 0) + (if treatment != "" then 1 else 0)
    ensures r[0] == "Patient: " + patientName
    ensures age != "" ==> r[1] == "Age: " + age
    ensures treatment != "" ==> r[|r| - 1] == "Treatment: " + treatment
  {
    ["Patient: " + patientName]
    + (if age != "" then ["Age: " + age] else [])
    + (if treatment != "" then ["Treatment: " + treatment] else [])
  }

  const Bullet: string := "\U{2022} "

  /** The medications block: the heading and one bulleted item per bullet,
      drawn only for a non-empty medication list. */
  function MedicationBlock(meds: seq<string>): (block: seq<string>)
    ensures block == [] <==> meds == []
    ensures block != [] ==> block[0] == MedicationsLabel && |block| == 1 + |Bullets(meds)|
    ensures block != [] ==> forall i :: 0 <= i < |Bullets(meds)| ==> block[i + 1] == Bullet + Bullets(meds)[i]
  {
    if |meds| == 0 then []
    else
      var bullets := Bullets(meds);
      [MedicationsLabel] + seq(|bullets|, i requires 0 <= i < |bullets| => Bullet + bullets[i])
  }

  /** The other-text block: the trimmed remainder, drawn only when non-blank. */
  function OtherBlock(otherText: string): (block: seq<string>)
    ensures block == [] <==> AllWhitespace(otherText)
    ensures block != [] ==> block == [Trim(otherText)]
  {
    TrimEmptyIff(otherText);
    if Trim(otherText) != "" then [Trim(otherText)] else []
  }

  /** The text items drawn on the page, top to bottom. */
  function Render(data: PdfData, dateLabel: string): (page: seq<string>)
    ensures |page| >= 7
    ensures page[..3] == ["Prescription from Dr. " + data.doctorName, dateLabel, data.doctorSpeciality]
    ensures page[|page| - 3..] == ["Date: " + dateLabel, "Doctor's Signature:", data.doctorName]
  {
    var part := PartitionMedications(data.prescriptionText);
    ["Prescription from Dr. " + data.doctorName, dateLabel, data.doctorSpeciality]
    + HeaderLines(data.patientName, data.patientAge, data.treatment)
    + MedicationBlock(part.medications)
    + OtherBlock(part.otherText)
    + ["Date: " + dateLabel, "Doctor's Signature:", data.doctorName]
  }

  /** The bullets of a list that starts with a labelled line, as the list
      of a text holding the label does: that line's value gives the first
      bullet, left out when empty; there is one bullet per entry otherwise. */
  lemma BulletsOfLabelledFirst(meds: seq<string>)
    requires |meds| > 0 && Contains(meds[0], MedicationsLabel)
    ensures var v := LabelValue(meds[0], MedicationsLabel);
      && (v != "" ==> |Bullets(meds)| == |meds| && Bullets(meds)[0] == v)
      && (v == "" ==> |Bullets(meds)| == |meds| - 1)
  {
    var fb := FirstBullet(meds[0]);
    assert |Bullets(meds)| == |meds| - 1 + |fb|;
    assert Bullets(meds)[..|fb|] == fb;
  }

  /** Under the heading, a list that starts with a labelled line with a
      value shows that value as its first bulleted item, and every later
      entry as its trimmed line. */
  lemma MedicationBlockOfLabelledFirst(meds: seq<string>)
    requires |meds| > 0 && Contains(meds[0], MedicationsLabel)
    requires LabelValue(meds[0], MedicationsLabel) != ""
    ensures |MedicationBlock(meds)| == 1 + |meds|
    ensures MedicationBlock(meds)[1] == Bullet + LabelValue(meds[0], MedicationsLabel)
    ensures forall k :: 1 <= k < |meds| ==> MedicationBlock(meds)[k + 1] == Bullet + Trim(meds[k])
  {
    var v := LabelValue(meds[0], MedicationsLabel);
    assert FirstBullet(meds[0]) == [v];
    BlockPositions(meds);
  }

  /** When the first entry gives one bullet, the block holds one item per
      entry: the heading, that bullet, then every later entry trimmed. */
  lemma BlockPositions(meds: seq<string>)
    requires |meds| > 0 && |FirstBullet(meds[0])| == 1
    ensures |MedicationBlock(meds)| == 1 + |meds|
    ensures MedicationBlock(meds)[1] == Bullet + FirstBullet(meds[0])[0]
    ensures forall k :: 1 <= k < |meds| ==> MedicationBlock(meds)[k + 1] == Bullet + Trim(meds[k])
  {
    var bs := Bullets(meds);
    var block := MedicationBlock(meds);
    assert LaidOut(meds, bs);
    assert bs[..1] == FirstBullet(meds[0]);
    forall k | 1 <= k < |meds|
      ensures block[k + 1] == Bullet + Trim(meds[k])
    {
      assert bs[k] == Trim(meds[k]);
    }
  }

  /** The medications block is drawn exactly when the text holds the label. */
  lemma MedicationBlockIffLabel(text: string)
    ensures MedicationBlock(PartitionMedications(text).medications) != [] <==> Contains(text, MedicationsLabel)
  {
    if Contains(text, MedicationsLabel) {
      PartitionStartsWithLabelLine(text);
    }
  }
}

=== FILE: pipeline.dfy ===
/** The two forms and the add handler composed: what a submitted form is
    stored as, and what the handler reads back from the text the forms
    write. */
module Pipeline {
  import opened Wrappers
  import opened JsString
  import opened Records
  import opened Upload
  import opened PrescriptionController
  import PdfGenerator
  import PrescriptionText
  import AdminForm
  import FrontendForm

  // ---------------------------------------------------------------------------
  // reading back the Age and Treatment lines
  // ---------------------------------------------------------------------------

  /** The medication value a form writes is plain when every entry is. */
  lemma JoinedPlain(meds: seq<string>)
    requires forall i :: 0 <= i < |meds| ==> PrescriptionText.Plain(meds[i])
    ensures PrescriptionText.Plain(Join(meds, ", "))
  {
    JoinWithout(meds, ", ", ':');
    JoinWithout(meds, ", ", '\n');
  }

  /** The staff form's text gives back its age and treatment, when those are
      trimmed and every value it writes holds neither ':' nor a line break. */
  lemma AdminTextReadBack(s: AdminForm.FormState)
    requires PrescriptionText.Plain(s.firstName) && PrescriptionText.Plain(s.lastName)
    requires PrescriptionText.Plain(s.age) && PrescriptionText.Plain(s.treatment)
    requires PrescriptionText.Plain(s.dateSigned)
    requires var meds := AdminForm.AllMedications(s);
      forall i :: 0 <= i < |meds| ==> PrescriptionText.Plain(meds[i])
    requires IsTrimmed(s.age) && IsTrimmed(s.treatment)
    ensures ExtractFields(AdminForm.SubmittedText(s)) == Extracted(s.age, s.treatment)
  {
    var m := AdminForm.MedicationsText(AdminForm.AllMedications(s));
    MedicationsTextPlain(AdminForm.AllMedications(s));
    assert AdminForm.SubmittedText(s) == PrescriptionText.Compose("", s.firstName, s.lastName, s.age, s.treatment, m, s.dateSigned);
    PrescriptionText.ExtractCompose("", s.firstName, s.lastName, s.age, s.treatment, m, s.dateSigned);
  }

  /** The staff form's medication value is plain when every entry is. */
  lemma MedicationsTextPlain(meds: seq<string>)
    requires forall i :: 0 <= i < |meds| ==> PrescriptionText.Plain(meds[i])
    ensures PrescriptionText.Plain(AdminForm.MedicationsText(meds))
  {
    if |meds| > 0 {
      JoinedPlain(meds);
    }
  }

  /** The same for the patient form's indented text. */
  lemma FrontendTextReadBack(s: FrontendForm.FormState)
    requires PrescriptionText.Plain(s.firstName) && PrescriptionText.Plain(s.lastName)
    requires PrescriptionText.Plain(s.age) && PrescriptionText.Plain(s.treatment)
    requires PrescriptionText.Plain(s.dateSigned)
    requires forall i :: 0 <= i < |s.medications| ==> PrescriptionText.Plain(s.medications[i])
    requires IsTrimmed(s.age) && IsTrimmed(s.treatment)
    ensures ExtractFields(FrontendForm.SubmittedText(s)) == Extracted(s.age, s.treatment)
  {
    JoinedPlain(s.medications);
    PrescriptionText.ExtractCompose(PrescriptionText.FrontendIndent, s.firstName, s.lastName, s.age,
                                    s.treatment, Join(s.medications, ", "), s.dateSigned);
  }

  // ---------------------------------------------------------------------------
  // what a submission is stored as
  // ---------------------------------------------------------------------------

  /** The appointment exists, belongs to this doctor, and every id and
      profile the document needs is there. */
  predicate Saveable(st: Store, id: string, env: Env) {
    && id in st.appointments && st.appointments[id].docId == env.docId
    && id != "" && env.docId != "" && st.appointments[id].userId != ""
    && env.docId in env.doctors && st.appointments[id].userId in env.users
  }

  /** The text entries of a form whose three entries are all text. */
  lemma ThreeTextFields(n0: string, v0: string, n1: string, v1: string, n2: string, v2: string)
    ensures var form := [(n0, TextValue(v0)), (n1, TextValue(v1)), (n2, TextValue(v2))];
      && FileEntries(form) == []
      && TextFields(form) == [(n0, v0), (n1, v1), (n2, v2)]
  {
    var form := [(n0, TextValue(v0)), (n1, TextValue(v1)), (n2, TextValue(v2))];
    assert form[1..][1..] == form[2..];
    assert TextFields(form[2..]) == [(n2, v2)];
    assert FileEntries(form[2..]) == [];
  }

  /** The text entries of a form whose two entries are both text. */
  lemma TwoTextFields(n0: string, v0: string, n1: string, v1: string)
    ensures var form := [(n0, TextValue(v0)), (n1, TextValue(v1))];
      && FileEntries(form) == []
      && TextFields(form) == [(n0, v0), (n1, v1)]
  {
    var form := [(n0, TextValue(v0)), (n1, TextValue(v1))];
    assert TextFields(form[1..]) == [(n1, v1)];
    assert FileEntries(form[1..]) == [];
  }

  /** The composed text always starts with a line break, so it is never empty. */
  lemma ComposedNonEmpty(indent: string, first: string, last: string, age: string,
                         treatment: string, medications: string, date: string)
    ensures PrescriptionText.Compose(indent, first, last, age, treatment, medications, date) != ""
  {
    assert PrescriptionText.Compose(indent, first, last, age, treatment, medications, date)[0] == '\n';
  }

  /** A request that reaches the handler with an appointment id, non-empty
      text, no file, and either type "text" or no type at all: it is saved
      with that text; a PDF typed "both" is stored exactly when the type was
      "text" and generation worked, otherwise it is text with no file. */
  lemma TextRequestStored(st: Store, req: IncomingRequest, id: string, text: string, env: Env)
    requires Saveable(st, id, env) && req.file.None? && text != ""
    requires Field(req.fields, AppointmentIdField) == Some(id)
    requires Field(req.fields, TextField) == Some(text)
    requires Field(req.fields, TypeField) == Some("text") || Field(req.fields, TypeField).None?
    ensures var r := AddPrescription(st, req, env);
      && r.0 == Added
      && var p := r.1.prescriptions[|st.prescriptions|];
      && p.prescriptionText == text
      && var pdf := Field(req.fields, TypeField) == Some("text") && PdfWorks(env);
      && (pdf ==> p.prescriptionType == Both && p.prescriptionFile == PdfGenerator.OutputPath(env.pdfTimestamp))
      && (!pdf ==> p.prescriptionType == Text && p.prescriptionFile == "")
  {
    AddedIff(st, req, env);
    SavedFileAndType(st, req, env);
  }

  /** The staff form's request without an attachment, as the handler sees it. */
  lemma AdminTextOnlyRequest(s: AdminForm.FormState, id: string, t: nat)
    requires AdminForm.Complete(s) && s.file.None?
    ensures var sub := AdminForm.Submit(s, id);
      && sub.Sent?
      && ReceiveSingle(sub.form, t)
         == Success(IncomingRequest([(AppointmentIdField, id), (TypeField, "text"),
                                     (TextField, AdminForm.SubmittedText(s))], None))
  {
    var text := AdminForm.SubmittedText(s);
    assert AdminForm.Submit(s, id).form
           == [("appointmentId", TextValue(id)), ("prescriptionType", TextValue("text")),
               ("prescriptionText", TextValue(text))];
    ThreeTextFields("appointmentId", id, "prescriptionType", "text", "prescriptionText", text);
  }

  /** The patient form's request without a file, as the handler sees it. */
  lemma FrontendTextOnlyRequest(s: FrontendForm.FormState, id: string, t: nat)
    requires FrontendForm.Complete(s) && s.file.None?
    ensures var sub := FrontendForm.Submit(s, id);
      && sub.Some?
      && ReceiveSingle(sub.value, t)
         == Success(IncomingRequest([(AppointmentIdField, id), (TextField, FrontendForm.SubmittedText(s))], None))
  {
    var text := FrontendForm.SubmittedText(s);
    assert FrontendForm.Submit(s, id).value
           == [("appointmentId", TextValue(id)), ("prescriptionText", TextValue(text))];
    TwoTextFields("appointmentId", id, "prescriptionText", text);
  }

  /** A staff submission without an attachment is typed "text". The handler
      would turn it into a generated PDF typed "both" if generation worked;
      when generation fails it is stored as text with no file. */
  lemma AdminTextOnlyStored(st: Store, s: AdminForm.FormState, id: string, env: Env, t: nat)
    requires AdminForm.Complete(s) && s.file.None?
    requires Saveable(st, id, env)
    ensures var sub := AdminForm.Submit(s, id);
      && sub.Sent?
      && ReceiveSingle(sub.form, t).Success?
      && var r := AddPrescription(st, ReceiveSingle(sub.form, t).value, env);
      && r.0 == Added
      && var p := r.1.prescriptions[|st.prescriptions|];
      && p.prescriptionText == AdminForm.SubmittedText(s)
      && (PdfWorks(env) ==> p.prescriptionType == Both
                            && p.prescriptionFile == PdfGenerator.OutputPath(env.pdfTimestamp))
      && (!PdfWorks(env) ==> p.prescriptionType == Text && p.prescriptionFile == "")
  {
    var text := AdminForm.SubmittedText(s);
    AdminTextOnlyRequest(s, id, t);
    var fields := [(AppointmentIdField, id), (TypeField, "text"), (TextField, text)];
    var req := IncomingRequest(fields, None);
    FieldsOfThree(id, text);
    ComposedNonEmpty("", s.firstName, s.lastName, s.age, s.treatment,
                     AdminForm.MedicationsText(AdminForm.AllMedications(s)), s.dateSigned);
    TextRequestStored(st, req, id, text, env);
  }

  /** As the backend runs, a staff submission without an attachment is
      stored as text with no file: generation always rejects before the
      stream, so no PDF is attached. */
  lemma AdminTextOnlyStoredAsRun(st: Store, s: AdminForm.FormState, id: string, env: Env, t: nat)
    requires AdminForm.Complete(s) && s.file.None?
    requires Saveable(st, id, env) && AsRun(env)
    ensures var sub := AdminForm.Submit(s, id);
      && sub.Sent?
      && ReceiveSingle(sub.form, t).Success?
      && var r := AddPrescription(st, ReceiveSingle(sub.form, t).value, env);
      && r.0 == Added
      && var p := r.1.prescriptions[|st.prescriptions|];
      && p.prescriptionText == AdminForm.SubmittedText(s)
      && p.prescriptionType == Text && p.prescriptionFile == ""
  {
    AdminTextOnlyStored(st, s, id, env, t);
  }

  lemma FieldsOfThree(id: string, text: string)
    ensures var fields := [(AppointmentIdField, id), (TypeField, "text"), (TextField, text)];
      && Field(fields, AppointmentIdField) == Some(id)
      && Field(fields, TypeField) == Some("text")
      && Field(fields, TextField) == Some(text)
  {
    var fields := [(AppointmentIdField, id), (TypeField, "text"), (TextField, text)];
    FieldNamesDistinct();
    assert fields[1..][1..] == [(TextField, text)];
    assert Field(fields[1..][1..], TextField) == Some(text);
    assert Field(fields[1..], TextField) == Some(text);
    assert Field(fields[1..], TypeField) == Some("text");
  }

  /** The three body fields the handler reads have different names. */
  lemma FieldNamesDistinct()
    ensures AppointmentIdField != TypeField && AppointmentIdField != TextField && TextField != TypeField
  {
    assert |AppointmentIdField| != |TypeField|;
    assert TextField[13] != TypeField[13];
  }

  lemma FieldsOfTwo(id: string, text: string)
    ensures var fields := [(AppointmentIdField, id), (TextField, text)];
      && Field(fields, AppointmentIdField) == Some(id)
      && Field(fields, TypeField).None?
      && Field(fields, TextField) == Some(text)
  {
    var fields := [(AppointmentIdField, id), (TextField, text)];
    FieldNamesDistinct();
    assert fields[1..][1..] == [];
  }

  /** A patient submission without a file carries no type, so no PDF is
      attempted and it is stored as plain text (assuming the patient route
      hands the request to the same upload middleware and handler). */
  lemma FrontendTextOnlyStored(st: Store, s: FrontendForm.FormState, id: string, env: Env, t: nat)
    requires FrontendForm.Complete(s) && s.file.None?
    requires Saveable(st, id, env)
    ensures var sub := FrontendForm.Submit(s, id);
      && sub.Some?
      && ReceiveSingle(sub.value, t).Success?
      && var r := AddPrescription(st, ReceiveSingle(sub.value, t).value, env);
      && r.0 == Added
      && var p := r.1.prescriptions[|st.prescriptions|];
      && p.prescriptionText == FrontendForm.SubmittedText(s)
      && p.prescriptionType == Text && p.prescriptionFile == ""
  {
    var text := FrontendForm.SubmittedText(s);
    FrontendTextOnlyRequest(s, id, t);
    var req := IncomingRequest([(AppointmentIdField, id), (TextField, text)], None);
    FieldsOfTwo(id, text);
    ComposedNonEmpty(PrescriptionText.FrontendIndent, s.firstName, s.lastName, s.age, s.treatment,
                     Join(s.medications, ", "), s.dateSigned);
    TextRequestStored(st, req, id, text, env);
  }

  /** The handler's only caller check: `req.docId`, set by the doctor
      authentication middleware, must be the appointment's doctor. A patient
      submission reaching the handler with any other doctor id (a user token
      sets none) is answered "Unauthorized action" and nothing is saved. */
  lemma FrontendWithoutDoctorRejected(st: Store, s: FrontendForm.FormState, id: string, env: Env, t: nat)
    requires FrontendForm.Complete(s) && s.file.None?
    requires id in st.appointments && st.appointments[id].docId != env.docId
    ensures var sub := FrontendForm.Submit(s, id);
      && sub.Some?
      && ReceiveSingle(sub.value, t).Success?
      && var r := AddPrescription(st, ReceiveSingle(sub.value, t).value, env);
      && r.0 == Unauthorized && r.1 == st
      && ReplyMessage(r.0) == Some("Unauthorized action")
  {
    FrontendTextOnlyRequest(s, id, t);
    FieldsOfTwo(id, FrontendForm.SubmittedText(s));
  }
}

=== FILE: prescription_text.dfy ===
/** The prescription text both forms compose: a leading newline, five
    labelled lines ("Patient:", "Age:", "Treatment:", "Medications:",
    "Date:") and a closing line of six spaces. The staff form writes the
    labelled lines flush left; the patient-side form indents them by eight
    spaces. This module states how that text reads back through the
    handler's Age/Treatment scan and through the PDF generator's medication
    split. */
module PrescriptionText {
  import opened Wrappers
  import opened JsString
  import opened JsArray
  import opened PrescriptionController
  import PdfGenerator

  /** The indentation of the patient-side form's labelled lines. */
  const FrontendIndent: string := "        "

  /** The last line of both templates: the indentation before the closing backtick. */
  const Closing: string := "      "

  /** The template, as both forms write it, for a given indentation. */
  function Compose(indent: string, first: string, last: string, age: string,
                   treatment: string, medications: string, date: string): string
  {
    "\n" + (indent + "Patient: " + first + " " + last)
    + "\n" + (indent + "Age: " + age)
    + "\n" + (indent + "Treatment: " + treatment)
    + "\n" + (indent + "Medications: " + medications)
    + "\n" + (indent + "Date: " + date)
    + "\n" + Closing
  }

  /** One labelled line: "<indent><tag> <value>". */
  function LabelLine(indent: string, tag: string, value: string): string {
    indent + tag + " " + value
  }

  /** The lines of the template, one per newline-separated piece. */
  function Lines(indent: string, first: string, last: string, age: string,
                 treatment: string, medications: string, date: string): (ls: seq<string>)
    ensures |ls| == 7
  {
    ["",
     LabelLine(indent, "Patient:", first + " " + last),
     LabelLine(indent, "Age:", age),
     LabelLine(indent, "Treatment:", treatment),
     LabelLine(indent, "Medications:", medications),
     LabelLine(indent, "Date:", date),
     Closing]
  }

  /** A value that neither opens a new line nor holds a ':'. */
  predicate Plain(s: string) {
    ':' !in s && '\n' !in s
  }

  /** A label: ends in its only ':' and holds no newline. */
  predicate Tag(t: string) {
    |t| > 0 && t[|t| - 1] == ':' && ':' !in t[..|t| - 1] && '\n' !in t
  }

  /** No form value opens a new line. */
  predicate OneLineFields(indent: string, first: string, last: string, age: string,
                          treatment: string, medications: string, date: string) {
    '\n' !in indent && '\n' !in first && '\n' !in last && '\n' !in age
    && '\n' !in treatment && '\n' !in medications && '\n' !in date
  }

  /** All the form values are plain. */
  predicate PlainFields(indent: string, first: string, last: string, age: string,
                        treatment: string, medications: string, date: string) {
    Plain(indent) && Plain(first) && Plain(last) && Plain(age)
    && Plain(treatment) && Plain(medications) && Plain(date)
  }

  // ---------------------------------------------------------------------------
  // the line split
  // ---------------------------------------------------------------------------

  lemma LabelLineNoNewline(indent: string, tag: string, value: string)
    requires '\n' !in indent && '\n' !in value && Tag(tag)
    ensures '\n' !in LabelLine(indent, tag, value)
  {
    var line := LabelLine(indent, tag, value);
    forall i | 0 <= i < |line| ensures line[i] != '\n' {
      if i < |indent| { assert line[i] == indent[i]; }
      else if i < |indent| + |tag| { assert line[i] == tag[i - |indent|]; }
      else if i > |indent| + |tag| { assert line[i] == value[i - |indent| - |tag| - 1]; }
    }
  }

  /** Seven pieces joined by a separator, regrouped to the right. */
  lemma Regroup(a: string, b: string, c: string, d: string, e: string, f: string, g: string, sep: string)
    ensures a + sep + b + sep + c + sep + d + sep + e + sep + f + sep + g
            == a + sep + (b + sep + (c + sep + (d + sep + (e + sep + (f + sep + g)))))
  {
  }

  /** Seven pieces joined: the separator between each neighbouring pair. */
  lemma JoinSeven(a: string, b: string, c: string, d: string, e: string, f: string, g: string, sep: string)
    ensures Join([a, b, c, d, e, f, g], sep)
            == a + sep + (b + sep + (c + sep + (d + sep + (e + sep + (f + sep + g)))))
  {
    var ls := [a, b, c, d, e, f, g];
    JoinCons(f, [g], sep); assert [f] + [g] == ls[5..];
    JoinCons(e, ls[5..], sep); assert [e] + ls[5..] == ls[4..];
    JoinCons(d, ls[4..], sep); assert [d] + ls[4..] == ls[3..];
    JoinCons(c, ls[3..], sep); assert [c] + ls[3..] == ls[2..];
    JoinCons(b, ls[2..], sep); assert [b] + ls[2..] == ls[1..];
    JoinCons(a, ls[1..], sep); assert [a] + ls[1..] == ls;
  }

  /** The text is its lines joined by newlines. */
  lemma ComposeIsJoin(indent: string, first: string, last: string, age: string,
                      treatment: string, medications: string, date: string)
    ensures Compose(indent, first, last, age, treatment, medications, date)
            == Join(Lines(indent, first, last, age, treatment, medications, date), "\n")
  {
    var ls := Lines(indent, first, last, age, treatment, medications, date);
    LinesSpelled(indent, first, last, age, treatment, medications, date);
    JoinSeven(ls[0], ls[1], ls[2], ls[3], ls[4], ls[5], ls[6], "\n");
    Regroup(ls[0], ls[1], ls[2], ls[3], ls[4], ls[5], ls[6], "\n");
    assert ls == [ls[0], ls[1], ls[2], ls[3], ls[4], ls[5], ls[6]];
  }

  /** The template's lines, spelled as the template writes them. */
  lemma LinesSpelled(indent: string, first: string, last: string, age: string,
                     treatment: string, medications: string, date: string)
    ensures var ls := Lines(indent, first, last, age, treatment, medications, date);
      && ls[0] == "" && ls[6] == Closing
      && ls[1] == indent + "Patient: " + first + " " + last
      && ls[2] == indent + "Age: " + age
      && ls[3] == indent + "Treatment: " + treatment
      && ls[4] == indent + "Medications: " + medications
      && ls[5] == indent + "Date: " + date
      && Compose(indent, first, last, age, treatment, medications, date)
         == ls[0] + "\n" + ls[1] + "\n" + ls[2] + "\n" + ls[3] + "\n" + ls[4] + "\n" + ls[5] + "\n" + ls[6]
  {
    var ls := Lines(indent, first, last, age, treatment, medications, date);
    assert ls[1] == indent + "Patient: " + first + " " + last by {
      assert "Patient:" + " " == "Patient: ";
    }
    assert ls[2] == indent + "Age: " + age by { assert "Age:" + " " == "Age: "; }
    assert ls[3] == indent + "Treatment: " + treatment by { assert "Treatment:" + " " == "Treatment: "; }
    assert ls[4] == indent + "Medications: " + medications by {
      assert "Medications:" + " " == "Medications: ";
    }
    assert ls[5] == indent + "Date: " + date by { assert "Date:" + " " == "Date: "; }
    assert ls[0] + "\n" == "\n";
  }

  /** No line of the template holds a newline when no value does. */
  lemma LinesNoNewline(indent: string, first: string, last: string, age: string,
                       treatment: string, medications: string, date: string)
    requires OneLineFields(indent, first, last, age, treatment, medications, date)
    ensures var ls := Lines(indent, first, last, age, treatment, medications, date);
      forall i :: 0 <= i < |ls| ==> '\n' !in ls[i]
  {
    assert '\n' !in first + " " + last;
    LabelLineNoNewline(indent, "Patient:", first + " " + last);
    LabelLineNoNewline(indent, "Age:", age);
    LabelLineNoNewline(indent, "Treatment:", treatment);
    LabelLineNoNewline(indent, "Medications:", medications);
    LabelLineNoNewline(indent, "Date:", date);
  }

  /** With single-line values the text splits on '\n' into exactly the
      template's lines. */
  lemma ComposeLines(indent: string, first: string, last: string, age: string,
                     treatment: string, medications: string, date: string)
    requires OneLineFields(indent, first, last, age, treatment, medications, date)
    ensures Split(Compose(indent, first, last, age, treatment, medications, date), '\n')
            == Lines(indent, first, last, age, treatment, medications, date)
  {
    ComposeIsJoin(indent, first, last, age, treatment, medications, date);
    LinesNoNewline(indent, first, last, age, treatment, medications, date);
    SplitJoin(Lines(indent, first, last, age, treatment, medications, date), '\n');
  }

  // ---------------------------------------------------------------------------
  // which labels a line holds
  // ---------------------------------------------------------------------------

  /** A labelled line with plain indentation and value holds a label exactly
      when the label ends the line's "<indent><tag>" part. */
  lemma LabelLineContains(indent: string, tag: string, value: string, key: string)
    requires Plain(indent) && Plain(value) && Tag(tag) && Tag(key)
    ensures Contains(LabelLine(indent, tag, value), key) <==>
              |key| <= |indent| + |tag| && (indent + tag)[|indent| + |tag| - |key|..] == key
  {
    var line := LabelLine(indent, tag, value);
    var p := |indent| + |tag| - 1;
    assert line[..p + 1] == indent + tag;
    forall q | 0 <= q < |line| && q != p ensures line[q] != ':' {
      if q < |indent| { assert line[q] == indent[q]; }
      else if q < p { assert line[q] == tag[..|tag| - 1][q - |indent|]; }
      else if q > p + 1 { assert line[q] == value[q - p - 2]; }
    }
    SingleMarkContains(line, ':', p, key);
    if |key| <= p + 1 {
      assert line[p + 1 - |key|..p + 1] == (indent + tag)[|indent| + |tag| - |key|..];
    }
  }

  /** Where a label can end "<indent><tag>": inside the tag, or the tag is the
      label's tail. */
  lemma EndsTag(indent: string, tag: string, key: string)
    requires |key| <= |indent| + |tag| && (indent + tag)[|indent| + |tag| - |key|..] == key
    ensures |key| <= |tag| ==> tag[|tag| - |key|..] == key
    ensures |key| > |tag| ==> key[|key| - |tag|..] == tag
  {
    var w := indent + tag;
    if |key| <= |tag| {
      assert w[|w| - |key|..] == tag[|tag| - |key|..];
    } else {
      assert key[|key| - |tag|..] == w[|w| - |tag|..] == tag;
    }
  }

  /** A line holds a label other than its own only by ending in it. */
  lemma NotOtherLabel(indent: string, tag: string, value: string, key: string)
    requires Plain(indent) && Plain(value) && Tag(tag) && Tag(key)
    requires |key| <= |tag| ==> tag[|tag| - |key|..] != key
    requires |key| > |tag| ==> key[|key| - |tag|..] != tag
    ensures !Contains(LabelLine(indent, tag, value), key)
  {
    LabelLineContains(indent, tag, value, key);
    if Contains(LabelLine(indent, tag, value), key) {
      EndsTag(indent, tag, key);
    }
  }

  /** A line holds its own label. */
  lemma OwnLabel(indent: string, tag: string, value: string)
    requires Plain(indent) && Plain(value) && Tag(tag)
    ensures Contains(LabelLine(indent, tag, value), tag)
  {
    LabelLineContains(indent, tag, value, tag);
    assert (indent + tag)[|indent|..] == tag;
  }

  // ---------------------------------------------------------------------------
  // Age and Treatment read back
  // ---------------------------------------------------------------------------

  /** Only the "Age:" line of the template is an age line. */
  lemma AgeLineOfTemplate(indent: string, first: string, last: string, age: string,
                          treatment: string, medications: string, date: string)
    requires PlainFields(indent, first, last, age, treatment, medications, date)
    ensures var ls := Lines(indent, first, last, age, treatment, medications, date);
      && IsAgeLine(ls[2])
      && !IsAgeLine(ls[3]) && !IsAgeLine(ls[4]) && !IsAgeLine(ls[5]) && !IsAgeLine(ls[6])
  {
    NotContainsMissingChar(Closing, AgeLabel, 3);
    AgeLabelOnlyOwn(indent, age, treatment, medications, date);
  }

  /** Of the labelled lines from the age on, only the age line holds "Age:". */
  lemma AgeLabelOnlyOwn(indent: string, age: string, treatment: string, medications: string, date: string)
    requires Plain(indent) && Plain(age) && Plain(treatment) && Plain(medications) && Plain(date)
    ensures Contains(LabelLine(indent, "Age:", age), AgeLabel)
    ensures !Contains(LabelLine(indent, "Treatment:", treatment), AgeLabel)
    ensures !Contains(LabelLine(indent, "Medications:", medications), AgeLabel)
    ensures !Contains(LabelLine(indent, "Date:", date), AgeLabel)
  {
    OwnLabel(indent, "Age:", age);
    assert "Treatment:"[6..] == "ent:";
    NotOtherLabel(indent, "Treatment:", treatment, AgeLabel);
    assert "Medications:"[8..] == "ons:";
    NotOtherLabel(indent, "Medications:", medications, AgeLabel);
    assert "Date:"[1..] == "ate:";
    NotOtherLabel(indent, "Date:", date, AgeLabel);
  }

  /** Only the "Treatment:" line of the template is a treatment line. */
  lemma TreatmentLineOfTemplate(indent: string, first: string, last: string, age: string,
                                treatment: string, medications: string, date: string)
    requires PlainFields(indent, first, last, age, treatment, medications, date)
    ensures var ls := Lines(indent, first, last, age, treatment, medications, date);
      && IsTreatmentLine(ls[3])
      && !IsTreatmentLine(ls[4]) && !IsTreatmentLine(ls[5]) && !IsTreatmentLine(ls[6])
  {
    NotContainsMissingChar(Closing, TreatmentLabel, 9);
    TreatmentLabelOnlyOwn(indent, treatment, medications, date);
  }

  /** Of the labelled lines from the treatment on, only the treatment line
      holds "Treatment:", and it does not hold "Age:". */
  lemma TreatmentLabelOnlyOwn(indent: string, treatment: string, medications: string, date: string)
    requires Plain(indent) && Plain(treatment) && Plain(medications) && Plain(date)
    ensures IsTreatmentLine(LabelLine(indent, "Treatment:", treatment))
    ensures !Contains(LabelLine(indent, "Medications:", medications), TreatmentLabel)
    ensures !Contains(LabelLine(indent, "Date:", date), TreatmentLabel)
  {
    assert "Treatment:"[6..] == "ent:";
    NotOtherLabel(indent, "Treatment:", treatment, AgeLabel);
    OwnLabel(indent, "Treatment:", treatment);
    assert "Medications:"[2..] == "dications:";
    NotOtherLabel(indent, "Medications:", medications, TreatmentLabel);
    assert "Treatment:"[5..] == "ment:";
    NotOtherLabel(indent, "Date:", date, TreatmentLabel);
  }

  /** The template's last age line gives back the age written. */
  lemma AgeReadBack(indent: string, first: string, last: string, age: string,
                    treatment: string, medications: string, date: string)
    requires PlainFields(indent, first, last, age, treatment, medications, date) && IsTrimmed(age)
    ensures LastValue(Lines(indent, first, last, age, treatment, medications, date), IsAgeLine, AgeLabel, "") == age
  {
    var ls := Lines(indent, first, last, age, treatment, medications, date);
    AgeLineOfTemplate(indent, first, last, age, treatment, medications, date);
    LastWhereIs(ls, IsAgeLine, 2);
    PdfGenerator.LabelValueOfLine(indent, AgeLabel, age);
    assert ls[2] == indent + AgeLabel + " " + age;
  }

  /** The template's last treatment line gives back the treatment written. */
  lemma TreatmentReadBack(indent: string, first: string, last: string, age: string,
                          treatment: string, medications: string, date: string)
    requires PlainFields(indent, first, last, age, treatment, medications, date) && IsTrimmed(treatment)
    ensures LastValue(Lines(indent, first, last, age, treatment, medications, date), IsTreatmentLine, TreatmentLabel, "") == treatment
  {
    var ls := Lines(indent, first, last, age, treatment, medications, date);
    TreatmentLineOfTemplate(indent, first, last, age, treatment, medications, date);
    LastWhereIs(ls, IsTreatmentLine, 3);
    TreatmentLineValue(indent, treatment);
  }

  lemma TreatmentLineValue(indent: string, treatment: string)
    requires Plain(indent) && Plain(treatment) && IsTrimmed(treatment)
    ensures Contains(LabelLine(indent, "Treatment:", treatment), TreatmentLabel)
    ensures PdfGenerator.LabelValue(LabelLine(indent, "Treatment:", treatment), TreatmentLabel) == treatment
  {
    PdfGenerator.LabelValueOfLine(indent, TreatmentLabel, treatment);
  }

  /** The handler reads back the age and treatment the form wrote, whatever
      the indentation, as long as the values are plain and already trimmed. */
  lemma ExtractCompose(indent: string, first: string, last: string, age: string,
                       treatment: string, medications: string, date: string)
    requires PlainFields(indent, first, last, age, treatment, medications, date)
    requires IsTrimmed(age) && IsTrimmed(treatment)
    ensures ExtractFields(Compose(indent, first, last, age, treatment, medications, date))
            == Extracted(age, treatment)
  {
    ComposeLines(indent, first, last, age, treatment, medications, date);
    AgeReadBack(indent, first, last, age, treatment, medications, date);
    TreatmentReadBack(indent, first, last, age, treatment, medications, date);
  }

  /** A ':' inside the treatment cuts what the handler reads back: the
      value is the text between the line's first and second ':', so a
      treatment "a:b" comes back as the trimmed "a". */
  lemma ColonTruncatesTreatment(indent: string, first: string, last: string, age: string,
                                a: string, b: string, medications: string, date: string)
    requires PlainFields(indent, first, last, age, a, medications, date) && Plain(b)
    requires IsTrimmed(age)
    requires |a| >= 3 ==> a[|a| - 3..] != "Age"
    ensures ExtractFields(Compose(indent, first, last, age, a + ":" + b, medications, date))
            == Extracted(age, Trim(a))
  {
    ComposeLines(indent, first, last, age, a + ":" + b, medications, date);
    ColonAgeBack(indent, first, last, age, a, b, medications, date);
    ColonTreatmentBack(indent, first, last, age, a, b, medications, date);
  }

  /** With a treatment "a:b" the age still reads back. */
  lemma ColonAgeBack(indent: string, first: string, last: string, age: string,
                     a: string, b: string, medications: string, date: string)
    requires PlainFields(indent, first, last, age, a, medications, date) && Plain(b)
    requires IsTrimmed(age)
    requires |a| >= 3 ==> a[|a| - 3..] != "Age"
    ensures LastValue(Lines(indent, first, last, age, a + ":" + b, medications, date),
                      IsAgeLine, AgeLabel, "") == age
  {
    var ls := Lines(indent, first, last, age, a + ":" + b, medications, date);
    LabelsAreTags();
    AgeLabelOnlyOwn(indent, age, a, medications, date);
    NotContainsMissingChar(Closing, AgeLabel, 3);
    ColonLineNotAge(indent, a, b);
    LastWhereIs(ls, IsAgeLine, 2);
    PdfGenerator.LabelValueOfLine(indent, AgeLabel, age);
  }

  /** With a treatment "a:b" the treatment reads back as the trimmed "a". */
  lemma ColonTreatmentBack(indent: string, first: string, last: string, age: string,
                           a: string, b: string, medications: string, date: string)
    requires PlainFields(indent, first, last, age, a, medications, date) && Plain(b)
    requires |a| >= 3 ==> a[|a| - 3..] != "Age"
    ensures LastValue(Lines(indent, first, last, age, a + ":" + b, medications, date),
                      IsTreatmentLine, TreatmentLabel, "") == Trim(a)
  {
    var ls := Lines(indent, first, last, age, a + ":" + b, medications, date);
    var line := LabelLine(indent, "Treatment:", a + ":" + b);
    assert ls[3] == line;
    TreatmentLabelOnlyOwn(indent, a, medications, date);
    NotContainsMissingChar(Closing, TreatmentLabel, 9);
    ColonTreatmentLine(indent, a, b);
    LastTreatmentAt3(ls);
  }

  /** Of seven lines, when the fourth is the last treatment line, the scan
      keeps its value. */
  lemma LastTreatmentAt3(ls: seq<string>)
    requires |ls| == 7 && IsTreatmentLine(ls[3])
    requires !IsTreatmentLine(ls[4]) && !IsTreatmentLine(ls[5]) && !IsTreatmentLine(ls[6])
    ensures LastValue(ls, IsTreatmentLine, TreatmentLabel, "") == PdfGenerator.LabelValue(ls[3], TreatmentLabel)
  {
    LastWhereIs(ls, IsTreatmentLine, 3);
  }

  /** The treatment line of a treatment "a:b": a treatment line, not an age
      line, whose value is the trimmed "a". */
  lemma ColonTreatmentLine(indent: string, a: string, b: string)
    requires Plain(indent) && Plain(a) && Plain(b)
    requires |a| >= 3 ==> a[|a| - 3..] != "Age"
    ensures var line := LabelLine(indent, "Treatment:", a + ":" + b);
      && IsTreatmentLine(line)
      && PdfGenerator.LabelValue(line, TreatmentLabel) == Trim(a)
  {
    LabelsAreTags();
    ColonLineNotAge(indent, a, b);
    ColonLabelValue(indent, TreatmentLabel, a, b);
  }

  /** A labelled line whose value is "a:b" holds its label, and its value
      (between the first and second ':') is the trimmed "a". */
  lemma ColonLabelValue(indent: string, tag: string, a: string, b: string)
    requires Plain(indent) && Tag(tag) && Plain(a) && Plain(b)
    ensures Contains(LabelLine(indent, tag, a + ":" + b), tag)
    ensures PdfGenerator.LabelValue(LabelLine(indent, tag, a + ":" + b), tag) == Trim(a)
  {
    PdfGenerator.LabelLineContains(indent, tag, a + ":" + b);
    ColonLinePiece(indent, tag, a, b);
    assert AllWhitespace(" ");
    TrimSkipsLeading(" ", a);
  }

  /** The treatment line of a treatment "a:b" holds no "Age:" unless "a"
      ends in "Age". */
  lemma ColonLineNotAge(indent: string, a: string, b: string)
    requires Plain(indent) && Plain(a) && Plain(b)
    requires |a| >= 3 ==> a[|a| - 3..] != "Age"
    ensures !Contains(LabelLine(indent, "Treatment:", a + ":" + b), AgeLabel)
  {
    var x := LabelLine(indent, "Treatment:", a);
    assert LabelLine(indent, "Treatment:", a + ":" + b) == x + ":" + b;
    assert "Treatment:"[6..] == "ent:";
    NotOtherLabel(indent, "Treatment:", a, AgeLabel);
    assert AgeLabel[..3] == "Age";
    assert x[|x| - 3..] != "Age" by {
      if |a| >= 3 {
        assert x[|x| - 3..] == a[|a| - 3..];
      } else {
        assert x[|x| - 3] != 'A';
      }
    }
    if Contains(x + ":" + b, AgeLabel) {
      ColonJoinContains(x, b, AgeLabel);
      assert false;
    }
  }

  /** The second ':'-piece of a labelled line whose value is "a:b" is " " + a. */
  lemma ColonLinePiece(indent: string, tag: string, a: string, b: string)
    requires Plain(indent) && Tag(tag) && Plain(a) && Plain(b)
    ensures var pieces := Split(LabelLine(indent, tag, a + ":" + b), ':');
      |pieces| >= 2 && pieces[1] == " " + a
  {
    var head := indent + tag[..|tag| - 1];
    assert ':' !in head;
    var rest := (" " + a) + [':'] + b;
    assert tag == tag[..|tag| - 1] + [':'];
    assert LabelLine(indent, tag, a + ":" + b) == head + [':'] + rest;
    SplitFirst(head, rest, ':');
    assert ':' !in " " + a;
    SplitFirst(" " + a, b, ':');
  }

  // ---------------------------------------------------------------------------
  // the medication section of the PDF
  // ---------------------------------------------------------------------------

  /** Of the labelled lines up to the medications, only that one holds its label. */
  lemma MedicationsLabelOnlyOwn(indent: string, name: string, age: string, treatment: string, medications: string)
    requires Plain(indent) && Plain(name) && Plain(age) && Plain(treatment) && Plain(medications)
    ensures !Contains(LabelLine(indent, "Patient:", name), PdfGenerator.MedicationsLabel)
    ensures !Contains(LabelLine(indent, "Age:", age), PdfGenerator.MedicationsLabel)
    ensures !Contains(LabelLine(indent, "Treatment:", treatment), PdfGenerator.MedicationsLabel)
    ensures Contains(LabelLine(indent, "Medications:", medications), PdfGenerator.MedicationsLabel)
  {
    var key := PdfGenerator.MedicationsLabel;
    assert key[4..] == "cations:";
    NotOtherLabel(indent, "Patient:", name, key);
    assert key[8..] == "ons:";
    NotOtherLabel(indent, "Age:", age, key);
    assert key[2..] == "dications:";
    NotOtherLabel(indent, "Treatment:", treatment, key);
    OwnLabel(indent, "Medications:", medications);
  }

  /** No template line before the "Medications:" line holds that label. */
  predicate NoEarlierMedicationsLabel(indent: string, first: string, last: string, age: string, treatment: string) {
    && !Contains(LabelLine(indent, "Patient:", first + " " + last), PdfGenerator.MedicationsLabel)
    && !Contains(LabelLine(indent, "Age:", age), PdfGenerator.MedicationsLabel)
    && !Contains(LabelLine(indent, "Treatment:", treatment), PdfGenerator.MedicationsLabel)
  }

  /** Plain values never put the label on an earlier line. */
  lemma PlainNoEarlierLabel(indent: string, first: string, last: string, age: string,
                            treatment: string, medications: string, date: string)
    requires PlainFields(indent, first, last, age, treatment, medications, date)
    ensures OneLineFields(indent, first, last, age, treatment, medications, date)
    ensures NoEarlierMedicationsLabel(indent, first, last, age, treatment)
  {
    assert Plain(first + " " + last);
    MedicationsLabelOnlyOwn(indent, first + " " + last, age, treatment, medications);
  }

  /** The "Medications:" line is the first template line holding that label. */
  lemma MedicationLineOfTemplate(indent: string, first: string, last: string, age: string,
                                 treatment: string, medications: string, date: string)
    requires NoEarlierMedicationsLabel(indent, first, last, age, treatment)
    ensures var ls := Lines(indent, first, last, age, treatment, medications, date);
      && Contains(ls[4], PdfGenerator.MedicationsLabel)
      && PdfGenerator.FirstContaining(ls, PdfGenerator.MedicationsLabel) == Some(4)
  {
    var ls := Lines(indent, first, last, age, treatment, medications, date);
    var key := PdfGenerator.MedicationsLabel;
    PdfGenerator.LabelLineContains(indent, key, medications);
    NotContainsMissingChar("", key, 11);
    PdfGenerator.FirstContainingIs(ls, key, 4);
  }

  /** The non-blank lines from the "Medications:" line on: that line and the
      "Date:" line. */
  lemma MedicationLinesOfTemplate(indent: string, first: string, last: string, age: string,
                                  treatment: string, medications: string, date: string)
    requires NoEarlierMedicationsLabel(indent, first, last, age, treatment)
    ensures var ls := Lines(indent, first, last, age, treatment, medications, date);
      PdfGenerator.MedicationLines(ls) == [ls[4], ls[5]]
  {
    var ls := Lines(indent, first, last, age, treatment, medications, date);
    MedicationLineOfTemplate(indent, first, last, age, treatment, medications, date);
    assert ls[4..] == [ls[4], ls[5], Closing];
    SectionNonBlank(indent, medications, date);
    FilterThree(ls[4], ls[5], Closing, PdfGenerator.IsNonBlank);
  }

  /** The "Medications:" and "Date:" lines are non-blank; the closing line is blank. */
  lemma SectionNonBlank(indent: string, medications: string, date: string)
    ensures PdfGenerator.IsNonBlank(LabelLine(indent, "Medications:", medications))
    ensures PdfGenerator.IsNonBlank(LabelLine(indent, "Date:", date))
    ensures !PdfGenerator.IsNonBlank(Closing)
  {
    PdfGenerator.LabelLineContains(indent, PdfGenerator.MedicationsLabel, medications);
    PdfGenerator.LabelLineNonBlank(LabelLine(indent, "Medications:", medications));
    DateLineNonBlank(indent, date);
    ClosingBlank();
  }

  lemma DateLineNonBlank(indent: string, date: string)
    ensures PdfGenerator.IsNonBlank(LabelLine(indent, "Date:", date))
  {
    var d := LabelLine(indent, "Date:", date);
    assert d[|indent|] == 'D';
    TrimNonEmpty(d, |indent|);
  }

  lemma ClosingBlank()
    ensures !PdfGenerator.IsNonBlank(Closing)
  {
    assert AllWhitespace(Closing);
    TrimEmptyIff(Closing);
  }

  lemma FilterThree(a: string, b: string, c: string, p: string -> bool)
    requires p(a) && p(b) && !p(c)
    ensures Filter([a, b, c], p) == [a, b]
  {
    assert [c][1..] == [];
    assert Filter([c], p) == [];
    assert [b, c][1..] == [c];
    assert Filter([b, c], p) == [b];
    assert [a, b, c][1..] == [b, c];
  }

  /** The PDF generator files both the "Medications:" line and the "Date:"
      line under the medications (the closing line is blank), so the signing
      date is drawn as a medication bullet. Any single-line values do, as
      long as no earlier line holds the label. */
  lemma TemplateMedications(indent: string, first: string, last: string, age: string,
                            treatment: string, medications: string, date: string)
    requires OneLineFields(indent, first, last, age, treatment, medications, date)
    requires NoEarlierMedicationsLabel(indent, first, last, age, treatment)
    ensures var ls := Lines(indent, first, last, age, treatment, medications, date);
      && Contains(Compose(indent, first, last, age, treatment, medications, date), PdfGenerator.MedicationsLabel)
      && PdfGenerator.PartitionMedications(Compose(indent, first, last, age, treatment, medications, date)).medications
         == [ls[4], ls[5]]
  {
    var ls := Lines(indent, first, last, age, treatment, medications, date);
    var text := Compose(indent, first, last, age, treatment, medications, date);
    ComposeLines(indent, first, last, age, treatment, medications, date);
    MedicationLineOfTemplate(indent, first, last, age, treatment, medications, date);
    ContainsSplitPart(text, '\n', PdfGenerator.MedicationsLabel, 4);
    MedicationLinesOfTemplate(indent, first, last, age, treatment, medications, date);
  }

  /** The bullets drawn for the template: the medication text, then the
      "Date: …" line, for a trimmed medication text free of ':', a trimmed
      non-empty date and a whitespace indentation. An empty medication text
      (the patient-side form with no medication listed) draws no bullet of
      its own, so only the date is bulleted. */
  lemma TemplateBullets(indent: string, first: string, last: string, age: string,
                        treatment: string, medications: string, date: string)
    requires OneLineFields(indent, first, last, age, treatment, medications, date)
    requires NoEarlierMedicationsLabel(indent, first, last, age, treatment)
    requires Plain(indent) && AllWhitespace(indent)
    requires Plain(medications) && IsTrimmed(medications)
    requires IsTrimmed(date) && date != ""
    ensures medications != "" ==>
              PdfGenerator.Bullets(PdfGenerator.PartitionMedications(
                Compose(indent, first, last, age, treatment, medications, date)).medications)
              == [medications, "Date: " + date]
    ensures medications == "" ==>
              PdfGenerator.Bullets(PdfGenerator.PartitionMedications(
                Compose(indent, first, last, age, treatment, medications, date)).medications)
              == ["Date: " + date]
  {
    TemplateBulletsOf(indent, first, last, age, treatment, medications, date);
    MedicationBullet(indent, medications);
  }

  /** A ':' inside the medication text cuts the first bullet short: the
      value is the text between the line's first and second ':', so a
      medication text "a:b" (say "Take at 3:00 PM") is drawn as the trimmed
      "a" alone, and the rest of the line is lost. */
  lemma ColonTruncatesFirstBullet(indent: string, first: string, last: string, age: string,
                                  treatment: string, a: string, b: string, date: string)
    requires OneLineFields(indent, first, last, age, treatment, a, date) && Plain(b)
    requires NoEarlierMedicationsLabel(indent, first, last, age, treatment)
    requires Plain(indent) && AllWhitespace(indent)
    requires Plain(a) && Trim(a) != ""
    requires IsTrimmed(date) && date != ""
    ensures PdfGenerator.Bullets(PdfGenerator.PartitionMedications(
              Compose(indent, first, last, age, treatment, a + ":" + b, date)).medications)
            == [Trim(a), "Date: " + date]
  {
    var meds := a + ":" + b;
    assert '\n' !in meds;
    TemplateBulletsOf(indent, first, last, age, treatment, meds, date);
    ColonMedicationBullet(indent, a, b);
  }

  /** When the text before the ':' is blank (say ":30 PM"), the medications
      line draws no bullet at all and only the date is bulleted. */
  lemma ColonDropsFirstBullet(indent: string, first: string, last: string, age: string,
                              treatment: string, a: string, b: string, date: string)
    requires OneLineFields(indent, first, last, age, treatment, a, date) && Plain(b)
    requires NoEarlierMedicationsLabel(indent, first, last, age, treatment)
    requires Plain(indent) && AllWhitespace(indent)
    requires Plain(a) && Trim(a) == ""
    requires IsTrimmed(date) && date != ""
    ensures PdfGenerator.Bullets(PdfGenerator.PartitionMedications(
              Compose(indent, first, last, age, treatment, a + ":" + b, date)).medications)
            == ["Date: " + date]
  {
    var meds := a + ":" + b;
    assert '\n' !in meds;
    TemplateBulletsOf(indent, first, last, age, treatment, meds, date);
    ColonMedicationBullet(indent, a, b);
  }

  /** The bullets of a composed text: the medications line's own bullet,
      if it has one, then the trimmed "Date: …" line. */
  lemma TemplateBulletsOf(indent: string, first: string, last: string, age: string,
                          treatment: string, medications: string, date: string)
    requires OneLineFields(indent, first, last, age, treatment, medications, date)
    requires NoEarlierMedicationsLabel(indent, first, last, age, treatment)
    requires AllWhitespace(indent)
    requires IsTrimmed(date) && date != ""
    ensures PdfGenerator.Bullets(PdfGenerator.PartitionMedications(
              Compose(indent, first, last, age, treatment, medications, date)).medications)
            == PdfGenerator.FirstBullet(LabelLine(indent, "Medications:", medications)) + ["Date: " + date]
  {
    var ls := Lines(indent, first, last, age, treatment, medications, date);
    TemplateMedications(indent, first, last, age, treatment, medications, date);
    var m := LabelLine(indent, "Medications:", medications);
    var d := LabelLine(indent, "Date:", date);
    assert ls[4] == m && ls[5] == d;
    DateBullet(indent, date);
    BulletsOfTwo(m, d, PdfGenerator.FirstBullet(m), "Date: " + date);
  }

  /** The medications line of a value "a:b" gives the trimmed "a" as its
      bullet, or none when that is empty. */
  lemma ColonMedicationBullet(indent: string, a: string, b: string)
    requires Plain(indent) && Plain(a) && Plain(b)
    ensures Trim(a) != "" ==> PdfGenerator.FirstBullet(LabelLine(indent, "Medications:", a + ":" + b)) == [Trim(a)]
    ensures Trim(a) == "" ==> PdfGenerator.FirstBullet(LabelLine(indent, "Medications:", a + ":" + b)) == []
  {
    var key := PdfGenerator.MedicationsLabel;
    var line := LabelLine(indent, "Medications:", a + ":" + b);
    LabelsAreTags();
    ColonLabelValue(indent, key, a, b);
    assert Contains(line, key);
    var v := PdfGenerator.LabelValue(line, key);
    assert v == Trim(a);
  }

  /** The three labels the readers look for are tags. */
  lemma LabelsAreTags()
    ensures Tag(AgeLabel) && AgeLabel == "Age:"
    ensures Tag(TreatmentLabel) && TreatmentLabel == "Treatment:"
    ensures Tag(PdfGenerator.MedicationsLabel) && PdfGenerator.MedicationsLabel == "Medications:"
  {
  }

  /** The bullets of a two-entry list. */
  lemma BulletsOfTwo(m: string, d: string, fb: seq<string>, db: string)
    requires PdfGenerator.FirstBullet(m) == fb && Trim(d) == db
    ensures PdfGenerator.Bullets([m, d]) == fb + [db]
  {
    assert [m, d][1..] == [d];
    assert TrimEach([d]) == [db];
  }

  lemma MedicationBullet(indent: string, medications: string)
    requires Plain(indent) && Plain(medications) && IsTrimmed(medications)
    ensures medications != "" ==> PdfGenerator.FirstBullet(LabelLine(indent, "Medications:", medications)) == [medications]
    ensures medications == "" ==> PdfGenerator.FirstBullet(LabelLine(indent, "Medications:", medications)) == []
  {
    PdfGenerator.LabelValueOfLine(indent, PdfGenerator.MedicationsLabel, medications);
  }

  lemma DateBullet(indent: string, date: string)
    requires AllWhitespace(indent) && IsTrimmed(date) && date != ""
    ensures Trim(LabelLine(indent, "Date:", date)) == "Date: " + date
  {
    var line := "Date: " + date;
    assert LabelLine(indent, "Date:", date) == indent + line;
    TrimSkipsLeading(indent, line);
    DateLineTrimmed(date);
    TrimOfTrimmed(line);
  }

  lemma DateLineTrimmed(date: string)
    requires IsTrimmed(date) && date != ""
    ensures IsTrimmed("Date: " + date)
  {
    var line := "Date: " + date;
    assert line[0] == 'D';
    assert line[|line| - 1] == date[|date| - 1];
  }
}

=== FILE: records.dfy ===
/** The stored entities: the prescription document and its schema
    (`prescriptionModel`), the appointment flags the views read, the
    denormalised doctor/patient snapshots, and the multipart form a client
    sends. */
module Records {
  import opened Wrappers

  // ---------------------------------------------------------------------------
  // prescription type
  // ---------------------------------------------------------------------------

  /** The `prescriptionType` enum: text only, uploaded file only, or both. */
  datatype PrescriptionType = Text | File | Both

  /** The string stored for each enum member. */
  function TypeName(t: PrescriptionType): string {
    match t
    case Text => "text"
    case File => "file"
    case Both => "both"
  }

  /** The enum check: a string is accepted exactly when it names a member. */
  function ParseType(s: string): (r: Option<PrescriptionType>)
    ensures r.Some? <==> s == "text" || s == "file" || s == "both"
    ensures r.Some? ==> TypeName(r.value) == s
  {
    if s == "text" then Some(Text)
    else if s == "file" then Some(File)
    else if s == "both" then Some(Both)
    else None
  }

  /** Every member's stored name passes the enum check and reads back as itself. */
  lemma ParseTypeName(t: PrescriptionType)
    ensures ParseType(TypeName(t)) == Some(t)
  {
  }

  // ---------------------------------------------------------------------------
  // profiles, appointments
  // ---------------------------------------------------------------------------

  /** A calendar date as JavaScript's `Date` getters report it:
      `getFullYear`, `getMonth` (0 = January) and `getDate`. */
  datatype CalendarDate = CalendarDate(year: int, month: int, day: int)

  /** A copy of a doctor's or patient's profile (`doctorData`, `patientData`,
      `userData`): only the fields the core reads. */
  datatype Profile = Profile(id: string, name: string, speciality: string, dob: Option<CalendarDate>)

  /** An appointment with its lifecycle flags. */
  datatype Appointment = Appointment(
    id: string,
    userId: string,
    docId: string,
    slotDate: string,
    slotTime: string,
    payment: bool,
    cancelled: bool,
    isCompleted: bool,
    userData: Profile)

  // ---------------------------------------------------------------------------
  // prescription document and schema validation
  // ---------------------------------------------------------------------------

  /** A stored prescription; `id` stands for the document's `_id`. */
  datatype Prescription = Prescription(
    id: string,
    appointmentId: string,
    doctorId: string,
    patientId: string,
    prescriptionText: string,
    prescriptionFile: string,
    prescriptionType: PrescriptionType,
    createdAt: nat,
    doctorData: Profile,
    patientData: Profile)

  /** The object handed to the model constructor: any path may be missing. */
  datatype Draft = Draft(
    appointmentId: Option<string>,
    doctorId: Option<string>,
    patientId: Option<string>,
    prescriptionText: Option<string>,
    prescriptionFile: Option<string>,
    prescriptionType: Option<string>,
    doctorData: Option<Profile>,
    patientData: Option<Profile>)

  /** A `required` String path: present and, as Mongoose checks strings, non-empty. */
  predicate RequiredString(v: Option<string>) {
    v.Some? && v.value != ""
  }

  /** The enum path: required and one of the three names. */
  predicate ValidType(v: Option<string>) {
    RequiredString(v) && ParseType(v.value).Some?
  }

  /** The schema paths that fail validation, in schema order. */
  function ValidationErrors(d: Draft): (errs: seq<string>)
    ensures errs == [] <==>
      RequiredString(d.appointmentId) && RequiredString(d.doctorId) && RequiredString(d.patientId)
      && ValidType(d.prescriptionType) && d.doctorData.Some? && d.patientData.Some?
  {
    (if RequiredString(d.appointmentId) then [] else ["appointmentId"])
    + (if RequiredString(d.doctorId) then [] else ["doctorId"])
    + (if RequiredString(d.patientId) then [] else ["patientId"])
    + (if ValidType(d.prescriptionType) then [] else ["prescriptionType"])
    + (if d.doctorData.Some? then [] else ["doctorData"])
    + (if d.patientData.Some? then [] else ["patientData"])
  }

  /** Validation on save: the stored document with defaults filled in
      (`prescriptionText` and `prescriptionFile` default to ""), or the failing
      paths. Only the enum is checked on `prescriptionType`; nothing relates it
      to which of text and file are populated. */
  function Validate(d: Draft, id: string, now: nat): (r: Result<Prescription, seq<string>>)
    ensures r.Success? <==> ValidationErrors(d) == []
    ensures r.Failure? ==> r.error == ValidationErrors(d)
    ensures r.Success? ==>
      && r.value.id == id && r.value.createdAt == now
      && Some(r.value.appointmentId) == d.appointmentId
      && Some(r.value.doctorId) == d.doctorId
      && Some(r.value.patientId) == d.patientId
      && r.value.prescriptionText == d.prescriptionText.GetOr("")
      && r.value.prescriptionFile == d.prescriptionFile.GetOr("")
      && Some(TypeName(r.value.prescriptionType)) == d.prescriptionType
      && Some(r.value.doctorData) == d.doctorData
      && Some(r.value.patientData) == d.patientData
  {
    if ValidationErrors(d) != [] then Failure(ValidationErrors(d))
    else
      Success(Prescription(
        id, d.appointmentId.value, d.doctorId.value, d.patientId.value,
        d.prescriptionText.GetOr(""), d.prescriptionFile.GetOr(""),
        ParseType(d.prescriptionType.value).value, now,
        d.doctorData.value, d.patientData.value))
  }

  /** A document typed "file" whose file path is empty, or typed "text" whose
      text is empty, is accepted: the type is not tied to the contents. */
  lemma TypeNotTiedToContents(p: Profile)
    ensures Validate(Draft(Some("a"), Some("d"), Some("u"), None, None, Some("file"), Some(p), Some(p)), "x", 0).Success?
    ensures Validate(Draft(Some("a"), Some("d"), Some("u"), None, None, Some("file"), Some(p), Some(p)), "x", 0).value.prescriptionFile == ""
    ensures Validate(Draft(Some("a"), Some("d"), Some("u"), Some(""), Some("f.pdf"), Some("text"), Some(p), Some(p)), "x", 0).Success?
  {
  }

  // ---------------------------------------------------------------------------
  // multipart requests
  // ---------------------------------------------------------------------------

  /** A file picked in the browser. */
  datatype ClientFile = ClientFile(name: string, mimeType: string, size: nat)

  /** One `FormData.append` value: a string or a file. */
  datatype FormValue = TextValue(text: string) | FileValue(file: ClientFile)

  /** A `FormData`: the appended (name, value) entries, in append order. */
  type FormData = seq<(string, FormValue)>

  /** The names of a form's entries, in order. */
  function EntryNames(form: FormData): (names: seq<string>)
    ensures |names| == |form|
    ensures forall i :: 0 <= i < |form| ==> names[i] == form[i].0
  {
    seq(|form|, i requires 0 <= i < |form| => form[i].0)
  }

  /** A file as the upload middleware stored it (`req.file`). */
  datatype StoredFile = StoredFile(destination: string, filename: string, originalName: string, mimeType: string, size: nat)

  /** What a handler sees: the text fields (`req.body`) and the stored file (`req.file`). */
  datatype IncomingRequest = IncomingRequest(fields: seq<(string, string)>, file: Option<StoredFile>)

  /** `req.body[name]`: the first text field of that name, if any
      (`FieldIsFirst`). The forms send each name once; a repeated name,
      which the body parser would collect into an array, is not modelled. */
  function Field(fields: seq<(string, string)>, name: string): (r: Option<string>)
    ensures r.Some? ==> exists i :: 0 <= i < |fields| && fields[i] == (name, r.value)
    ensures r.None? <==> forall i :: 0 <= i < |fields| ==> fields[i].0 != name
    decreases |fields|
  {
    if |fields| == 0 then None
    else if fields[0].0 == name then Some(fields[0].1)
    else Field(fields[1..], name)
  }

  /** The field read is the first entry of that name: a value comes from an
      entry that no earlier entry shares its name with. */
  lemma {:induction false} FieldIsFirst(fields: seq<(string, string)>, name: string)
    ensures Field(fields, name).Some? ==>
      exists i :: 0 <= i < |fields| && fields[i] == (name, Field(fields, name).value)
                  && forall j :: 0 <= j < i ==> fields[j].0 != name
    decreases |fields|
  {
    if |fields| > 0 && fields[0].0 != name && Field(fields, name).Some? {
      var v := Field(fields, name).value;
      FieldIsFirst(fields[1..], name);
      var i :| 0 <= i < |fields[1..]| && fields[1..][i] == (name, v)
               && forall j :: 0 <= j < i ==> fields[1..][j].0 != name;
      assert fields[i + 1] == (name, v);
      forall j | 0 <= j < i + 1 ensures fields[j].0 != name {
        if j > 0 { assert fields[j] == fields[1..][j - 1]; }
      }
    } else if |fields| > 0 && fields[0].0 == name {
      assert fields[0] == (name, Field(fields, name).value);
    }
  }
}

=== FILE: upload.dfy ===
/** The upload middleware: disk storage under "uploads" with a
    timestamp-plus-extension file name, the MIME-type filter, the 10 MB size
    limit, and `single("prescriptionFile")` turning a multipart form into the
    request a handler sees. */
module Upload {
  import opened Wrappers
  import opened JsString
  import opened Records

  /** The storage directory. */
  const UploadDir: string := "uploads"

  /** The configured `limits.fileSize`, in bytes. */
  const MaxFileSize: nat := 10 * 1024 * 1024

  /** The form field the single-file upload reads. */
  const FileField: string := "prescriptionFile"

  const UnsupportedMessage: string := "Unsupported file format. Only JPEG, PNG, and PDF are allowed."

  /** Why an upload is refused. */
  datatype UploadError =
    | Unsupported(message: string)   // the file filter's error
    | TooLarge                       // LIMIT_FILE_SIZE
    | UnexpectedField(field: string) // LIMIT_UNEXPECTED_FILE

  /** The four MIME types the filter lets through. */
  predicate AcceptedType(mime: string) {
    mime in ["image/jpeg", "image/png", "image/jpg", "application/pdf"]
  }

  /** The file filter: accept (`cb(null, true)`) or reject with the error. */
  function FileFilter(mime: string): (r: Result<bool, UploadError>)
    ensures r.Success? <==> AcceptedType(mime)
    ensures r.Success? ==> r.value
    ensures r.Failure? ==> r.error == Unsupported(UnsupportedMessage)
  {
    if mime == "image/jpeg" || mime == "image/png" || mime == "image/jpg" || mime == "application/pdf"
    then Success(true)
    else Failure(Unsupported(UnsupportedMessage))
  }

  // ---------------------------------------------------------------------------
  // path.extname (POSIX)
  // ---------------------------------------------------------------------------

  function StripTrailingSlashes(p: string): (r: string)
    ensures |r| <= |p| && r == p[..|r|]
    ensures r == [] || r[|r| - 1] != '/'
    decreases |p|
  {
    if |p| > 0 && p[|p| - 1] == '/' then StripTrailingSlashes(p[..|p| - 1]) else p
  }

  /** The last path component, trailing slashes ignored. */
  function BaseName(p: string): (b: string)
    ensures '/' !in b
  {
    var q := StripTrailingSlashes(p);
    match LastIndexOf(q, '/')
    case None => q
    case Some(k) => q[k + 1..]
  }

  /** `path.extname`: from the last '.' of the last component to its end;
      empty when that component has no '.', starts with its only leading '.'
      (a dot-file), or is "..". */
  function ExtName(p: string): (e: string)
    ensures e == [] || (e[0] == '.' && '.' !in e[1..])
    ensures '/' !in e
    ensures |e| <= |BaseName(p)| && e == BaseName(p)[|BaseName(p)| - |e|..]
  {
    var b := BaseName(p);
    match LastIndexOf(b, '.')
    case None => ""
    case Some(k) =>
      if k == 0 || b == ".." then ""
      else
        DotSuffix(b, k);
        b[k..]
  }

  /** The suffix of a slash-free component from its last '.' on. */
  lemma DotSuffix(b: string, k: nat)
    requires '/' !in b && k < |b| && b[k] == '.' && '.' !in b[k + 1..]
    ensures var e := b[k..];
      && e[0] == '.' && '.' !in e[1..] && '/' !in e
      && |e| <= |b| && e == b[|b| - |e|..]
  {
    var e := b[k..];
    assert e[1..] == b[k + 1..];
    forall i | 0 <= i < |e| ensures e[i] != '/' {
      assert e[i] == b[k + i];
    }
  }

  /** A name with a non-empty stem keeps the part after its last '.'. */
  lemma ExtNameOfStem(stem: string, ext: string)
    requires |stem| > 0 && '/' !in stem && '/' !in ext && '.' !in ext
    requires !(stem == "." && ext == "")
    ensures ExtName(stem + "." + ext) == "." + ext
  {
    var n := stem + "." + ext;
    assert BaseName(n) == n by {
      assert n[|n| - 1] != '/' by {
        if ext == [] { assert n[|n| - 1] == '.'; } else { assert n[|n| - 1] == ext[|ext| - 1]; }
      }
      assert '/' !in n;
    }
    assert LastIndexOf(n, '.') == Some(|stem|) by {
      assert n[|stem|] == '.';
      assert n[|stem| + 1..] == ext;
    }
    assert n != ".." by {
      if |n| == 2 { assert stem == [n[0]] && ext == []; }
    }
    assert n[|stem|..] == "." + ext;
  }

  /** A dot-file such as ".env" has no extension. */
  lemma ExtNameOfDotFile(name: string)
    requires '/' !in name && '.' !in name
    ensures ExtName("." + name) == ""
  {
    var n := "." + name;
    assert n[|n| - 1] != '/';
    assert BaseName(n) == n;
    assert n[1..] == name;
  }

  /** `Date.now() + path.extname(originalname)`: the decimal timestamp
      followed by the extension. */
  function StoredName(timestamp: nat, originalName: string): (r: string)
    ensures '/' !in r
    ensures |NatToString(timestamp)| <= |r|
    ensures |r| > |NatToString(timestamp)| ==> r[|NatToString(timestamp)|] == '.'
  {
    NatToString(timestamp) + ExtName(originalName)
  }

  /** The longest prefix made of decimal digits. */
  function LeadingDigits(s: string): (d: string)
    ensures AllDigits(d) && |d| <= |s| && d == s[..|d|]
    ensures |d| < |s| ==> !IsDigit(s[|d|])
    decreases |s|
  {
    if |s| > 0 && IsDigit(s[0]) then [s[0]] + LeadingDigits(s[1..]) else []
  }

  /** The stored name starts with exactly the timestamp's digits, so it
      determines the timestamp whatever the extension. */
  lemma {:induction false} StoredNameTimestamp(timestamp: nat, originalName: string)
    ensures LeadingDigits(StoredName(timestamp, originalName)) == NatToString(timestamp)
    ensures ParseDigits(LeadingDigits(StoredName(timestamp, originalName))) == timestamp
  {
    LeadingDigitsOfNumeral(NatToString(timestamp), ExtName(originalName));
    ParseNatToString(timestamp);
  }

  lemma {:induction false} LeadingDigitsOfNumeral(digits: string, rest: string)
    requires AllDigits(digits)
    requires rest == [] || !IsDigit(rest[0])
    ensures LeadingDigits(digits + rest) == digits
    decreases |digits|
  {
    if |digits| > 0 {
      assert (digits + rest)[1..] == digits[1..] + rest;
      LeadingDigitsOfNumeral(digits[1..], rest);
    } else {
      assert digits + rest == rest;
    }
  }

  /** Two uploads stored at different timestamps never share a name. */
  lemma StoredNamesDistinct(t1: nat, n1: string, t2: nat, n2: string)
    requires t1 != t2
    ensures StoredName(t1, n1) != StoredName(t2, n2)
  {
    StoredNameTimestamp(t1, n1);
    StoredNameTimestamp(t2, n2);
  }

  // ---------------------------------------------------------------------------
  // single("prescriptionFile")
  // ---------------------------------------------------------------------------

  /** Storing one file: the filter runs first, then the size limit (a file of
      exactly the limit passes). */
  function Store(f: ClientFile, timestamp: nat): (r: Result<StoredFile, UploadError>)
    ensures r.Success? <==> AcceptedType(f.mimeType) && f.size <= MaxFileSize
    ensures !AcceptedType(f.mimeType) ==> r == Failure(Unsupported(UnsupportedMessage))
    ensures AcceptedType(f.mimeType) && f.size > MaxFileSize ==> r == Failure(TooLarge)
    ensures r.Success? ==>
              (r.value.destination == UploadDir
               && r.value.filename == StoredName(timestamp, f.name)
               && r.value.originalName == f.name && r.value.size == f.size)
  {
    match FileFilter(f.mimeType)
    case Failure(e) => Failure(e)
    case Success(_) =>
      if f.size > MaxFileSize then Failure(TooLarge)
      else Success(StoredFile(UploadDir, StoredName(timestamp, f.name), f.name, f.mimeType, f.size))
  }

  /** The text entries of a form, in order (`req.body`). */
  function TextFields(form: FormData): (fields: seq<(string, string)>)
    ensures |fields| <= |form|
    ensures forall i :: 0 <= i < |form| && form[i].1.TextValue? ==> (form[i].0, form[i].1.text) in fields
    decreases |form|
  {
    if |form| == 0 then []
    else match form[0].1
      case TextValue(t) => [(form[0].0, t)] + TextFields(form[1..])
      case FileValue(_) => TextFields(form[1..])
  }

  /** The file entries of a form, with their field names. */
  function FileEntries(form: FormData): (files: seq<(string, ClientFile)>)
    ensures |files| <= |form|
    decreases |form|
  {
    if |form| == 0 then []
    else match form[0].1
      case FileValue(f) => [(form[0].0, f)] + FileEntries(form[1..])
      case TextValue(_) => FileEntries(form[1..])
  }

  /** `upload.single("prescriptionFile")`: text entries become the body; at
      most one file, under that field, is stored; a file under another field
      is an unexpected field. The first file meets the filter and the size
      limit before a second one arrives, so a second file is reported as an
      unexpected field only when the first was accepted; otherwise the first
      file's error is the one the request fails with. */
  function ReceiveSingle(form: FormData, timestamp: nat): (r: Result<IncomingRequest, UploadError>)
    ensures FileEntries(form) == [] ==> r == Success(IncomingRequest(TextFields(form), None))
    ensures r.Success? ==> r.value.fields == TextFields(form)
    ensures r.Success? && r.value.file.Some? ==>
              (|FileEntries(form)| == 1 && FileEntries(form)[0].0 == FileField
               && r.value.file.value.destination == UploadDir)
    ensures var files := FileEntries(form);
      |files| > 0 && files[0].0 != FileField ==> r == Failure(UnexpectedField(files[0].0))
    ensures var files := FileEntries(form);
      |files| > 1 && files[0].0 == FileField ==>
        var stored := Store(files[0].1, timestamp);
        && (stored.Failure? ==> r == Failure(stored.error))
        && (stored.Success? ==> r == Failure(UnexpectedField(files[1].0)))
    ensures var files := FileEntries(form);
      |files| == 1 && files[0].0 == FileField ==>
        var stored := Store(files[0].1, timestamp);
        && (r.Success? <==> stored.Success?)
        && (stored.Success? ==> r.value.file == Some(stored.value))
        && (stored.Failure? ==> r == Failure(stored.error))
  {
    var files := FileEntries(form);
    if |files| == 0 then Success(IncomingRequest(TextFields(form), None))
    else if files[0].0 != FileField then Failure(UnexpectedField(files[0].0))
    else
      match Store(files[0].1, timestamp)
      case Failure(e) => Failure(e)
      case Success(s) =>
        if |files| > 1 then Failure(UnexpectedField(files[1].0))
        else Success(IncomingRequest(TextFields(form), Some(s)))
  }

  /** A form of text entries, in order. */
  function TextEntries(texts: seq<(string, string)>): (form: FormData)
    ensures |form| == |texts|
    ensures forall i :: 0 <= i < |texts| ==> form[i] == (texts[i].0, TextValue(texts[i].1))
  {
    seq(|texts|, i requires 0 <= i < |texts| => (texts[i].0, TextValue(texts[i].1)))
  }

  /** Text entries followed by one file: the texts are the body and the file
      is the only file entry. */
  lemma {:induction false} TextsThenFile(texts: seq<(string, string)>, name: string, f: ClientFile)
    ensures var form := TextEntries(texts) + [(name, FileValue(f))];
      TextFields(form) == texts && FileEntries(form) == [(name, f)]
    decreases |texts|
  {
    var form := TextEntries(texts) + [(name, FileValue(f))];
    if |texts| > 0 {
      assert form[1..] == TextEntries(texts[1..]) + [(name, FileValue(f))];
      TextsThenFile(texts[1..], name, f);
      assert texts == [texts[0]] + texts[1..];
    }
  }

  /** The request a form with one accepted attachment under the expected
      field yields: its text entries as the body and the file stored under
      the uploads directory with a timestamped name. */
  lemma ReceiveOneAcceptedFile(texts: seq<(string, string)>, f: ClientFile, timestamp: nat)
    requires AcceptedType(f.mimeType) && f.size <= MaxFileSize
    ensures ReceiveSingle(TextEntries(texts) + [(FileField, FileValue(f))], timestamp)
            == Success(IncomingRequest(texts,
                 Some(StoredFile(UploadDir, StoredName(timestamp, f.name), f.name, f.mimeType, f.size))))
  {
    TextsThenFile(texts, FileField, f);
  }

  /** Text entries followed by two files: both are file entries, in order. */
  lemma {:induction false} TextsThenTwoFiles(texts: seq<(string, string)>, f1: ClientFile, f2: ClientFile)
    ensures var form := TextEntries(texts) + [(FileField, FileValue(f1)), (FileField, FileValue(f2))];
      FileEntries(form) == [(FileField, f1), (FileField, f2)]
    decreases |texts|
  {
    var form := TextEntries(texts) + [(FileField, FileValue(f1)), (FileField, FileValue(f2))];
    if |texts| > 0 {
      assert form[1..] == TextEntries(texts[1..]) + [(FileField, FileValue(f1)), (FileField, FileValue(f2))];
      TextsThenTwoFiles(texts[1..], f1, f2);
    } else {
      assert form[1..] == [(FileField, FileValue(f2))];
    }
  }

  /** Two files under the expected field: the request fails with the first
      file's own error when the filter or the size limit rejects it, and as
      an unexpected second "prescriptionFile" only when the first passes. */
  lemma SecondFileReportsFirstError(texts: seq<(string, string)>, f1: ClientFile, f2: ClientFile, timestamp: nat)
    ensures var r := ReceiveSingle(TextEntries(texts) + [(FileField, FileValue(f1)), (FileField, FileValue(f2))], timestamp);
      && (!AcceptedType(f1.mimeType) ==> r == Failure(Unsupported(UnsupportedMessage)))
      && (AcceptedType(f1.mimeType) && f1.size > MaxFileSize ==> r == Failure(TooLarge))
      && (AcceptedType(f1.mimeType) && f1.size <= MaxFileSize ==> r == Failure(UnexpectedField(FileField)))
  {
    TextsThenTwoFiles(texts, f1, f2);
  }
}

=== FILE: wrappers.dfy ===
/** Optional values and success/failure results, used wherever the JavaScript
    code has `undefined`/`null` or returns an error instead of a value. */
module Wrappers {

  datatype Option<+T> = None | Some(value: T) {

    /** The value, or `default` when absent (the `x || default` idiom). */
    function GetOr(default: T): T {
      match this
      case Some(v) => v
      case None => default
    }
  }

  datatype Result<+R, +E> = Success(value: R) | Failure(error: E)
}
